=== FILE: README.md ===
# Talkie project-file and contract scripts, modelled in Dafny

This project models four Python scripts of the Talkie repository. Each one is
modelled as pure functions over strings (`seq<char>`), with lemmas about how they
behave.

- **scripts/sync-xcode-files.py** keeps the Swift sources on disk in step with
  `project.pbxproj`:
  - It walks the source tree without entering build and package directories.
    It then compares leaf `.swift` names with the names of the
    `PBXFileReference` entries.
  - For each missing file it resolves, or creates, the `PBXGroup` chain that
    matches the file's directories.
  - It then writes four entries: a file reference, a child of the parent group,
    a build file, and an entry in the first `Sources` build phase.
  - `--check`, `--diff` and `--dry-run` stop before writing. A real run copies a
    backup first and then writes.
  - Modules: `SourceTree`, `PbxScan`, `PbxGroups`, `PbxEdit`, `Splices`,
    `SyncMain`, `Uuids`.
- **macOS/Talkie/add_files_to_xcode.py** is the older batch edit (module
  `LegacyAddFiles`):
  - It draws a file-reference id and a build-file id per listed path.
  - It inserts all file-reference lines after the first file-reference section
    marker, and all build-file lines after the first build-file section marker.
  - After each occurrence of the Sources-phase section marker, it appends the
    build ids to the first `files = ( … );` list that follows. A project with one
    such marker gets them in its first Sources phase only.
  - It draws group ids but never writes them.
- **scripts/verify-xpc-contracts.py** checks the XPC protocol contracts (module
  `XpcContracts`):
  - It finds the protocol body by brace counting.
  - It splits each `func`'s parameter text at commas at nesting depth zero and
    builds `name(label:label:)` selectors.
  - It sorts methods by name and hashes the name list.
  - Symbol-graph lists take precedence over source lists under the same key. The
    exit status is 0 exactly when there is one list, or several lists whose hashes
    all agree.
- **scripts/top_hotspots.py** ranks profiler hotspots (modules `Hotspots` and
  `Counter`):
  - It parses the load address.
  - It keeps the addresses within 256 MiB above the load address and pairs them
    with the `atos` output lines.
  - It strips the ` (file:line)`, ` + offset` and ` (in Module)` suffixes from
    symbol names.
  - It counts weighted frames in an insertion-ordered `Counter` and takes
    `most_common(n)`. The `--raw` mode counts by address instead.

Shared modules:
- `Wrappers` holds `Option` and `Result`.
- `Text` models Python's `find`, `strip`, `split`, `join`, `replace` and slicing,
  plus `\s`, `\w` and `\d`.
- `Sorting` holds a stable insertion sort with Python's string and path ordering.
- `HexText` models `hex()`, `uuid.hex` and `int(_, 16)`.

Each regular expression is modelled as a predicate that says where it matches,
plus a search for the leftmost such position. Its greedy or lazy choices are
spelled out in the predicate and proved where they matter.

Inputs that come from outside the script are parameters:
- the random draws of `uuid4`;
- the directory tree;
- the project text;
- the `atos` output;
- the symbol graphs;
- the hash digest.

Writes to disk are returned as values (`SyncMain.Effect`).

Behaviours of the code that the model keeps:
- `add_child_to_group` puts a new child **first** in the children list, not
  last.
- It changes nothing when the group's header has no `/* name */` comment. This
  includes the main group as Xcode usually writes it.
- The build-file id also goes **first** in the `files` list of the first Sources
  phase.
- There is a single project. Root-level files attach to `mainGroup`; there is no
  named source group.

## Model

| member | source | states |
|---|---|---|
| Uuids.GenerateUuid | scripts/sync-xcode-files.py:38-40 | the id is 24 upper-case hex digits. Digit 13 is the version `4`, digit 17 is one of `8 9 A B`, and every other digit is the upper-cased drawn digit (the same function is at macOS/Talkie/add_files_to_xcode.py:43-45) |
| Uuids.Uuid4Hex | scripts/sync-xcode-files.py:40 | `uuid4().hex` is 32 hex digits |
| SourceTree.FindSwiftFiles | scripts/sync-xcode-files.py:43-51 | the result is sorted in path order. A path is in it exactly when it names a `.swift` file reached through unpruned directories, and it is a permutation of the walk |
| SourceTree.WalkReaches | scripts/sync-xcode-files.py:46-50 | the pruned walk collects exactly the reachable `.swift` files |
| SourceTree.FoundPathShape | scripts/sync-xcode-files.py:47-50 | every found path ends in a `.swift` file name, and none of its directories is in the skip set or ends in `.xcodeproj` |
| SourceTree.PrunedNotFound | scripts/sync-xcode-files.py:35-47 | a file below a skipped directory is never reported |
| PbxScan.RefNameAtSpec | scripts/sync-xcode-files.py:56 | the matcher yields group `x` at `p` exactly when `/\* ([^*]+\.swift) \*/ = \{isa = PBXFileReference` matches at `p` with that group |
| PbxScan.RefMatchesDisjoint | scripts/sync-xcode-files.py:56-57 | two file-reference matches never overlap, so `findall`'s resumption skips none |
| PbxScan.ScanRefsComplete | scripts/sync-xcode-files.py:57 | the left-to-right scan reports a name exactly when the pattern matches with it at or after the start |
| PbxScan.ScanRefsSound | scripts/sync-xcode-files.py:57 | every reported name comes from a match at or after the start |
| PbxScan.ScanRefsFinds | scripts/sync-xcode-files.py:57 | every match at or after the start is reported |
| PbxScan.FileRefNames | scripts/sync-xcode-files.py:54-57 | `get_files_in_project` is exactly the set of groups of the pattern's matches |
| PbxScan.Missing | scripts/sync-xcode-files.py:283-286 | `missing` keeps exactly the files whose leaf name is not a file-reference name, and is no longer than the input. It is empty when every name is known |
| PbxScan.MissingInOrder | scripts/sync-xcode-files.py:283-286 | `missing` lists its files at increasing positions of the walk's order, and every file with an unknown name is among them |
| PbxScan.UnknownMembers | scripts/sync-xcode-files.py:284-286 | filtering by the unknown-name flags keeps exactly the files whose name is unknown |
| PbxScan.MissingIff | scripts/sync-xcode-files.py:283-286 | a file is missing exactly when no file-reference match carries its leaf name |
| PbxScan.MainGroup | scripts/sync-xcode-files.py:114-117 | `None` exactly when `mainGroup = (\w{24})` matches nowhere; otherwise the 24 word characters of the leftmost match |
| PbxScan.InsertAfterMarker | scripts/sync-xcode-files.py:164-168 | without the marker the text is unchanged. Otherwise the entry is spliced one past the character after the first marker, clamped to the end, and the text grows by the entry's length |
| PbxGroups.SkipSpaces | scripts/sync-xcode-files.py:67 | a greedy `\s*` stops at the first non-space character |
| PbxGroups.HeaderAt | scripts/sync-xcode-files.py:67 | a header match has a 24-word-character id, ends in `isa = PBXGroup;`, and its stripped comment name has no space at either end |
| PbxGroups.BlockEndFromSpec | scripts/sync-xcode-files.py:77-84 | the counting loop stops at the first `}` that brings the count to zero, and finds none only when no such brace exists |
| PbxGroups.BlockEnd | scripts/sync-xcode-files.py:73-86 | the block ends just after the first brace that returns the depth to zero. There is none only when the depth never returns to zero |
| PbxGroups.WordTokens | scripts/sync-xcode-files.py:92 | every child id found is 24 word characters |
| PbxGroups.ChildrenOf | scripts/sync-xcode-files.py:89-92 | children are 24-word-character runs, and there are none without a `children = (…)` list |
| PbxGroups.PathOf | scripts/sync-xcode-files.py:95-96 | without a `path = …;` the path is the comment name. With one, the path is stripped of quotes at both ends |
| PbxGroups.PathOfExplicit | scripts/sync-xcode-files.py:95-96 | with a `path = …;`, the path is the text after the first one up to its `;`, stripped of whitespace and then of quotes |
| PbxGroups.ParseGroups | scripts/sync-xcode-files.py:60-104 | every recorded id is 24 word characters. That each recorded group is the one parsed from a header for its id is `PbxGroups.ParseGroupsSound`; for one recorded entry, the id shape is `PbxGroups.RecordedId` |
| PbxGroups.ParseGroupsSound | scripts/sync-xcode-files.py:60-104 | every recorded id has a header for that id in the text, and its entry is the group parsed from such a header |
| PbxGroups.RecordedId | scripts/sync-xcode-files.py:67-70 | every recorded id is 24 word characters |
| PbxGroups.FirstChildWithPath | scripts/sync-xcode-files.py:124-128 | it returns the first child that is a known group with the wanted path, and `None` exactly when no child is |
| PbxGroups.FindChild | scripts/sync-xcode-files.py:123-130 | a found child is a known child of the current group with the wanted path. `None` when the current group is unknown or no child has that path |
| PbxGroups.FindGroupByPath | scripts/sync-xcode-files.py:107-132 | an empty path or a missing `mainGroup` gives `None` |
| PbxGroups.DescendChain | scripts/sync-xcode-files.py:121-132 | what the descent finds is the end of a chain of known groups whose paths spell out the parts |
| PbxGroups.ChainDescend | scripts/sync-xcode-files.py:121-132 | when sibling paths are unique, the descent finds the end of every such chain |
| PbxEdit.ChildListAt | scripts/sync-xcode-files.py:138 | a match starts with `<id> /* ` and yields a position just after a `(` that has a `)` later |
| PbxEdit.ChildListHeader | scripts/sync-xcode-files.py:138-144 | the position a match yields is directly after that group's `children = (` |
| PbxEdit.ChildWritten | scripts/sync-xcode-files.py:140-146 | when `add_child_to_group` changes the text, the line `<child> /* <name> */,` is in it |
| PbxEdit.AddChildToGroup | scripts/sync-xcode-files.py:135-146 | the text is unchanged exactly when the pattern matches nowhere. Otherwise it is the text with the child line inserted at the list start of the leftmost match, and nothing else changes |
| PbxEdit.AddChildNeedsComment | scripts/sync-xcode-files.py:138 | a group whose id is never followed by ` /* ` (no comment) gains no child |
| PbxEdit.AddChildPrepends | scripts/sync-xcode-files.py:140-146 | after the edit the list text is the new line followed by the old list, and its ids are the new id followed by the old ones |
| PbxEdit.ChildEntryTokens | scripts/sync-xcode-files.py:143 | the inserted child line adds exactly its own id to the list's ids |
| PbxEdit.CreateGroup | scripts/sync-xcode-files.py:149-173 | the edit keeps every guarded token. Without the group marker it only adds the child, and with the marker it adds at least the group entry |
| PbxEdit.EnsureFrom | scripts/sync-xcode-files.py:188-204 | each part draws at most one id. Drawing none means the text is unchanged and the existing chain was followed. An existing full chain is followed without creating anything, and every guarded token is kept |
| PbxEdit.EnsureGroupPath | scripts/sync-xcode-files.py:176-206 | fails exactly when there is no `mainGroup`. With no parts it returns the text unchanged and the `mainGroup` id. Otherwise it draws at most one id per part and keeps every guarded token |
| PbxEdit.EnsureFindsExisting | scripts/sync-xcode-files.py:176-206 | it creates nothing and returns group `g` exactly when `find_group_by_path` finds `g` for the same parts |
| PbxEdit.SourcesListAt | scripts/sync-xcode-files.py:249 | a Sources-phase match starts at `/* Sources */ = {` and yields a position just after a `(` that has a `)` later |
| PbxEdit.SourcesListHeader | scripts/sync-xcode-files.py:249-255 | the position a match yields is directly after the last `files = (` before the phase's first `}` |
| PbxEdit.SourcesWritten | scripts/sync-xcode-files.py:251-257 | when step 5 changes the text, the line `<build id> /* <name> in Sources */` is in it |
| PbxEdit.AddToSources | scripts/sync-xcode-files.py:249-257 | the text is unchanged exactly when no Sources phase matches. Otherwise the build-file line is inserted first in the list of the leftmost match, and nothing else changes |
| PbxEdit.PlaceParent | scripts/sync-xcode-files.py:218-224 | fails only for a file below a directory when there is no `mainGroup`, and keeps every guarded token. When the directory path already exists as groups, the text is unchanged, no id is drawn, and the parent is the group `find_group_by_path` finds |
| PbxEdit.WriteEntries | scripts/sync-xcode-files.py:226-257 | the four insertions keep every guarded token. For a file name that is a comment name (`Splices.CommentName`) and with their markers present, the file-reference line and the build-file line (whose `fileRef` is the file-reference id) are in the result. When the parent's children list was found, the child line is in the result. When a Sources phase was found, the Sources line is in the result |
| PbxEdit.AddFile | scripts/sync-xcode-files.py:209-259 | fails exactly when a file below a directory meets a text without `mainGroup`. It draws the file-reference id, then the build-file id, then at most one id per directory. When their markers are present and the name is a comment name (`Splices.CommentName`), the file-reference and build-file lines are in the result, and the build file's `fileRef` is the freshly drawn file-reference id |
| PbxEdit.FileRefWritten | scripts/sync-xcode-files.py:227-233 | with the file-reference marker present, the new file-reference line is in the text |
| PbxEdit.BuildFileWritten | scripts/sync-xcode-files.py:240-246 | with the build-file marker present, the new build-file line (pointing at the file-reference id) is in the text |
| Splices.NotInside | scripts/sync-xcode-files.py:163-168 | no insertion point of the edits falls strictly inside a guarded token of the right shape |
| Splices.SpliceKeeps | scripts/sync-xcode-files.py:167-168 | an insertion keeps every guarded token, shifted by the entry when the entry lands before it |
| Splices.SafeEditKeeps | scripts/sync-xcode-files.py:164-168 | an edit that splices one entry at an insertion point keeps every kept token |
| Splices.MarkerInsertSafe | scripts/sync-xcode-files.py:229-233 | inserting after a section marker is such an edit |
| Splices.ParenInsertSafe | scripts/sync-xcode-files.py:140-146 | inserting right after a list's `(` is such an edit |
| Splices.RefTokenShape | scripts/sync-xcode-files.py:56 | the text the file-reference pattern matches, for a name without `(`, has the shape that insertions keep |
| Splices.KeepsTrans | scripts/sync-xcode-files.py:305-306 | token preservation composes across successive edits |
| Splices.InsertedKept | scripts/sync-xcode-files.py:227-233 | an inserted entry leaves its inner token kept when what precedes the token ends in neither `/` nor `*` |
| SyncMain.ParseFlags | scripts/sync-xcode-files.py:265-267 | each flag is set exactly when its option appears anywhere in `argv` |
| SyncMain.AddAll | scripts/sync-xcode-files.py:305-306 | adding only root-level files never fails. A successful loop draws at least two ids per file and keeps every guarded token |
| SyncMain.RunSync | scripts/sync-xcode-files.py:269-271 | without the project file the run stops with no effects |
| SyncMain.Decide | scripts/sync-xcode-files.py:279-336 | in sync exactly when nothing is missing. A run has effects exactly when it applies, which needs none of `--check`, `--diff` or `--dry-run`. The effects are the backup of the original and then the write |
| SyncMain.CheckOnlyLists | scripts/sync-xcode-files.py:300-302 | `--check` lists the missing files, or reports sync, and never writes |
| SyncMain.AppliedText | scripts/sync-xcode-files.py:305-333 | the written text is the result of adding every missing file in order, starting from the original |
| SyncMain.KeptRecognised | scripts/sync-xcode-files.py:54-57 | a guarded file-reference match is reported by `get_files_in_project` |
| SyncMain.AddFileRecognised | scripts/sync-xcode-files.py:227-233 | after `add_file_to_project`, the added name's file-reference match is in the text and the marker is still there |
| SyncMain.AddAllRecognises | scripts/sync-xcode-files.py:305-306 | after the loop, every added file's name is matched in the final text |
| SyncMain.FileSeen | scripts/sync-xcode-files.py:283-286 | a file that was present or was added is reported by the scan of the written text |
| SyncMain.NoneMissing | scripts/sync-xcode-files.py:283-290 | nothing is missing once every file's name is reported |
| SyncMain.WrittenInSync | scripts/sync-xcode-files.py:280-290 | the written text leaves none of the found files missing |
| SyncMain.SyncIdempotent | scripts/sync-xcode-files.py:279-333 | running again on the written text finds everything in sync and writes nothing |
| LegacyAddFiles.Basename | macOS/Talkie/add_files_to_xcode.py:60 | the base name has no `/`, ends the path, and is preceded by `/` when shorter than it |
| LegacyAddFiles.InsertionOrder | macOS/Talkie/add_files_to_xcode.py:58-62 | dict keys are listed once, are exactly the assigned keys, and are the assignment order when no key repeats |
| LegacyAddFiles.Assigned | macOS/Talkie/add_files_to_xcode.py:58-62 | the dict's keys are exactly the listed paths |
| LegacyAddFiles.AssignedValue | macOS/Talkie/add_files_to_xcode.py:61-62 | a key's value is the id of its last assignment |
| LegacyAddFiles.LegacyIdsPaired | macOS/Talkie/add_files_to_xcode.py:58-62 | both dicts have the same keys in the same order, each path once. Its file-reference id and build-file id are the two draws of its last listing |
| LegacyAddFiles.UuidStreamIds | macOS/Talkie/add_files_to_xcode.py:43-45 | every drawn id is 24 upper-case hex digits |
| LegacyAddFiles.IdGroups | macOS/Talkie/add_files_to_xcode.py:65-68 | exactly the groups outside the three existing ones get an id, without repeats |
| LegacyAddFiles.LegacyGroupIdsUnused | macOS/Talkie/add_files_to_xcode.py:65-68 | group ids are drawn after the file ids, one per new group. Two runs whose file ids agree write the same text, so the group section is untouched |
| LegacyAddFiles.FileRefLines | macOS/Talkie/add_files_to_xcode.py:75-78 | one file-reference line per path |
| LegacyAddFiles.BuildLines | macOS/Talkie/add_files_to_xcode.py:90-94 | one build-file line per path |
| LegacyAddFiles.LegacyLinesOf | macOS/Talkie/add_files_to_xcode.py:75-94 | a path's two lines sit at the same index of the two blocks. The build line's `fileRef` is that path's file-reference id |
| LegacyAddFiles.ReplaceFirstAbsent | macOS/Talkie/add_files_to_xcode.py:81-83 | without the marker the text is unchanged |
| LegacyAddFiles.ReplaceFirstPlaces | macOS/Talkie/add_files_to_xcode.py:81-83 | the block goes once, on the line after the first marker, and the text before and after is kept |
| LegacyAddFiles.InsertedLineAt | macOS/Talkie/add_files_to_xcode.py:81-83 | each line of the block sits one line below the first marker |
| LegacyAddFiles.LaterTextShifts | macOS/Talkie/add_files_to_xcode.py:96-98 | text after the marker moves down by the block and two newlines |
| LegacyAddFiles.EarlierMarkerStays | macOS/Talkie/add_files_to_xcode.py:81-98 | the first insertion leaves an earlier first marker of the second section in place |
| LegacyAddFiles.TwoInsertionsKeep | macOS/Talkie/add_files_to_xcode.py:81-98 | after both insertions, a line of each block is in the text |
| LegacyAddFiles.PhaseMatch | macOS/Talkie/add_files_to_xcode.py:104 | a match is the marker, then a later `files = (`, then a later `);` |
| LegacyAddFiles.PhaseMatchLeftmost | macOS/Talkie/add_files_to_xcode.py:104 | the match is the leftmost one and each lazy `.*?` stops at its first anchor. `None` only when no marker, `files = (`, `);` triple exists |
| LegacyAddFiles.PhaseCloses | macOS/Talkie/add_files_to_xcode.py:104-118 | the closes of successive non-overlapping matches, left to right. There are none exactly when nothing matches |
| LegacyAddFiles.AppendToPhases | macOS/Talkie/add_files_to_xcode.py:118 | without a match the text is unchanged |
| LegacyAddFiles.PhasesAppended | macOS/Talkie/add_files_to_xcode.py:104-118 | in every match, the new entries followed by `);` stand where the `);` stood, after the existing entries |
| LegacyAddFiles.PhasesKeep | macOS/Talkie/add_files_to_xcode.py:104-118 | every existing line without `)` that does not start with `;` is kept |
| LegacyAddFiles.SourcesKeepLine | macOS/Talkie/add_files_to_xcode.py:104-118 | a written line survives step 3 |
| LegacyAddFiles.LegacyEntriesWritten | macOS/Talkie/add_files_to_xcode.py:70-118 | when the build-file section marker comes before the file-reference section marker, each listed path's file-reference line and its build-file line (whose `fileRef` is that same file-reference id) are in the written text |
| LegacyAddFiles.AddFilesToProject | macOS/Talkie/add_files_to_xcode.py:47-132 | a text with neither section marker and no Sources phase is written back unchanged. The lines it writes are stated by `LegacyAddFiles.LegacyEntriesWritten`, the Sources entries by `LegacyAddFiles.PhasesAppended`, and the unused group ids by `LegacyAddFiles.LegacyGroupIdsUnused` |
| XpcContracts.ByName | scripts/verify-xpc-contracts.py:115 | sorted by name, and a permutation of the input |
| XpcContracts.SelectedMethods | scripts/verify-xpc-contracts.py:102-113 | exactly the methods of the symbols whose path contains the protocol and whose kind is `swift.method` |
| XpcContracts.ParseProtocolMethods | scripts/verify-xpc-contracts.py:94-115 | exactly the protocol's methods, sorted by name |
| XpcContracts.MethodHash | scripts/verify-xpc-contracts.py:158-161 | the hash is a prefix of at most 12 characters of the digest of the names joined by newlines |
| XpcContracts.HashIgnoresOrder | scripts/verify-xpc-contracts.py:158-161 | name-sorted lists with the same names hash alike |
| XpcContracts.SortedHashIgnoresOrder | scripts/verify-xpc-contracts.py:115 | lists declaring the same names in any order hash alike once sorted |
| XpcContracts.SortedStringsUnique | scripts/verify-xpc-contracts.py:115 | two sorted lists with the same names are equal |
| XpcContracts.SearchHeader | scripts/verify-xpc-contracts.py:174-178 | a found header ends with `{` |
| XpcContracts.SearchHeaderLeftmost | scripts/verify-xpc-contracts.py:175 | the search returns the leftmost match, and `None` only when the pattern matches nowhere |
| XpcContracts.BodyStart | scripts/verify-xpc-contracts.py:174-184 | the body starts just after a `{` |
| XpcContracts.BodyStartFound | scripts/verify-xpc-contracts.py:174-181 | a body is found exactly when one of the two headers matches somewhere, and an `@objc public` header wins over a plain one |
| XpcContracts.ClosesShift | scripts/verify-xpc-contracts.py:184-195 | counting from 1 after the `{` closes where counting from 0 at the `{` would |
| XpcContracts.BodyEnd | scripts/verify-xpc-contracts.py:184-197 | the end is the first `}` that brings the count, started at 1, to zero. Without one, the end is the start and the body is empty |
| XpcContracts.FuncAt | scripts/verify-xpc-contracts.py:201 | a match has a word-character name and `)`-free parameter text |
| XpcContracts.Scan | scripts/verify-xpc-contracts.py:202 | `finditer`'s matches lie within the text, in order and without overlap |
| XpcContracts.Funcs | scripts/verify-xpc-contracts.py:201-202 | the declarations found lie in the body, in order and without overlap |
| XpcContracts.FuncsSound | scripts/verify-xpc-contracts.py:202 | every reported declaration is a match of the pattern at its start |
| XpcContracts.FuncsCover | scripts/verify-xpc-contracts.py:202 | every place the pattern matches lies within a reported declaration |
| XpcContracts.PiecesJoin | scripts/verify-xpc-contracts.py:208-224 | the pieces cut at depth-0 commas, joined with commas, give back the parameter text |
| XpcContracts.SplitReadPieces | scripts/verify-xpc-contracts.py:213-222 | after reading a prefix, the loop holds the nesting depth of `<([`/`>)]`, the stripped pieces before the last, and the current piece |
| XpcContracts.SplitDone | scripts/verify-xpc-contracts.py:223-224 | the last piece is kept exactly when it is not blank |
| XpcContracts.SplitParams | scripts/verify-xpc-contracts.py:208-224 | the character loop yields the text cut at every comma seen at depth zero, each piece stripped, with a blank last piece dropped |
| XpcContracts.SelectorPart | scripts/verify-xpc-contracts.py:230-237 | a parameter contributes a part exactly when it has `:` and a word before it, and the part is a space-free label ending in `:` |
| XpcContracts.SelectorPartWord | scripts/verify-xpc-contracts.py:230-237 | a parameter contributes a part exactly when it has `:` and non-blank text before its first `:`. The part is the first whitespace-separated word of that text, then `:` |
| XpcContracts.SelectorParts | scripts/verify-xpc-contracts.py:226-237 | at most one label per parameter, each a label |
| XpcContracts.SelectorPartsSnoc | scripts/verify-xpc-contracts.py:226-237 | one more parameter appends its label, if it has one, after the labels of the parameters before it |
| XpcContracts.ReplaceSpaces | scripts/verify-xpc-contracts.py:242 | `replace(' ', '')` removes exactly the spaces |
| XpcContracts.SelectorShape | scripts/verify-xpc-contracts.py:239-244 | the selector is `name(label1:label2:)` with the labels run together, or the bare name when there are none |
| XpcContracts.ParsedMethods | scripts/verify-xpc-contracts.py:202-257 | one entry per `func` match, in text order |
| XpcContracts.ParsedNames | scripts/verify-xpc-contracts.py:199-244 | each entry is named after its `func`: `f(label:…)` or just `f` |
| XpcContracts.ExtractMethodsFromSource | scripts/verify-xpc-contracts.py:164-259 | empty without a header. Otherwise the body's parsed methods, as a permutation sorted by name |
| XpcContracts.ExtractedAll | scripts/verify-xpc-contracts.py:319-321 | one extraction per definition, in order |
| XpcContracts.SourceMethods | scripts/verify-xpc-contracts.py:318-325 | only definitions that gave methods are recorded |
| XpcContracts.SourceKeys | scripts/verify-xpc-contracts.py:318-325 | the keys are exactly the short names of definitions that gave methods |
| XpcContracts.SourcePrevails | scripts/verify-xpc-contracts.py:319-325 | each short name maps to the last list given under it |
| XpcContracts.NoSourceMethods | scripts/verify-xpc-contracts.py:318-325 | definitions that give no methods give an empty map |
| XpcContracts.GraphMethods | scripts/verify-xpc-contracts.py:281-290 | a module is listed exactly when build products exist, its graph was extracted, and it declares protocol methods. Its list is those methods |
| XpcContracts.Merge | scripts/verify-xpc-contracts.py:327-331 | all keys of both maps. The graph list wins under a shared key, and a source-only key keeps its source list |
| XpcContracts.HashesAgree | scripts/verify-xpc-contracts.py:338-341 | one distinct hash exactly when all lists hash alike |
| XpcContracts.Verdict | scripts/verify-xpc-contracts.py:337-377 | exit 0 exactly when there is at least one list and all lists hash alike (one list always passes). Exit 1 otherwise, including when there are no lists |
| XpcContracts.SameSelectorsPass | scripts/verify-xpc-contracts.py:337-347 | name-sorted lists declaring the same selectors pass |
| XpcContracts.RunVerify | scripts/verify-xpc-contracts.py:261-377 | exit 0 exactly when the merged lists are nonempty and all agree. Exit 1 when no products and no definitions give methods |
| Hotspots.InRangeOnly | scripts/top_hotspots.py:95-99 | exactly the addresses in `[load, load + 0x10000000)`, in order, without repeats when the input has none |
| Hotspots.SymbolFor | scripts/top_hotspots.py:123-127 | never empty and never `hex(addr)`. It is the stripped line whenever that is neither, and otherwise the unknown marker for `addr` |
| Hotspots.UnknownNamesAddress | scripts/top_hotspots.py:127 | the unknown marker is `<unknown `, then text that reads back as `addr`, then `>` |
| Hotspots.PairedCons | scripts/top_hotspots.py:121-127 | pairing the first address with the first line extends the pairing of the rest |
| Hotspots.PairLines | scripts/top_hotspots.py:119-127 | the i-th address maps to the symbol of the i-th line, for as many as both lists have, and no other address is mapped |
| Hotspots.Symbolicate | scripts/top_hotspots.py:84-129 | empty for no addresses, for no in-range address, or when `atos` failed. Only in-range addresses are mapped, each to its positional line |
| Hotspots.CutAt | scripts/top_hotspots.py:138-144 | the result is a prefix of the text with no match inside it, and a match starts right where it ends. It is the whole text exactly when nothing matches |
| Hotspots.ExtractFunctionName | scripts/top_hotspots.py:132-146 | the result has no whitespace at either end |
| Hotspots.FileLineCut | scripts/top_hotspots.py:138 | a trailing ` (file:line)` is the leftmost file/line match |
| Hotspots.OffsetCut | scripts/top_hotspots.py:138-141 | a trailing ` + n` after `)` is the leftmost offset match, and no file/line match precedes it |
| Hotspots.ModuleCut | scripts/top_hotspots.py:144 | a trailing ` (in m)` after a bare name is the leftmost module match |
| Hotspots.ExtractStages | scripts/top_hotspots.py:137-146 | the three substitutions in order, then the strip, give the name |
| Hotspots.ExtractSwiftSymbol | scripts/top_hotspots.py:134 | `f (in m) + n` gives `f` |
| Hotspots.ExtractCSymbol | scripts/top_hotspots.py:135 | `f (in m) (file:line)` gives `f` |
| Hotspots.ExtractExample | scripts/top_hotspots.py:134 | `Foo (in App) + 12` gives `Foo` |
| Hotspots.EventsTotal | scripts/top_hotspots.py:158-165 | the counting loop adds, for each key, each sample's weight once per frame with that key |
| Hotspots.FunctionKey | scripts/top_hotspots.py:160-164 | a frame counts exactly when its address has a symbol that contains the binary name (ignoring case) or lacks `(in `. Its key is the extracted function name |
| Hotspots.CountFrames | scripts/top_hotspots.py:156-167 | at most `top` keys, highest counts first, no key twice, and each count is the key's total weight |
| Hotspots.FrameListed | scripts/top_hotspots.py:158-167 | with room for every key, every counted frame's key is listed |
| Hotspots.AnalyzeHotspots | scripts/top_hotspots.py:149-167 | at most `top_n` functions, highest counts first, no function twice, and each count is the function's total weight |
| Hotspots.AddressKey | scripts/top_hotspots.py:245-246 | in raw mode every address is its own key |
| Hotspots.RawCounts | scripts/top_hotspots.py:243-250 | at most `top` addresses, highest counts first, no address twice, and each count is its total weight |
| Hotspots.AddressHits | scripts/top_hotspots.py:244-246 | an address is counted once per occurrence in a backtrace |
| Hotspots.HexArg | scripts/top_hotspots.py:206 | `int(_, 16)` succeeds exactly on ASCII hex digits with single underscores between them |
| Hotspots.DecArg | scripts/top_hotspots.py:208 | `int(_)` succeeds exactly on an optional sign and ASCII decimal digits with single underscores between them |
| Hotspots.ParseLoadAddress | scripts/top_hotspots.py:204-211 | hex after a `0x` prefix, decimal otherwise, both in ASCII digits. Any other text is an error naming the argument |
| Hotspots.ParsePyHex | scripts/top_hotspots.py:204-206 | what `hex(n)` prints is read back as `n` |
| Hotspots.ParseDecimal | scripts/top_hotspots.py:207-208 | what `str(n)` and `str(-n)` print is read back |
| Hotspots.ParseNeedsHexDigits | scripts/top_hotspots.py:205-211 | `0x` without digits is rejected |
| Hotspots.ParseBlank | scripts/top_hotspots.py:207-211 | a blank argument is rejected |
| Hotspots.RunHotspots | scripts/top_hotspots.py:201-268 | a bad load address is reported first, then the missing samples file, the missing binary, and an empty sample list. The hotspot table is nonempty, within `--top`, and weighted by the frames' symbols |
| Counter.Add | scripts/top_hotspots.py:165 | `c[k] += w` adds `w` to `k`'s count, from 0 when absent, and a new key joins last |
| Counter.TallyCounts | scripts/top_hotspots.py:158-165 | a key is counted exactly when some event has it, and its count is the sum of its weights |
| Counter.TallyOrder | scripts/top_hotspots.py:158-165 | keys are in order of their first event |
| Hotspots.Stem | scripts/top_hotspots.py:222 | `Path.stem`: the last path component without its last `.suffix`. It is slash-free, empty only when there is no component, and is the whole name when the name has no inner dot |
| Hotspots.StemIgnoresTrailing | scripts/top_hotspots.py:222 | a trailing `/` or `/.` does not change the stem |
| Hotspots.StemOfLast | scripts/top_hotspots.py:222 | only the last component counts: the stem of `dir/name` is the stem of `name` |
| Hotspots.MostCommonAll | scripts/top_hotspots.py:167 | when `n` is at least the number of keys, `most_common(n)` lists every counted key |
| Counter.MostCommon | scripts/top_hotspots.py:167 | `most_common(n)`: at most `n` keys (none for `n <= 0`), highest counts first, each with its count, no key twice |

## Left out

- File reading and writing, `shutil.copy`, printing, exit codes printed as text, and the `difflib` diff. The project text, the directory tree and the argument list are inputs. The backup and the write are returned as `SyncMain.Effect` values. The `--diff` outcome carries the texts before and after instead of a diff.
- `os.walk` is a tree of `SourceTree.Entry` values. `Path.relative_to` is not modelled: paths are component lists relative to the project directory, and they sort like the absolute paths.
- The randomness of `uuid.uuid4`. The drawn 128 bits are a parameter (`draws`), and the n-th id of a run is `GenerateUuid(draws(n))`. In the older script the ids are a stream `ids` tied to the same function by `LegacyAddFiles.UuidStream`.
- Hotspots.HexArg: accepts ASCII digits only. Python's `int(_, 16)` also accepts other Unicode decimal digits (for example fullwidth `１２`), which the model rejects.
- Hotspots.DecArg: accepts ASCII digits only. Python's `int()` also accepts other Unicode decimal digits (for example fullwidth `１２`), which the model rejects.
- Hotspots.ParseLoadAddress: rejects a load address written with non-ASCII decimal digits, which the script accepts, as for `Hotspots.HexArg` and `Hotspots.DecArg`.
- `\w` and `\d` cover ASCII only. Python's regular expressions also accept other Unicode letters and digits there. `\s` and `strip()` use Python's whitespace set.
- `str.lower()` in the binary-name check is ASCII-only.
- SHA-256 in `compute_method_hash` is the parameter `digest`, so the 12-character prefix is of an uninterpreted hex digest.
- JSON loading of symbol graphs and `xcrun swift-symbolgraph-extract` are left out. The extraction result per module is the parameter `extract`. `find_derived_data` and `find_all_derived_data` become the flag `derivedFound`.
- `find_protocol_usages` scans many files with heuristic patterns. The protocol definitions it would find are the input `defs`, each with its path and text.
- `parse_samples_xml`: ElementTree XML parsing is a foreign library. Samples are given as values.
- The `atos` subprocess: its output is the parameter `atos` (`None` when it failed).
- `argparse`: the arguments are a record, and a missing required argument is not modelled.
- The percentage and bar output of `top_hotspots.py` uses floating point and only prints.
- `Path(args.samples).exists()` and `Path(args.binary).exists()` are boolean parameters.
- The order in which `set` iterates the sampled addresses is the parameter `order` of `Hotspots.RunHotspots`.
- The fixed file table of the older script is a parameter list of groups, so any table can be checked.
- The older script's printed summary and its existence check are not modelled.
- LegacyAddFiles.AddFilesToProject: its own contract states only the unchanged case; what it writes is stated by the lemmas its row names. It requires paths without a backslash. Steps 1 and 2 pass their lines to `re.sub` as a template, where a backslash starts an escape or a group reference; template escapes are not modelled.
- LegacyAddFiles.LegacyEntriesWritten: requires paths without a backslash, as `LegacyAddFiles.AddFilesToProject` does. It also requires the first build-file section marker to end before the first file-reference section marker, the order Xcode writes the sections in; texts with the sections the other way round are not covered.
- LegacyAddFiles.LegacyGroupIdsUnused: requires paths without a backslash, as `LegacyAddFiles.AddFilesToProject` does.
- LegacyAddFiles.LegacyLinesOf: requires paths without a backslash, as `LegacyAddFiles.AddFilesToProject` does.
- PbxGroups.ParseGroups: its own contract states only the id shape; where each entry comes from is stated by `PbxGroups.ParseGroupsSound`.
- PbxGroups.ParseGroupsSound: states soundness only, that every recorded group comes from a header for its id. It does not state that every header is recorded.
- PbxGroups.ChildrenOf: states that the children are 24-word-character ids, and none without a children list. It does not state that they are exactly the runs inside the first list.
- PbxGroups.FindGroupByPath: its own contract covers only the `None` cases. What it finds is stated by `PbxGroups.DescendChain` and `PbxGroups.ChainDescend` together with `PbxEdit.EnsureFindsExisting`.
- PbxEdit.EnsureFrom: states that each part draws at most one id, and that drawing none means nothing was created. It does not state that a new group is created exactly for the first missing part and each part after it. Random ids are not known to be fresh, so a drawn id may clash with an existing one.
- PbxEdit.EnsureGroupPath: has the same limit as `PbxEdit.EnsureFrom` when groups are created. It does not state which group is returned then.
- PbxEdit.PlaceParent: has the same limit as `PbxEdit.EnsureFrom` when groups are created.
- PbxEdit.CreateGroup: states token preservation and the growth of the text. It does not state where the group entry lands.
- PbxEdit.WriteEntries: "no other text changes" is stated as the preservation of every guarded token of the right shape (`Splices.KeepsTokens`), not as exact equality of the text around the insertion points. The child line and the Sources line are stated to be in the result, not to still sit first in their lists. Whether their lists were found is a condition on the text each step receives (`PbxEdit.ChildStep`, `PbxEdit.BuildStep`), not on the original text. Every line-in-result fact requires the file name to be a comment name (`Splices.CommentName`: nonempty, without `*` or `(`, not ending in `n`), although the script writes the lines for any name. The model lets a later edit be spliced in after any `(` and right after a section marker (`Splices.SplicePoint`), and only tokens of that shape are shown to survive such edits.
- PbxEdit.AddFile: states the file-reference and build-file lines in the result only for a file name that is a comment name (`Splices.CommentName`), for the reason given under `PbxEdit.WriteEntries`; the script writes them for any name. The child line and the Sources line are stated only through `PbxEdit.WriteEntries`, for the text after the parent group is placed.
- SyncMain.AddFileRecognised: requires an addable name (`SyncMain.Addable`: one the scan pattern can match, and without `(`). The script adds any name; names with `(` are excluded because a later edit may be spliced in after any `(` (`Splices.SplicePoint`).
- SyncMain.AddAllRecognises: requires every added name to be addable (`SyncMain.Addable`), for the reason given under `SyncMain.AddFileRecognised`.
- SyncMain.FileSeen: requires the file's name to be addable (`SyncMain.Addable`), whether it was present or added, because a present entry must also survive the edits; the reason is the one given under `SyncMain.AddFileRecognised`.
- SyncMain.WrittenInSync: requires every found file's name to be addable (`SyncMain.Addable`), for the reason given under `SyncMain.FileSeen`.
- SyncMain.SyncIdempotent: holds for texts whose file-reference entries each follow an id and a space, and whose file-reference section marker is present. Every found file name must be star-free, without `(`, and longer than `.swift`. A star-free name longer than `.swift` is one the scan pattern can recognise, and names with a star never match it. Names with `(` are recognised by the script, but the model allows a later insertion after any `(` of the text (`Splices.SplicePoint`). Such an insertion could land inside such a name's entry, so those names are excluded.
- SyncMain.RunSync: only its not-found case is stated directly; the rest is `SyncMain.Decide`.
- XpcContracts.MethodHash: states that the hash is a prefix of at most 12 characters of the digest, not exactly 12 characters. The digest is uninterpreted.
- XpcContracts.SearchHeader: its own contract only says where a match ends. Leftmost choice is stated by `XpcContracts.SearchHeaderLeftmost`.
- XpcContracts.BodyStart: its own contract only says where the body starts. Which header is chosen is stated by `XpcContracts.BodyStartFound`.
- The `declaration` and `identifier` fields of the methods are carried but not used, since no verdict depends on them.
- Counter.MostCommon: states the bound, the order, the counts and distinctness. It does not state that every omitted key counts no more than the listed ones, nor the tie order among equal counts.
- Hotspots.CountFrames: has the same limit as `Counter.MostCommon`.
- Hotspots.AnalyzeHotspots: has the same limit as `Counter.MostCommon`.
- Hotspots.RawCounts: has the same limit as `Counter.MostCommon`.
- Hotspots.ExtractFunctionName: its own contract only says the result is stripped. What it returns is stated for Swift-style and C-style symbols by `Hotspots.ExtractSwiftSymbol`, `Hotspots.ExtractCSymbol` and `Hotspots.ExtractStages`, not for every input.

=== FILE: counter.dfy ===
/**
 * Python's `collections.Counter` as scripts/top_hotspots.py uses it: `c[k] += w`
 * for a stream of weighted keys, then `most_common(n)`.  A counter remembers the
 * order in which its keys were first added, which is what `most_common` falls
 * back on between equal counts.
 */
module Counter {
  import opened Sorting

  /** The keys in first-insertion order and the count of each. */
  datatype Counter<K(==)> = Counter(keys: seq<K>, counts: map<K, int>)

  /** Each key listed once, and the listed keys are exactly the counted ones. */
  predicate Valid<K(==)>(c: Counter<K>) {
    && (forall i, j :: 0 <= i < j < |c.keys| ==> c.keys[i] != c.keys[j])
    && c.counts.Keys == set k | k in c.keys
  }

  /** `Counter()`. */
  function Empty<K(==)>(): (c: Counter<K>)
    ensures Valid(c) && |c.keys| == 0
  {
    Counter([], map[])
  }

  /**
   * `c[k] += w`: a missing key reads as 0 and is then stored, so it joins the
   * keys at the end even when `w` is 0.
   */
  function Add<K(==)>(c: Counter<K>, k: K, w: int): (r: Counter<K>)
    requires Valid(c)
    ensures Valid(r)
    ensures r.counts == c.counts[k := (if k in c.counts then c.counts[k] else 0) + w]
    ensures r.keys == if k in c.counts then c.keys else c.keys + [k]
  {
    if k in c.counts then Counter(c.keys, c.counts[k := c.counts[k] + w])
    else Counter(c.keys + [k], c.counts[k := w])
  }

  /** One `+=` per event, left to right, from an empty counter. */
  function Tally<K(==)>(events: seq<(K, int)>): (c: Counter<K>)
    ensures Valid(c)
  {
    if |events| == 0 then Empty()
    else
      var n := |events| - 1;
      Add(Tally(events[..n]), events[n].0, events[n].1)
  }

  /** The reference count: the sum of the weights of the events for `k`. */
  function Total<K(==)>(events: seq<(K, int)>, k: K): int {
    if |events| == 0 then 0
    else (if events[0].0 == k then events[0].1 else 0) + Total(events[1..], k)
  }

  lemma {:induction false} TotalSnoc<K>(events: seq<(K, int)>, e: (K, int), k: K)
    ensures Total(events + [e], k) == Total(events, k) + (if e.0 == k then e.1 else 0)
  {
    if |events| > 0 {
      assert (events + [e])[1..] == events[1..] + [e];
      TotalSnoc(events[1..], e, k);
    }
  }

  /** A key is absent from a list of events that never mentions it, and counts zero there. */
  lemma {:induction false} TotalAbsent<K>(events: seq<(K, int)>, k: K)
    requires forall i :: 0 <= i < |events| ==> events[i].0 != k
    ensures Total(events, k) == 0
  {
    if |events| > 0 {
      TotalAbsent(events[1..], k);
    }
  }

  /** A key is counted exactly when some event mentions it. */
  lemma {:induction false} TallyKeys<K>(events: seq<(K, int)>, k: K)
    ensures k in Tally(events).counts <==> exists i :: 0 <= i < |events| && events[i].0 == k
  {
    if |events| > 0 {
      var n := |events| - 1;
      var pre := events[..n];
      TallyKeys(pre, k);
      if exists i :: 0 <= i < |events| && events[i].0 == k {
        var i :| 0 <= i < |events| && events[i].0 == k;
        if i < n {
          assert pre[i].0 == k;
        }
      }
      if exists i :: 0 <= i < n && pre[i].0 == k {
        var i :| 0 <= i < n && pre[i].0 == k;
        assert events[i].0 == k;
      }
    }
  }

  /**
   * The counter's keys are exactly the keys of the events, listed in the order
   * they first appear, and each count is the sum of that key's weights.
   */
  lemma {:induction false} TallyCounts<K>(events: seq<(K, int)>, k: K)
    ensures var c := Tally(events);
      && (k in c.counts <==> exists i :: 0 <= i < |events| && events[i].0 == k)
      && (k in c.counts ==> c.counts[k] == Total(events, k))
  {
    TallyKeys(events, k);
    if |events| > 0 {
      var n := |events| - 1;
      var pre := events[..n];
      assert events == pre + [events[n]];
      TallyCounts(pre, k);
      TotalSnoc(pre, events[n], k);
      if k !in Tally(pre).counts {
        assert forall i :: 0 <= i < n ==> pre[i].0 != k;
        TotalAbsent(pre, k);
      }
    }
  }

  /** The counter's keys appear in the order the events first mention them. */
  lemma TallyOrder<K>(events: seq<(K, int)>, i: nat, j: nat)
    requires i < j < |Tally(events).keys|
    ensures exists a, b :: (0 <= a < b < |events|
      && events[a].0 == Tally(events).keys[i] && events[b].0 == Tally(events).keys[j]
      && forall x :: 0 <= x < b ==> events[x].0 != Tally(events).keys[j])
  {
    var a, b := TallyOrderAt(events, i, j);
  }

  /** `TallyOrder` with the two events named: a mention of the earlier key, and the first mention of the later one. */
  lemma {:induction false} TallyOrderAt<K>(events: seq<(K, int)>, i: nat, j: nat) returns (a: nat, b: nat)
    requires i < j < |Tally(events).keys|
    ensures a < b < |events|
    ensures events[a].0 == Tally(events).keys[i] && events[b].0 == Tally(events).keys[j]
    ensures forall x :: 0 <= x < b ==> events[x].0 != Tally(events).keys[j]
  {
    var n := |events| - 1;
    var pre := events[..n];
    assert events == pre + [events[n]];
    var ks := Tally(events).keys;
    if j < |Tally(pre).keys| {
      a, b := TallyOrderAt(pre, i, j);
      assert events[a] == pre[a] && events[b] == pre[b];
      forall x | 0 <= x < b ensures events[x].0 != ks[j] {
        assert events[x] == pre[x];
      }
    } else {
      var k := events[n].0;
      assert ks[j] == k && k !in Tally(pre).counts;
      TallyCounts(pre, k);
      TallyCounts(pre, ks[i]);
      assert ks[i] == Tally(pre).keys[i];
      a :| 0 <= a < n && pre[a].0 == ks[i];
      b := n;
      assert events[a] == pre[a];
      forall x | 0 <= x < n ensures events[x].0 != k {
        assert events[x] == pre[x];
      }
    }
  }

  /** The `(key, count)` pairs in key order: `c.items()`. */
  function Items<K(==)>(c: Counter<K>): (r: seq<(K, int)>)
    requires Valid(c)
    ensures |r| == |c.keys|
    ensures forall i :: 0 <= i < |r| ==> r[i] == (c.keys[i], c.counts[c.keys[i]])
  {
    seq(|c.keys|, i requires 0 <= i < |c.keys| => (c.keys[i], c.counts[c.keys[i]]))
  }

  /** Higher counts first; `SortBy` keeps equal counts in their original order. */
  function ByCount<K>(): ((K, int), (K, int)) -> bool {
    (a: (K, int), b: (K, int)) => a.1 >= b.1
  }

  lemma ByCountTotal<K(!new)>()
    ensures TotalPreorder(ByCount<K>())
  {
  }

  /** Non-increasing counts. */
  predicate Descending<K(==)>(r: seq<(K, int)>) {
    forall i, j :: 0 <= i < j < |r| ==> r[i].1 >= r[j].1
  }

  /**
   * `c.most_common(n)`: `sorted(c.items(), key=count, reverse=True)[:n]`, which
   * `heapq.nlargest` computes for every `n`, and nothing for `n <= 0`.
   */
  function MostCommon<K(==,!new)>(c: Counter<K>, n: int): (r: seq<(K, int)>)
    requires Valid(c)
    ensures |r| == if n <= 0 then 0 else if n < |c.keys| then n else |c.keys|
    ensures Descending(r)
    ensures forall i :: 0 <= i < |r| ==> r[i].0 in c.counts && r[i].1 == c.counts[r[i].0]
    ensures forall i, j :: 0 <= i < j < |r| ==> r[i].0 != r[j].0
  {
    if n <= 0 then []
    else
      var items := Items(c);
      var sorted := SortBy(items, ByCount<K>());
      ByCountTotal<K>();
      SortBySorted(items, ByCount<K>());
      var m := if n < |sorted| then n else |sorted|;
      forall i | 0 <= i < |sorted| ensures sorted[i] in items {
        assert sorted[i] in multiset(sorted);
      }
      DistinctKeysSorted(c, items, sorted);
      sorted[..m]
  }

  /** Sorting the items of a counter keeps their keys distinct. */
  lemma DistinctKeysSorted<K>(c: Counter<K>, items: seq<(K, int)>, sorted: seq<(K, int)>)
    requires Valid(c) && items == Items(c) && multiset(sorted) == multiset(items)
    ensures forall i, j :: 0 <= i < j < |sorted| ==> sorted[i].0 != sorted[j].0
  {
    forall i | 0 <= i < |sorted| ensures sorted[i].0 in c.counts && sorted[i].1 == c.counts[sorted[i].0] {
      assert sorted[i] in multiset(items);
    }
    assert forall i, j :: 0 <= i < j < |items| ==> items[i] != items[j];
    DistinctCounts(items);
    CountsDistinct(sorted);
  }

  /** A list without repeats holds each value at most once. */
  lemma {:induction false} DistinctCounts<T>(s: seq<T>)
    requires forall i, j :: 0 <= i < j < |s| ==> s[i] != s[j]
    ensures forall x :: multiset(s)[x] <= 1
  {
    if |s| > 0 {
      var n := |s| - 1;
      assert s == s[..n] + [s[n]];
      DistinctCounts(s[..n]);
      assert s[n] !in s[..n];
    }
  }

  /** A list holding each value at most once has no repeats. */
  lemma CountsDistinct<T>(s: seq<T>)
    requires forall x :: multiset(s)[x] <= 1
    ensures forall i, j :: 0 <= i < j < |s| ==> s[i] != s[j]
  {
    forall i, j | 0 <= i < j < |s| ensures s[i] != s[j] {
      var x := s[i];
      assert s == s[..j] + [s[j]] + s[j + 1..];
      assert multiset(s) == multiset(s[..j]) + multiset{s[j]} + multiset(s[j + 1..]);
      assert x in s[..j];
      assert multiset(s[..j])[x] >= 1;
      assert multiset(s)[x] <= 1;
      assert multiset(s)[x] == multiset(s[..j])[x] + multiset{s[j]}[x] + multiset(s[j + 1..])[x];
      assert multiset{s[j]}[x] <= 0;
      assert s[j] != x;
    }
  }
}

=== FILE: hex_text.dfy ===
/** Hexadecimal digits: fixed-width formatting, Python's `hex()`, and parsing back. */
module HexText {
  import opened Text

  function Pow16(k: nat): (p: nat)
    ensures p >= 1
  {
    if k == 0 then 1 else 16 * Pow16(k - 1)
  }

  /** The lower-case digit Python's `hex` and `uuid.hex` print for `d`. */
  function DigitChar(d: nat): (c: char)
    requires d < 16
  {
    if d < 10 then '0' + d as char else 'a' + (d - 10) as char
  }

  predicate IsHexDigit(c: char) {
    ('0' <= c <= '9') || ('a' <= c <= 'f') || ('A' <= c <= 'F')
  }

  predicate IsUpperHexDigit(c: char) { ('0' <= c <= '9') || ('A' <= c <= 'F') }

  predicate AllHexDigits(s: string) { forall i :: 0 <= i < |s| ==> IsHexDigit(s[i]) }

  /** Value of one hex digit, either case (what `int(_, 16)` accepts). */
  function DigitValue(c: char): (d: nat)
    requires IsHexDigit(c)
    ensures d < 16
  {
    if '0' <= c <= '9' then (c - '0') as nat
    else if 'a' <= c <= 'f' then (c - 'a') as nat + 10
    else (c - 'A') as nat + 10
  }

  /** Value of a string of hex digits, most significant first. */
  function HexValue(s: string): nat
    requires AllHexDigits(s)
  {
    if |s| == 0 then 0 else 16 * HexValue(s[..|s| - 1]) + DigitValue(s[|s| - 1])
  }

  /** The low `w` hex digits of `n`, zero-padded: `format(n % 16**w, '0{w}x')`. */
  function FixedHex(n: nat, w: nat): (r: string)
    ensures |r| == w
    ensures forall i :: 0 <= i < w ==> ('0' <= r[i] <= '9') || ('a' <= r[i] <= 'f')
  {
    if w == 0 then [] else FixedHex(n / 16, w - 1) + [DigitChar(n % 16)]
  }

  /** Python's `hex(n)` for `n >= 0`: "0x" and the digits without leading zeros. */
  function PyHex(n: nat): (r: string)
    ensures StartsWith(r, "0x") && |r| >= 3
  {
    "0x" + MinimalHex(n)
  }

  function MinimalHex(n: nat): (r: string)
    ensures |r| > 0 && AllHexDigits(r)
    ensures |r| > 1 ==> r[0] != '0'
  {
    if n < 16 then [DigitChar(n)] else MinimalHex(n / 16) + [DigitChar(n % 16)]
  }

  lemma DigitValueOfDigitChar(d: nat)
    requires d < 16
    ensures DigitValue(DigitChar(d)) == d
  {
  }

  /** Printing and then parsing a fixed-width hex number keeps its low digits. */
  lemma {:induction false} HexValueFixedHex(n: nat, w: nat)
    ensures AllHexDigits(FixedHex(n, w))
    ensures HexValue(FixedHex(n, w)) == n % Pow16(w)
  {
    if w > 0 {
      HexValueFixedHex(n / 16, w - 1);
      var r := FixedHex(n, w);
      assert r[..w - 1] == FixedHex(n / 16, w - 1);
      DigitValueOfDigitChar(n % 16);
      DivModNested(n, 16, Pow16(w - 1));
    }
  }

  /** `hex(n)` parses back to `n`. */
  lemma {:induction false} HexValueMinimalHex(n: nat)
    ensures HexValue(MinimalHex(n)) == n
  {
    DigitValueOfDigitChar(n % 16);
    if n >= 16 {
      HexValueMinimalHex(n / 16);
      var r := MinimalHex(n);
      assert r[..|r| - 1] == MinimalHex(n / 16);
    }
  }

  /** `(n % (b * c))` and `n / b % c` in terms of each other. */
  lemma DivModNested(n: nat, b: nat, c: nat)
    requires b > 0 && c > 0
    ensures n % (b * c) == b * ((n / b) % c) + n % b
    ensures n / (b * c) == (n / b) / c
  {
    var q := n / b;
    var r := n % b;
    var q2 := q / c;
    var r2 := q % c;
    assert n == b * q + r;
    assert q == c * q2 + r2;
    assert n == (b * c) * q2 + (b * r2 + r) by {
      calc {
        n;
        b * (c * q2 + r2) + r;
        (b * c) * q2 + (b * r2 + r);
      }
    }
    assert b * r2 + r < b * c by {
      assert r2 <= c - 1;
      assert b * r2 <= b * (c - 1);
    }
    DivModUnique(n, b * c, q2, b * r2 + r);
  }

  /** Division is determined by any quotient/remainder pair. */
  lemma DivModUnique(n: nat, m: nat, q: nat, r: nat)
    requires m > 0 && r < m && n == m * q + r
    ensures n / m == q && n % m == r
  {
    var d := q - n / m;
    assert m * q == m * (n / m) + m * d;
    MultipleInWindow(m, d, n % m - r);
  }

  /** A multiple of `m` strictly between `-m` and `m` is zero. */
  lemma MultipleInWindow(m: nat, d: int, e: int)
    requires m > 0 && m * d == e && -(m as int) < e < m
    ensures d == 0
  {
    if d >= 1 {
      MulAtLeast(m, d);
    } else if d <= -1 {
      MulAtLeast(m, -d);
    }
  }

  lemma MulAtLeast(m: nat, k: int)
    requires k >= 1
    ensures m * k >= m
  {
    assert m * k == m * (k - 1) + m;
  }
}

=== FILE: hotspots.dfy ===
/**
 * The pure parts of scripts/top_hotspots.py: which sampled addresses are handed to
 * `atos` and how its output lines are paired back with them, how a symbol is cut
 * down to a function name, how frames are counted into hotspots, and how the load
 * address argument is read.  The `atos` run, the XML export and every file check
 * are inputs.
 */
module Hotspots {
  import opened Wrappers
  import opened Text
  import opened HexText
  import opened PbxGroups
  import opened Counter

  /** One time-profiler sample: its backtrace addresses and its weight. */
  datatype Sample = Sample(addresses: seq<nat>, weight: int)

  /** `MAX_OFFSET`: addresses more than 256 MiB past the load address are not the app's. */
  const MaxOffset: int := 0x1000_0000

  predicate InRange(a: nat, load: int) { load <= a < load + MaxOffset }

  /** The `filtered` list: the addresses near the load address, in iteration order. */
  function InRangeOnly(addrs: seq<nat>, load: int): (r: seq<nat>)
    ensures |r| <= |addrs|
    ensures forall a :: a in r <==> a in addrs && InRange(a, load)
    ensures (forall i, j :: 0 <= i < j < |addrs| ==> addrs[i] != addrs[j]) ==>
      forall i, j :: 0 <= i < j < |r| ==> r[i] != r[j]
  {
    if |addrs| == 0 then []
    else
      var rest := InRangeOnly(addrs[1..], load);
      assert forall a :: a in addrs <==> a == addrs[0] || a in addrs[1..];
      if InRange(addrs[0], load) then [addrs[0]] + rest else rest
  }

  /** The name recorded for `addr` from its `atos` line: the line, or `<unknown 0x...>` when it says nothing new. */
  function SymbolFor(addr: nat, line: string): (s: string)
    ensures |s| > 0 && s != PyHex(addr)
    ensures s == Strip(line) || s == UnknownSymbol(addr)
    ensures Strip(line) != "" && Strip(line) != PyHex(addr) ==> s == Strip(line)
  {
    var t := Strip(line);
    if t != "" && t != PyHex(addr) then t else UnknownSymbol(addr)
  }

  /** The placeholder for an address `atos` could not name. */
  function UnknownSymbol(addr: nat): string {
    "<unknown " + PyHex(addr) + ">"
  }

  /** The placeholder names its address: the text inside it reads back as `addr`. */
  lemma UnknownNamesAddress(addr: nat)
    ensures var u := UnknownSymbol(addr);
      |u| > 10 && u[..9] == "<unknown " && u[|u| - 1] == '>' && ParseLoadAddress(u[9..|u| - 1]) == Success(addr)
  {
    var u := UnknownSymbol(addr);
    assert u[9..|u| - 1] == PyHex(addr);
    ParsePyHex(addr);
  }

  /** `m` maps the first `min(|addrs|, |lines|)` addresses, and only those, to the symbols of their lines. */
  ghost predicate Paired(addrs: seq<nat>, lines: seq<string>, m: map<nat, string>) {
    && (forall a :: a in m <==> exists i :: 0 <= i < |addrs| && i < |lines| && addrs[i] == a)
    && (forall i :: 0 <= i < |addrs| && i < |lines| ==> addrs[i] in m && m[addrs[i]] == SymbolFor(addrs[i], lines[i]))
  }

  /** Pairing the first address with the first line extends the pairing of the rest. */
  lemma PairedCons(addrs: seq<nat>, lines: seq<string>, rest: map<nat, string>)
    requires |addrs| > 0 && |lines| > 0
    requires forall i :: 1 <= i < |addrs| ==> addrs[0] != addrs[i]
    requires Paired(addrs[1..], lines[1..], rest)
    ensures Paired(addrs, lines, rest[addrs[0] := SymbolFor(addrs[0], lines[0])])
  {
    var m := rest[addrs[0] := SymbolFor(addrs[0], lines[0])];
    var xs, ys := addrs[1..], lines[1..];
    forall a ensures a in m <==> exists i :: 0 <= i < |addrs| && i < |lines| && addrs[i] == a {
      if a == addrs[0] {
        assert addrs[0] == a;
      } else if a in rest {
        var i :| 0 <= i < |xs| && i < |ys| && xs[i] == a;
        assert addrs[i + 1] == a;
      } else {
        forall i | 0 <= i < |addrs| && i < |lines| ensures addrs[i] != a {
          if i > 0 {
            assert xs[i - 1] == addrs[i];
          }
        }
      }
    }
    forall i | 0 <= i < |addrs| && i < |lines| ensures addrs[i] in m && m[addrs[i]] == SymbolFor(addrs[i], lines[i]) {
      if i > 0 {
        assert xs[i - 1] == addrs[i] && ys[i - 1] == lines[i];
      }
    }
  }

  /** `for addr, line in zip(filtered, lines): symbols[addr] = ...`. */
  function PairLines(addrs: seq<nat>, lines: seq<string>): (m: map<nat, string>)
    requires forall i, j :: 0 <= i < j < |addrs| ==> addrs[i] != addrs[j]
    ensures forall a :: a in m <==> exists i :: 0 <= i < |addrs| && i < |lines| && addrs[i] == a
    ensures forall i :: 0 <= i < |addrs| && i < |lines| ==> addrs[i] in m && m[addrs[i]] == SymbolFor(addrs[i], lines[i])
  {
    if |addrs| == 0 || |lines| == 0 then map[]
    else
      var rest := PairLines(addrs[1..], lines[1..]);
      PairedCons(addrs, lines, rest);
      rest[addrs[0] := SymbolFor(addrs[0], lines[0])]
  }

  /**
   * `symbolicate_addresses`: `addrs` is the address set in its iteration order and
   * `atos` what the `atos` run printed (`None` when it failed).  Only addresses
   * near the load address are passed on, and the i-th of them gets the i-th
   * output line.
   */
  function Symbolicate(addrs: seq<nat>, load: int, atos: Option<string>): (m: map<nat, string>)
    requires forall i, j :: 0 <= i < j < |addrs| ==> addrs[i] != addrs[j]
    ensures |addrs| == 0 ==> m == map[]
    ensures (forall a :: a in addrs ==> !InRange(a, load)) ==> m == map[]
    ensures atos.None? ==> m == map[]
    ensures forall a :: a in m ==> a in addrs && InRange(a, load)
    ensures atos.Some? ==> var f := InRangeOnly(addrs, load); var lines := Split(Strip(atos.value), '\n');
      forall i :: 0 <= i < |f| && i < |lines| ==> f[i] in m && m[f[i]] == SymbolFor(f[i], lines[i])
  {
    if |addrs| == 0 then map[]
    else
      var f := InRangeOnly(addrs, load);
      if |f| == 0 then map[]
      else
        match atos
        case None => map[]
        case Some(out) =>
          var m := PairLines(f, Split(Strip(out), '\n'));
          assert forall a :: a in m ==> a in f;
          m
  }

  // ---------------------------------------------------------------------------
  // extract_function_name: three end-anchored substitutions, then strip.
  // ---------------------------------------------------------------------------

  /** A `:` at `c` of `t` after at least one character, followed only by digits, at least one. */
  predicate LineNumberAt(t: string, c: nat) {
    1 <= c && c + 1 < |t| && t[c] == ':' && AllDigits(t[c + 1..])
  }

  /**
   * `\s+\([^)]+:\d+\)$` matches from `i`: a run of whitespace, `(`, then up to the
   * final `)` no other `)`, ending in `:` and digits.  The whitespace run cannot
   * stop short of the `(`, and the `:` must be the last one before the digits.
   */
  predicate FileLineAt(s: string, i: nat) {
    i < |s| &&
    var j := SkipSpaces(s, i);
    && i < j && j + 1 < |s| && s[j] == '(' && s[|s| - 1] == ')'
    && var t := s[j + 1..|s| - 1];
    && Free(t, ')')
    && exists c :: 0 <= c < |t| && LineNumberAt(t, c)
  }

  /** `\s+\+\s+\d+$` matches from `i`: whitespace, `+`, whitespace, digits to the end. */
  predicate OffsetAt(s: string, i: nat) {
    i < |s| &&
    var j := SkipSpaces(s, i);
    && i < j < |s| && s[j] == '+'
    && var k := SkipSpaces(s, j + 1);
    && j + 1 < k < |s| && AllDigits(s[k..])
  }

  /** `\s+\(in [^)]+\)$` matches from `i`: whitespace, `(in `, a `)`-free name, the final `)`. */
  predicate ModuleAt(s: string, i: nat) {
    i < |s| &&
    var j := SkipSpaces(s, i);
    && i < j && OccursAt(s, j, "(in ") && j + 5 < |s| && s[|s| - 1] == ')'
    && Free(s[j + 4..|s| - 1], ')')
  }

  function FileLineStarts(s: string): nat -> bool { (i: nat) => FileLineAt(s, i) }
  function OffsetStarts(s: string): nat -> bool { (i: nat) => OffsetAt(s, i) }
  function ModuleStarts(s: string): nat -> bool { (i: nat) => ModuleAt(s, i) }

  /**
   * `re.sub(pattern, "", s)` for an end-anchored pattern: every match runs to the
   * end, so only the leftmost one is removed, with everything after it.
   */
  function CutAt(s: string, at: nat -> bool): (r: string)
    ensures StartsWith(s, r)
    ensures forall i :: 0 <= i < |r| ==> !at(i)
    ensures |r| < |s| ==> at(|r|)
    ensures r == s <==> forall i :: 0 <= i < |s| ==> !at(i)
  {
    match First(at, 0, |s|)
    case None => s
    case Some(i) => s[..i]
  }

  /**
   * `extract_function_name`.  The `$` of the three patterns may also match just
   * before a final newline; none of them can match at the very end of such a
   * string, and the final strip drops the newline, so the newline is set aside
   * first.
   */
  function ExtractFunctionName(symbol: string): (r: string)
    ensures |r| == 0 || (!IsSpace(r[0]) && !IsSpace(r[|r| - 1]))
  {
    var s := if |symbol| > 0 && symbol[|symbol| - 1] == '\n' then symbol[..|symbol| - 1] else symbol;
    var s1 := CutAt(s, FileLineStarts(s));
    var s2 := CutAt(s1, OffsetStarts(s1));
    var s3 := CutAt(s2, ModuleStarts(s2));
    Strip(s3)
  }

  /** The leftmost position where a search succeeds. */
  lemma FirstIs(at: nat -> bool, n: nat, i: nat)
    requires i < n && at(i) && forall j :: 0 <= j < i ==> !at(j)
    ensures First(at, 0, n) == Some(i)
  {
    var r := First(at, 0, n);
    assert r.Some? && r.value <= i;
  }

  /** Where the whitespace run from `i` stops, if `s` has a non-space character at or after `i`. */
  lemma SkipSpacesStops(s: string, i: nat, p: nat)
    requires i <= p < |s| && !IsSpace(s[p])
    ensures SkipSpaces(s, i) <= p
  {
  }

  /** A match of the file/line pattern runs over no `)` before the last character. */
  lemma FileLineNoClose(s: string, i: nat, p: nat)
    requires FileLineAt(s, i) && i <= p < |s| - 1
    ensures s[p] != ')'
  {
    var j := SkipSpaces(s, i);
    if p > j {
      assert s[p] == s[j + 1..|s| - 1][p - j - 1];
    }
  }

  /** A match of the offset pattern runs over whitespace, `+` and digits only. */
  lemma OffsetChars(s: string, i: nat, p: nat)
    requires OffsetAt(s, i) && i <= p < |s|
    ensures IsSpace(s[p]) || s[p] == '+' || IsDigit(s[p])
  {
    var j := SkipSpaces(s, i);
    var k := SkipSpaces(s, j + 1);
    if p >= k {
      assert s[p] == s[k..][p - k];
    }
  }

  /** A match of the module pattern starts its `(` at the end of a whitespace run. */
  lemma ModuleOpens(s: string, i: nat)
    requires ModuleAt(s, i)
    ensures s[SkipSpaces(s, i)] == '('
  {
  }

  /** Digits never close a `(`: a string ending in a digit has no file/line match. */
  lemma NoFileLineBeforeDigit(s: string)
    requires |s| > 0 && IsDigit(s[|s| - 1])
    ensures First(FileLineStarts(s), 0, |s|).None?
  {
    forall i: nat | i < |s| ensures !FileLineStarts(s)(i) {
    }
  }

  /** A string ending in `)` has no offset match. */
  lemma NoOffsetBeforeClose(s: string)
    requires |s| > 0 && s[|s| - 1] == ')'
    ensures First(OffsetStarts(s), 0, |s|).None?
  {
    forall i: nat | i < |s| ensures !OffsetStarts(s)(i) {
      if OffsetAt(s, i) {
        OffsetChars(s, i, |s| - 1);
      }
    }
  }

  /** A name that `extract_function_name` leaves alone: stripped, with no `(`. */
  predicate BareName(f: string) {
    Free(f, '(') && (|f| == 0 || (!IsSpace(f[0]) && !IsSpace(f[|f| - 1])))
  }

  /** The module pattern matches where the suffix ` (in m)` begins. */
  lemma ModuleSuffixMatches(f: string, m: string)
    requires |m| > 0 && Free(m, ')')
    ensures var s := f + " (in " + m + ")"; ModuleAt(s, |f|)
  {
    var s := f + " (in " + m + ")";
    assert s[|f|] == ' ' && s[|f| + 1] == '(';
    assert SkipSpaces(s, |f|) == |f| + 1;
    assert OccursAt(s, |f| + 1, "(in ") by {
      assert s[|f| + 1..|f| + 5] == "(in ";
    }
    assert s[|f| + 5..|s| - 1] == m;
  }

  /** No module match starts inside a bare name. */
  lemma ModuleNotInName(f: string, m: string)
    requires BareName(f)
    ensures var s := f + " (in " + m + ")"; forall i | 0 <= i < |f| :: !ModuleStarts(s)(i)
  {
    var s := f + " (in " + m + ")";
    forall i | 0 <= i < |f| ensures !ModuleStarts(s)(i) {
      SkipSpacesStops(s, i, |f| - 1);
      var j := SkipSpaces(s, i);
      assert s[j] == f[j];
    }
  }

  /** The module suffix ` (in m)` after a bare name is the leftmost module match. */
  lemma ModuleCut(f: string, m: string)
    requires BareName(f) && |m| > 0 && Free(m, ')')
    ensures var s := f + " (in " + m + ")"; CutAt(s, ModuleStarts(s)) == f
  {
    var s := f + " (in " + m + ")";
    ModuleSuffixMatches(f, m);
    ModuleNotInName(f, m);
    FirstIs(ModuleStarts(s), |s|, |f|);
    assert s[..|f|] == f;
  }

  /** The offset pattern matches where the suffix ` + n` begins. */
  lemma OffsetSuffixMatches(head: string, n: string)
    requires |n| > 0 && AllDigits(n)
    ensures var s := head + " + " + n; OffsetAt(s, |head|)
  {
    var s := head + " + " + n;
    var p := |head|;
    assert s[p] == ' ' && s[p + 1] == '+' && s[p + 2] == ' ' && s[p + 3] == n[0];
    assert SkipSpaces(s, p) == p + 1;
    assert SkipSpaces(s, p + 2) == p + 3;
    assert s[p + 3..] == n;
  }

  /** An offset ` + n` after a closing `)` is the leftmost offset match, and no file/line match precedes it. */
  lemma OffsetCut(head: string, n: string)
    requires |head| > 0 && head[|head| - 1] == ')' && |n| > 0 && AllDigits(n)
    ensures var s := head + " + " + n;
      CutAt(s, FileLineStarts(s)) == s && CutAt(s, OffsetStarts(s)) == head
  {
    var s := head + " + " + n;
    assert s[|s| - 1] == n[|n| - 1];
    NoFileLineBeforeDigit(s);
    var p := |head|;
    OffsetSuffixMatches(head, n);
    assert s[p - 1] == ')';
    forall i | 0 <= i < p ensures !OffsetStarts(s)(i) {
      if OffsetAt(s, i) {
        OffsetChars(s, i, p - 1);
      }
    }
    FirstIs(OffsetStarts(s), |s|, p);
    assert s[..p] == head;
  }

  /** A location ` (file:line)` after a closing `)` is the leftmost file/line match. */
  lemma FileLineCut(head: string, file: string, line: string)
    requires |head| > 0 && head[|head| - 1] == ')'
    requires |file| > 0 && Free(file, ')') && |line| > 0 && AllDigits(line)
    ensures var s := head + " (" + file + ":" + line + ")"; CutAt(s, FileLineStarts(s)) == head
  {
    var s := head + " (" + file + ":" + line + ")";
    var p := |head|;
    assert s[p] == ' ' && s[p + 1] == '(' && s[|s| - 1] == ')';
    assert SkipSpaces(s, p) == p + 1;
    var t := s[p + 2..|s| - 1];
    assert t == file + ":" + line;
    assert t[|file| + 1..] == line;
    assert LineNumberAt(t, |file|);
    forall q | 0 <= q < |t| ensures t[q] != ')' {
      if q < |file| {
        assert t[q] == file[q];
      } else if q > |file| {
        assert t[q] == line[q - |file| - 1];
      }
    }
    assert FileLineAt(s, p);
    assert s[p - 1] == ')';
    forall i | 0 <= i < p ensures !FileLineStarts(s)(i) {
      if FileLineAt(s, i) {
        FileLineNoClose(s, i, p - 1);
      }
    }
    FirstIs(FileLineStarts(s), |s|, p);
    assert s[..p] == head;
  }

  /** The three stages and the final strip, for a symbol without a trailing newline. */
  lemma ExtractStages(s: string, s1: string, s2: string, f: string)
    requires |s| > 0 && s[|s| - 1] != '\n'
    requires CutAt(s, FileLineStarts(s)) == s1
    requires CutAt(s1, OffsetStarts(s1)) == s2
    requires CutAt(s2, ModuleStarts(s2)) == f
    requires BareName(f)
    ensures ExtractFunctionName(s) == f
  {
    StripTrimmed(f);
  }

  /**
   * A Swift-style symbol `f (in m) + n` comes back as `f`: the offset goes first,
   * then the module.
   */
  lemma ExtractSwiftSymbol(f: string, m: string, n: string)
    requires BareName(f) && |m| > 0 && Free(m, ')') && |n| > 0 && AllDigits(n)
    ensures ExtractFunctionName(f + " (in " + m + ") + " + n) == f
  {
    var head := f + " (in " + m + ")";
    var s := head + " + " + n;
    assert f + " (in " + m + ") + " + n == s;
    OffsetCut(head, n);
    ModuleCut(f, m);
    assert s[|s| - 1] == n[|n| - 1];
    ExtractStages(s, s, head, f);
  }

  /**
   * A C-style symbol `f (in m) (file:line)` comes back as `f`: the file and line go
   * first, then the module.
   */
  lemma ExtractCSymbol(f: string, m: string, file: string, line: string)
    requires BareName(f) && |m| > 0 && Free(m, ')')
    requires |file| > 0 && Free(file, ')') && |line| > 0 && AllDigits(line)
    ensures ExtractFunctionName(f + " (in " + m + ") (" + file + ":" + line + ")") == f
  {
    var head := f + " (in " + m + ")";
    var s := head + " (" + file + ":" + line + ")";
    assert f + " (in " + m + ") (" + file + ":" + line + ")" == s;
    FileLineCut(head, file, line);
    NoOffsetBeforeClose(head);
    ModuleCut(f, m);
    ExtractStages(s, head, head, f);
  }

  /** The example of the source's comment: `Foo (in App) + 12` names `Foo`. */
  lemma ExtractExample()
    ensures ExtractFunctionName("Foo (in App) + 12") == "Foo"
  {
    assert "Foo (in App) + 12" == "Foo" + " (in " + "App" + ") + " + "12";
    ExtractSwiftSymbol("Foo", "App", "12");
  }

  // ---------------------------------------------------------------------------
  // analyze_hotspots and the raw counts of main().
  // ---------------------------------------------------------------------------

  /**
   * Both tables count frames: each frame of a sample adds the sample's weight
   * under the frame's key, and a frame without a key is skipped.
   */
  function SampleEvents<K>(addrs: seq<nat>, w: int, key: nat -> Option<K>): seq<(K, int)> {
    if |addrs| == 0 then []
    else ((if key(addrs[0]).Some? then [(key(addrs[0]).value, w)] else [])
      + SampleEvents(addrs[1..], w, key))
  }

  /** The `+=` steps of a whole counting loop, in order. */
  function Events<K>(samples: seq<Sample>, key: nat -> Option<K>): seq<(K, int)> {
    if |samples| == 0 then []
    else SampleEvents(samples[0].addresses, samples[0].weight, key) + Events(samples[1..], key)
  }

  /** How many frames of a backtrace have the key `k`. */
  function Hits<K(==)>(addrs: seq<nat>, key: nat -> Option<K>, k: K): nat {
    if |addrs| == 0 then 0
    else (if key(addrs[0]) == Some(k) then 1 else 0) + Hits(addrs[1..], key, k)
  }

  /** The reference count of `k`: each sample's weight times its frames with that key. */
  function Weight<K(==)>(samples: seq<Sample>, key: nat -> Option<K>, k: K): int {
    if |samples| == 0 then 0
    else samples[0].weight * Hits(samples[0].addresses, key, k) + Weight(samples[1..], key, k)
  }

  lemma {:induction false} TotalAppend<K>(a: seq<(K, int)>, b: seq<(K, int)>, k: K)
    ensures Total(a + b, k) == Total(a, k) + Total(b, k)
  {
    if |a| == 0 {
      assert a + b == b;
    } else {
      assert (a + b)[0] == a[0];
      assert (a + b)[1..] == a[1..] + b;
      TotalAppend(a[1..], b, k);
    }
  }

  lemma {:induction false} SampleEventsTotal<K>(addrs: seq<nat>, w: int, key: nat -> Option<K>, k: K)
    ensures Total(SampleEvents(addrs, w, key), k) == w * Hits(addrs, key, k)
  {
    if |addrs| > 0 {
      var head := if key(addrs[0]).Some? then [(key(addrs[0]).value, w)] else [];
      TotalAppend(head, SampleEvents(addrs[1..], w, key), k);
      SampleEventsTotal(addrs[1..], w, key, k);
      var h := Hits(addrs[1..], key, k);
      assert w * (1 + h) == w + w * h;
    }
  }

  /** The counting loop's total for a key is the reference weight. */
  lemma {:induction false} EventsTotal<K>(samples: seq<Sample>, key: nat -> Option<K>, k: K)
    ensures Total(Events(samples, key), k) == Weight(samples, key, k)
  {
    if |samples| > 0 {
      TotalAppend(SampleEvents(samples[0].addresses, samples[0].weight, key), Events(samples[1..], key), k);
      SampleEventsTotal(samples[0].addresses, samples[0].weight, key, k);
      EventsTotal(samples[1..], key, k);
    }
  }

  lemma {:induction false} SampleEventAt<K>(addrs: seq<nat>, w: int, key: nat -> Option<K>, a: nat) returns (e: nat)
    requires a < |addrs| && key(addrs[a]).Some?
    ensures var events := SampleEvents(addrs, w, key);
      e < |events| && events[e].0 == key(addrs[a]).value
  {
    var head := if key(addrs[0]).Some? then [(key(addrs[0]).value, w)] else [];
    if a == 0 {
      e := 0;
    } else {
      assert addrs[1..][a - 1] == addrs[a];
      var e' := SampleEventAt(addrs[1..], w, key, a - 1);
      e := |head| + e';
    }
  }

  /** A frame with a key gives an event under that key. */
  lemma {:induction false} EventAt<K>(samples: seq<Sample>, key: nat -> Option<K>, s: nat, a: nat) returns (e: nat)
    requires s < |samples| && a < |samples[s].addresses| && key(samples[s].addresses[a]).Some?
    ensures var events := Events(samples, key);
      e < |events| && events[e].0 == key(samples[s].addresses[a]).value
  {
    var head := SampleEvents(samples[0].addresses, samples[0].weight, key);
    if s == 0 {
      e := SampleEventAt(samples[0].addresses, samples[0].weight, key, a);
    } else {
      assert samples[1..][s - 1] == samples[s];
      var e' := EventAt(samples[1..], key, s - 1, a);
      e := |head| + e';
    }
  }

  /**
   * A table of frame counts: at most `top` keys, highest counts first, no key
   * twice, each count the reference weight of its key.
   */
  function CountFrames<K(==,!new)>(samples: seq<Sample>, key: nat -> Option<K>, top: int): (r: seq<(K, int)>)
    ensures top <= 0 ==> r == []
    ensures |r| <= if top < 0 then 0 else top
    ensures Descending(r)
    ensures forall i, j :: 0 <= i < j < |r| ==> r[i].0 != r[j].0
    ensures forall i :: 0 <= i < |r| ==> r[i].1 == Weight(samples, key, r[i].0)
  {
    var events := Events(samples, key);
    var r := MostCommon(Tally(events), top);
    forall i | 0 <= i < |r| ensures r[i].1 == Weight(samples, key, r[i].0) {
      TallyCounts(events, r[i].0);
      EventsTotal(samples, key, r[i].0);
    }
    r
  }

  /** Every keyed frame's key is in the table when `top` leaves room for every key. */
  lemma FrameListed<K(!new)>(samples: seq<Sample>, key: nat -> Option<K>, top: int, s: nat, a: nat)
    requires s < |samples| && a < |samples[s].addresses| && key(samples[s].addresses[a]).Some?
    requires top >= |Tally(Events(samples, key)).keys|
    ensures exists i :: (0 <= i < |CountFrames(samples, key, top)|
      && CountFrames(samples, key, top)[i].0 == key(samples[s].addresses[a]).value)
  {
    var k := key(samples[s].addresses[a]).value;
    var events := Events(samples, key);
    var e := EventAt(samples, key, s, a);
    TallyCounts(events, k);
    MostCommonAll(Tally(events), top, k);
    assert CountFrames(samples, key, top) == MostCommon(Tally(events), top);
  }

  /** With room for every key, `most_common` lists every key. */
  lemma MostCommonAll<K(!new)>(c: Counter<K>, n: int, k: K)
    requires Valid(c) && n >= |c.keys| && k in c.counts
    ensures exists i :: 0 <= i < |MostCommon(c, n)| && MostCommon(c, n)[i].0 == k
  {
    var r := MostCommon(c, n);
    var firsts := seq(|r|, i requires 0 <= i < |r| => r[i].0);
    var listed := set x | x in firsts;
    assert listed <= c.counts.Keys;
    DistinctCard(firsts);
    DistinctCard(c.keys);
    SubsetSameCard(listed, c.counts.Keys);
    var i :| 0 <= i < |firsts| && firsts[i] == k;
  }

  /** A list without repeats has as many elements as its set. */
  lemma {:induction false} DistinctCard<T>(s: seq<T>)
    requires forall i, j :: 0 <= i < j < |s| ==> s[i] != s[j]
    ensures |set x | x in s| == |s|
  {
    if |s| > 0 {
      var n := |s| - 1;
      DistinctCard(s[..n]);
      assert s == s[..n] + [s[n]];
      assert (set x | x in s) == (set x | x in s[..n]) + {s[n]};
      assert s[n] !in s[..n];
    }
  }

  /** A subset as large as the whole set is the whole set. */
  lemma SubsetSameCard<T>(a: set<T>, b: set<T>)
    requires a <= b && |a| == |b|
    ensures a == b
  {
    var d := b - a;
    assert b == a + d && a * d == {};
    assert |d| == 0;
  }

  /** Whether a symbolicated frame belongs to the app: the binary name occurs in it (ignoring ASCII case), or it names no module at all. */
  predicate OwnFrame(symbol: string, binary: string) {
    Contains(Lower(symbol), Lower(binary)) || !Contains(symbol, "(in ")
  }

  /** The key of a frame in `analyze_hotspots`: its function name, when it was symbolicated and is the app's. */
  function FunctionKey(symbols: map<nat, string>, binary: string): (key: nat -> Option<string>)
    ensures forall a :: key(a).Some? <==> a in symbols && OwnFrame(symbols[a], binary)
    ensures forall a :: key(a).Some? ==> key(a).value == ExtractFunctionName(symbols[a])
  {
    (a: nat) => if a in symbols && OwnFrame(symbols[a], binary) then Some(ExtractFunctionName(symbols[a])) else None
  }

  /** The key of a frame in the `--raw` table: its address. */
  function AddressKey(): (key: nat -> Option<nat>)
    ensures forall a: nat :: key(a) == Some(a)
  {
    (a: nat) => Some(a)
  }

  /** `analyze_hotspots`: the function table. */
  function AnalyzeHotspots(samples: seq<Sample>, symbols: map<nat, string>, binary: string, topN: int)
    : (r: seq<(string, int)>)
    ensures topN <= 0 ==> r == []
    ensures |r| <= if topN < 0 then 0 else topN
    ensures Descending(r)
    ensures forall i, j :: 0 <= i < j < |r| ==> r[i].0 != r[j].0
    ensures forall i :: 0 <= i < |r| ==> r[i].1 == Weight(samples, FunctionKey(symbols, binary), r[i].0)
  {
    CountFrames(samples, FunctionKey(symbols, binary), topN)
  }

  /** The `--raw` table: addresses instead of functions, every frame counted. */
  function RawCounts(samples: seq<Sample>, top: int): (r: seq<(nat, int)>)
    ensures |r| <= if top < 0 then 0 else top
    ensures Descending(r)
    ensures forall i, j :: 0 <= i < j < |r| ==> r[i].0 != r[j].0
    ensures forall i :: 0 <= i < |r| ==> r[i].1 == Weight(samples, AddressKey(), r[i].0)
  {
    CountFrames(samples, AddressKey(), top)
  }

  /** Under the address key a frame hits exactly once per occurrence of its address. */
  lemma {:induction false} AddressHits(addrs: seq<nat>, a: nat)
    ensures Hits(addrs, AddressKey(), a) == multiset(addrs)[a]
  {
    if |addrs| > 0 {
      assert addrs == [addrs[0]] + addrs[1..];
      AddressHits(addrs[1..], a);
    }
  }

  // ---------------------------------------------------------------------------
  // The load-address argument: int(s, 16) after "0x", int(s) otherwise.
  // ---------------------------------------------------------------------------

  /**
   * Digits of one kind with single underscores between them, as `int()` accepts:
   * digits at both ends, no two underscores in a row.
   */
  predicate Grouped(t: string, hex: bool) {
    && |t| > 0 && t[0] != '_' && t[|t| - 1] != '_'
    && (forall i :: 0 <= i < |t| ==> t[i] == '_' || (if hex then IsHexDigit(t[i]) else IsDigit(t[i])))
    && (forall i :: 0 <= i < |t| - 1 ==> !(t[i] == '_' && t[i + 1] == '_'))
  }

  /** The digits of a grouped number, underscores dropped. */
  function Digits(t: string): (r: string)
    ensures |r| <= |t|
    ensures forall i :: 0 <= i < |r| ==> r[i] != '_' && r[i] in t
  {
    if |t| == 0 then ""
    else (if t[0] == '_' then "" else [t[0]]) + Digits(t[1..])
  }

  lemma {:induction false} DigitsOfKind(t: string, hex: bool)
    requires forall i :: 0 <= i < |t| ==> t[i] == '_' || (if hex then IsHexDigit(t[i]) else IsDigit(t[i]))
    ensures var d := Digits(t); forall i :: 0 <= i < |d| ==> if hex then IsHexDigit(d[i]) else IsDigit(d[i])
  {
    if |t| > 0 {
      DigitsOfKind(t[1..], hex);
    }
  }

  /** The value of decimal digits, most significant first. */
  function DecValue(s: string): nat
    requires forall i :: 0 <= i < |s| ==> IsDigit(s[i])
  {
    if |s| == 0 then 0
    else
      var c := s[|s| - 1];
      assert IsDigit(c);
      10 * DecValue(s[..|s| - 1]) + (c as int - '0' as int)
  }

  /** The digits part of what follows `0x`: trailing whitespace and one optional leading `_` set aside. */
  function HexPart(rest: string): string {
    var body := rest[..TrailingStart(rest)];
    if |body| > 0 && body[0] == '_' then body[1..] else body
  }

  /** The digits part of a stripped decimal argument: an optional sign set aside. */
  function Unsigned(v: string): string {
    if |v| > 0 && (v[0] == '-' || v[0] == '+') then v[1..] else v
  }

  /** `int(s, 16)` for the text after `0x`. */
  function HexArg(rest: string): (r: Option<int>)
    ensures r.Some? <==> Grouped(HexPart(rest), true)
  {
    var t := HexPart(rest);
    if !Grouped(t, true) then None
    else
      DigitsOfKind(t, true);
      Some(HexValue(Digits(t)))
  }

  /** `int(v)` for a stripped argument: an optional sign, then grouped decimal digits. */
  function DecArg(v: string): (r: Option<int>)
    ensures r.Some? <==> Grouped(Unsigned(v), false)
  {
    var t := Unsigned(v);
    if !Grouped(t, false) then None
    else
      DigitsOfKind(t, false);
      var n: int := DecValue(Digits(t));
      Some(if |v| > 0 && v[0] == '-' then -n else n)
  }

  /**
   * The `--load-address` argument: hex after a `0x` prefix (either case of digit,
   * trailing whitespace allowed), decimal with surrounding whitespace otherwise;
   * anything else is reported as an invalid load address.
   */
  function ParseLoadAddress(s: string): (r: Result<int, string>)
    ensures StartsWith(s, "0x") ==> (r.Success? <==> Grouped(HexPart(s[2..]), true))
    ensures !StartsWith(s, "0x") ==> (r.Success? <==> Grouped(Unsigned(Strip(s)), false))
    ensures r.Failure? ==> r.error == "Invalid load address: " + s
  {
    var v := if StartsWith(s, "0x") then HexArg(s[2..]) else DecArg(Strip(s));
    match v
    case None => Failure("Invalid load address: " + s)
    case Some(n) => Success(n)
  }

  lemma {:induction false} DigitsPlain(t: string)
    requires forall i :: 0 <= i < |t| ==> t[i] != '_'
    ensures Digits(t) == t
  {
    if |t| > 0 {
      DigitsPlain(t[1..]);
    }
  }

  /** What `hex(n)` prints parses back to `n`. */
  lemma ParsePyHex(n: nat)
    ensures ParseLoadAddress(PyHex(n)) == Success(n)
  {
    var s := PyHex(n);
    var d := MinimalHex(n);
    assert s[2..] == d;
    assert IsHexDigit(d[|d| - 1]);
    assert d[..TrailingStart(d)] == d;
    forall i | 0 <= i < |d| ensures d[i] != '_' {
      assert IsHexDigit(d[i]);
    }
    assert HexPart(d) == d;
    DigitsPlain(d);
    HexValueMinimalHex(n);
  }

  /** `str(n)`: the decimal digits of `n` without leading zeros. */
  function Decimal(n: nat): (r: string)
    ensures |r| > 0 && forall i :: 0 <= i < |r| ==> IsDigit(r[i])
  {
    if n < 10 then ['0' + n as char] else Decimal(n / 10) + ['0' + (n % 10) as char]
  }

  lemma {:induction false} DecValueDecimal(n: nat)
    ensures DecValue(Decimal(n)) == n
  {
    if n >= 10 {
      DecValueDecimal(n / 10);
      var r := Decimal(n);
      assert r[..|r| - 1] == Decimal(n / 10);
    }
  }

  /** A signed decimal numeral, stripped, is read back as its value. */
  lemma DecArgDecimal(n: nat, sign: string)
    requires sign == "" || sign == "-" || sign == "+"
    ensures DecArg(sign + Decimal(n)) == Some(if sign == "-" then -(n as int) else n)
  {
    var d := Decimal(n);
    var v := sign + d;
    assert v[|sign|] == d[0] && IsDigit(d[0]);
    assert Unsigned(v) == d;
    forall i | 0 <= i < |d| ensures d[i] != '_' {
      assert IsDigit(d[i]);
    }
    assert Grouped(d, false);
    DigitsPlain(d);
    DecValueDecimal(n);
  }

  /** What `str(n)` and `str(-n)` print parse back. */
  lemma ParseDecimal(n: nat, sign: string)
    requires sign == "" || sign == "-"
    ensures ParseLoadAddress(sign + Decimal(n)) == Success(if sign == "-" then -(n as int) else n)
  {
    var d := Decimal(n);
    var v := sign + d;
    assert v[|sign|] == d[0] && IsDigit(d[0]);
    assert v[0] == '-' || IsDigit(v[0]);
    assert !StartsWith(v, "0x") by {
      if sign == "" && |d| >= 2 {
        assert v[1] == d[1] && IsDigit(d[1]);
      }
    }
    assert v[|v| - 1] == d[|d| - 1] && IsDigit(d[|d| - 1]);
    StripTrimmed(v);
    DecArgDecimal(n, sign);
  }

  /** Text with no digits after the prefix, such as `0x` or `0x_`, is rejected. */
  lemma ParseNeedsHexDigits(rest: string)
    requires forall i :: 0 <= i < |rest| ==> rest[i] == '_' || IsSpace(rest[i])
    ensures ParseLoadAddress("0x" + rest).Failure?
  {
    var s := "0x" + rest;
    assert StartsWith(s, "0x") && s[2..] == rest;
    var t := HexPart(rest);
    if |t| > 0 {
      assert t[0] in rest;
      assert !IsHexDigit(t[0]);
    }
  }

  /** An argument that is blank is rejected. */
  lemma ParseBlank(s: string)
    requires AllSpace(s)
    ensures ParseLoadAddress(s).Failure?
  {
    if |s| >= 2 {
      assert IsSpace(s[0]);
    }
    assert LeadingSpaces(s) == |s|;
  }

  // ---------------------------------------------------------------------------
  // main()
  // ---------------------------------------------------------------------------

  /** The parsed command line. */
  datatype Args = Args(samples: string, binary: string, loadAddress: string, top: int, raw: bool)

  /** How `main` ends; only the branch taken and the table it prints are kept. */
  datatype Outcome =
    | BadLoadAddress                            // exit status 1
    | NoSamplesFile                             // exit status 1
    | NoBinary                                  // exit status 1
    | NoSamples                                 // exit status 1
    | RawTable(counts: seq<(nat, int)>)
    | NoHotspots                                // exit status 1
    | HotspotTable(rows: seq<(string, int)>)

  /** Whether a `/`-separated piece names a path component: pathlib drops empty pieces and `.`. */
  predicate IsComponent(x: string) { x != "" && x != "." }

  /** The kept pieces, in order. */
  function KeepComponents(xs: seq<string>): (r: seq<string>)
    ensures forall i :: 0 <= i < |r| ==> IsComponent(r[i]) && r[i] in xs
  {
    if |xs| == 0 then []
    else (if IsComponent(xs[0]) then [xs[0]] else []) + KeepComponents(xs[1..])
  }

  lemma {:induction false} KeepComponentsSnoc(xs: seq<string>, x: string)
    ensures KeepComponents(xs + [x]) == KeepComponents(xs) + (if IsComponent(x) then [x] else [])
  {
    if |xs| > 0 {
      assert (xs + [x])[1..] == xs[1..] + [x];
      KeepComponentsSnoc(xs[1..], x);
    }
  }

  /** The components of a POSIX path as pathlib parses it: no empty pieces and no `.`. */
  function Components(path: string): (r: seq<string>)
    ensures forall i :: 0 <= i < |r| ==> IsComponent(r[i]) && Free(r[i], '/')
  {
    KeepComponents(Split(path, '/'))
  }

  /** `Path(p).name`: the last component, or nothing for a path without one. */
  function PathName(path: string): string {
    var cs := Components(path);
    if |cs| == 0 then "" else cs[|cs| - 1]
  }

  /**
   * `Path(binary).stem`: the name without its suffix, the suffix starting at the
   * last dot that is neither the name's first nor its last character.
   */
  function Stem(path: string): (r: string)
    ensures Free(r, '/')
    ensures r == "" <==> |Components(path)| == 0
    ensures StartsWith(PathName(path), r)
    ensures var n := PathName(path);
      r == n || (0 < |r| < |n| - 1 && n[|r|] == '.' && Free(n[|r| + 1..], '.'))
    ensures var n := PathName(path);
      (forall i :: 0 < i < |n| - 1 ==> n[i] != '.') ==> r == n
  {
    var name := PathName(path);
    var dot := (i: nat) => i < |name| && name[i] == '.';
    assert forall j: nat :: dot(j) == (j < |name| && name[j] == '.');
    match Last(dot, 0, |name|)
    case Some(i) =>
      if 0 < i < |name| - 1 then
        assert forall j :: i < j < |name| ==> name[j] != '.';
        name[..i]
      else name
    case None => name
  }

  /** A trailing `/` or `/.` does not change the stem, as pathlib ignores both. */
  lemma StemIgnoresTrailing(path: string)
    ensures Stem(path + "/") == Stem(path)
    ensures Stem(path + "/.") == Stem(path)
  {
    assert path + "/" == path + ['/'] + "";
    SplitAppend(path, '/', "");
    KeepComponentsSnoc(Split(path, '/'), "");
    assert path + "/." == path + ['/'] + ".";
    SplitAppend(path, '/', ".");
    KeepComponentsSnoc(Split(path, '/'), ".");
  }

  /** The stem of `dir/name` is the stem of the name alone. */
  lemma StemOfLast(dir: string, name: string)
    requires IsComponent(name) && Free(name, '/')
    ensures Stem(dir + "/" + name) == Stem(name)
  {
    assert dir + "/" + name == dir + ['/'] + name;
    SplitAppend(dir, '/', name);
    KeepComponentsSnoc(Split(dir, '/'), name);
    SplitFree(name, '/');
    assert KeepComponents([name]) == [name] + KeepComponents([]);
  }

  /** Every address of every sample. */
  ghost predicate AllAddresses(samples: seq<Sample>, a: nat) {
    exists s :: 0 <= s < |samples| && a in samples[s].addresses
  }

  /**
   * `main()`: the load address is read first, then the two files are checked;
   * `order` is the set of sampled addresses in its iteration order and `atos`
   * what `atos` printed.
   */
  function RunHotspots(args: Args, samplesFound: bool, binaryFound: bool, samples: seq<Sample>,
                       order: seq<nat>, atos: Option<string>): (o: Outcome)
    requires forall i, j :: 0 <= i < j < |order| ==> order[i] != order[j]
    requires forall a :: a in order <==> AllAddresses(samples, a)
    ensures ParseLoadAddress(args.loadAddress).Failure? <==> o == BadLoadAddress
    ensures ParseLoadAddress(args.loadAddress).Success? ==>
      && (!samplesFound ==> o == NoSamplesFile)
      && (samplesFound && !binaryFound ==> o == NoBinary)
      && (samplesFound && binaryFound ==> (o == NoSamples <==> |samples| == 0))
    ensures o.RawTable? ==> args.raw && |samples| > 0
    ensures o.HotspotTable? ==> !args.raw && 0 < |o.rows| && (args.top < 0 || |o.rows| <= args.top)
    ensures o.HotspotTable? ==> forall i :: 0 <= i < |o.rows| ==> o.rows[i].1 == Weight(samples,
      FunctionKey(Symbolicate(order, ParseLoadAddress(args.loadAddress).value, atos), Stem(args.binary)), o.rows[i].0)
  {
    match ParseLoadAddress(args.loadAddress)
    case Failure(_) => BadLoadAddress
    case Success(load) =>
      if !samplesFound then NoSamplesFile
      else if !binaryFound then NoBinary
      else if |samples| == 0 then NoSamples
      else if args.raw then RawTable(RawCounts(samples, args.top))
      else
        var symbols := Symbolicate(order, load, atos);
        var hot := AnalyzeHotspots(samples, symbols, Stem(args.binary), args.top);
        if |hot| == 0 then NoHotspots else HotspotTable(hot)
  }
}

=== FILE: legacy_add_files.dfy ===
/**
 * The older batch script macOS/Talkie/add_files_to_xcode.py: every listed path is
 * given a file-reference id and a build-file id, the generated lines are written
 * after the `PBXFileReference` and `PBXBuildFile` section markers, and the build
 * ids are appended to the first `files` list after each occurrence of the
 * Sources-phase section marker.  Group ids are drawn too, and never written.
 */
module LegacyAddFiles {
  import opened Wrappers
  import opened Text
  import opened Uuids
  import opened PbxScan
  import opened PbxEdit

  /** One entry of the script's table of files: a group and the paths filed under it. */
  datatype FileGroup = FileGroup(name: string, paths: seq<string>)

  /** The groups the script assumes already exist, and draws no id for. */
  const ExistingGroups: seq<string> := ["Views/Memos", "Views/Migration", "App"]

  /**
   * The three anchors of the step-3 pattern: the section marker, the opening of the
   * `files` list after it, and the first `);` after that.
   */
  datatype PhasePattern = PhasePattern(marker: string, open: string, close: string)

  const ListClose := ");"
  const SourcesPattern := PhasePattern("/* Begin PBXSourcesBuildPhase section */", "files = (", ListClose)

  /** `os.path.basename`: the part of a path after its last '/'. */
  function Basename(p: string): (r: string)
    ensures Free(r, '/')
    ensures EndsWith(p, r)
    ensures |r| < |p| ==> p[|p| - |r| - 1] == '/'
  {
    if |p| == 0 || p[|p| - 1] == '/' then ""
    else
      var r := Basename(p[..|p| - 1]) + [p[|p| - 1]];
      assert p == p[..|p| - 1] + [p[|p| - 1]];
      r
  }

  /** The paths of all groups, in table order. */
  function AllPaths(groups: seq<FileGroup>): seq<string> {
    if |groups| == 0 then [] else groups[0].paths + AllPaths(groups[1..])
  }

  /** A Python dict of strings: its keys in insertion order, and its values. */
  datatype Dict = Dict(keys: seq<string>, values: map<string, string>)

  predicate Valid(d: Dict) {
    && (forall i, j :: 0 <= i < j < |d.keys| ==> d.keys[i] != d.keys[j])
    && (forall k :: k in d.values ==> k in d.keys)
    && (forall i :: 0 <= i < |d.keys| ==> d.keys[i] in d.values)
  }

  /**
   * The keys of a dict assigned at the keys `s` in turn: `d[k] = v` puts a new key
   * last and leaves an existing key where it is.
   */
  function InsertionOrder(s: seq<string>): (r: seq<string>)
    ensures forall i, j :: 0 <= i < j < |r| ==> r[i] != r[j]
    ensures forall k :: k in r <==> k in s
    ensures (forall i, j :: 0 <= i < j < |s| ==> s[i] != s[j]) ==> r == s
  {
    if |s| == 0 then []
    else
      var n := |s| - 1;
      var prev := InsertionOrder(s[..n]);
      assert s == s[..n] + [s[n]];
      if s[n] in prev then prev else prev + [s[n]]
  }

  /** The values of that dict when the `i`-th assignment stores `ids(first + stride * i)`. */
  function AssignedValues(s: seq<string>, ids: nat -> string, first: nat, stride: nat): (m: map<string, string>)
    ensures forall k :: k in m <==> k in s
  {
    if |s| == 0 then map[]
    else
      var n := |s| - 1;
      assert s == s[..n] + [s[n]];
      AssignedValues(s[..n], ids, first, stride)[s[n] := ids(first + stride * n)]
  }

  /** The dict `for i, k in enumerate(s): d[k] = ids(first + stride * i)` builds. */
  function Assigned(s: seq<string>, ids: nat -> string, first: nat, stride: nat): (d: Dict)
    ensures Valid(d)
    ensures forall k :: k in d.keys <==> k in s
  {
    Dict(InsertionOrder(s), AssignedValues(s, ids, first, stride))
  }

  /** `i` is the last index at which `k` is listed. */
  predicate LastAt(s: seq<string>, i: int, k: string) {
    0 <= i < |s| && s[i] == k && forall j :: i < j < |s| ==> s[j] != k
  }

  /** The last index at which a listed `k` is listed. */
  function LastIndex(s: seq<string>, k: string): (i: nat)
    requires k in s
    ensures LastAt(s, i, k)
  {
    if s[|s| - 1] == k then |s| - 1
    else
      assert s == s[..|s| - 1] + [s[|s| - 1]];
      LastIndex(s[..|s| - 1], k)
  }

  /** A later assignment to a key overwrites it: the value kept is the one of its last assignment. */
  lemma {:induction false} AssignedValue(s: seq<string>, ids: nat -> string, first: nat, stride: nat, k: string)
    requires k in s
    ensures AssignedValues(s, ids, first, stride)[k] == ids(first + stride * LastIndex(s, k))
  {
    var n := |s| - 1;
    if s[n] != k {
      assert s == s[..n] + [s[n]];
      AssignedValue(s[..n], ids, first, stride, k);
    }
  }

  /** The values depend only on the ids the assignments read. */
  lemma {:induction false} AssignedAgree(s: seq<string>, d1: nat -> string, d2: nat -> string, first: nat, stride: nat)
    requires forall i :: 0 <= i < |s| ==> d1(first + stride * i) == d2(first + stride * i)
    ensures AssignedValues(s, d1, first, stride) == AssignedValues(s, d2, first, stride)
  {
    if |s| > 0 {
      var n := |s| - 1;
      assert forall i :: 0 <= i < n ==> s[..n][i] == s[i];
      AssignedAgree(s[..n], d1, d2, first, stride);
      assert d1(first + stride * n) == d2(first + stride * n);
    }
  }

  /**
   * `ids` lists what `generate_uuid` returns, call after call, for the random draws
   * `draws`: the script's n-th id is `ids(n)`.
   */
  ghost predicate UuidStream(ids: nat -> string, draws: nat -> nat) {
    forall n: nat :: ids(n) == GenerateUuid(draws(n))
  }

  /** Every id in a stream of `generate_uuid` results is a 24-digit upper-case hex id. */
  lemma UuidStreamIds(ids: nat -> string, draws: nat -> nat)
    requires UuidStream(ids, draws)
    ensures forall n: nat :: IsId(ids(n))
  {
    forall n: nat ensures IsId(ids(n)) {
      assert ids(n) == GenerateUuid(draws(n));
    }
  }

  predicate NeedsId(g: FileGroup) { g.name !in ExistingGroups }

  /** The names of the groups given an id, in table order. */
  function IdGroups(groups: seq<FileGroup>): (r: seq<string>)
    ensures |r| <= |groups|
    ensures forall k :: k in r <==> exists i :: 0 <= i < |groups| && groups[i].name == k && NeedsId(groups[i])
    ensures (forall i, j :: 0 <= i < j < |groups| ==> groups[i].name != groups[j].name) ==>
      forall i, j :: 0 <= i < j < |r| ==> r[i] != r[j]
  {
    if |groups| == 0 then []
    else
      var rest := IdGroups(groups[1..]);
      assert forall i :: 1 <= i < |groups| ==> groups[1..][i - 1] == groups[i];
      if NeedsId(groups[0]) then
        var r := [groups[0].name] + rest;
        assert (forall i, j :: 0 <= i < j < |groups| ==> groups[i].name != groups[j].name) ==>
          groups[0].name !in rest;
        assert forall i :: 1 <= i < |r| ==> r[i] == rest[i - 1];
        r
      else rest
  }

  /**
   * Every id the script draws, and how many draws it takes: a file-reference id and
   * a build-file id per listed path, in turn, then one id per group outside
   * `ExistingGroups`.
   */
  datatype Plan = Plan(refs: Dict, builds: Dict, groupIds: Dict, drawn: nat)

  function PlanIds(groups: seq<FileGroup>, ids: nat -> string): Plan {
    var paths := AllPaths(groups);
    var named := IdGroups(groups);
    Plan(Assigned(paths, ids, 0, 2), Assigned(paths, ids, 1, 2), Assigned(named, ids, 2 * |paths|, 1),
      2 * |paths| + |named|)
  }

  /** The file-reference lines, one per key of the dict, in its order. */
  function FileRefLines(refs: Dict): (r: seq<string>)
    requires Valid(refs)
    ensures |r| == |refs.keys|
  {
    seq(|refs.keys|, i requires 0 <= i < |refs.keys| =>
      FileRefText(refs.values[refs.keys[i]], Basename(refs.keys[i])))
  }

  /** The build-file lines: each pairs a path's build id with the same path's file-reference id. */
  function BuildLines(refs: Dict, builds: Dict): (r: seq<string>)
    requires Valid(refs) && Valid(builds)
    requires forall k :: k in builds.values ==> k in refs.values
    ensures |r| == |builds.keys|
  {
    seq(|builds.keys|, i requires 0 <= i < |builds.keys| =>
      "\t\t" + BuildLine(builds.values[builds.keys[i]], refs.values[builds.keys[i]], Basename(builds.keys[i])))
  }

  /** What goes at the end of each Sources `files` list: one entry per build id, in order. */
  function SourcesBlock(builds: Dict): string
    requires Valid(builds)
  {
    Join(seq(|builds.keys|, i requires 0 <= i < |builds.keys| =>
      SourcesEntry(builds.values[builds.keys[i]], Basename(builds.keys[i]))), "")
  }

  /**
   * `re.sub(pattern, "\n" + m + "\n" + block, c, count=1)` for the literal marker
   * `m`: the first occurrence of the marker gets a newline before it and the block,
   * on a line of its own, after it.  Without the marker nothing changes.
   */
  function ReplaceFirst(c: string, m: string, block: string): (r: string)
  {
    match Find(c, m)
    case None => c
    case Some(i) => c[..i] + "\n" + m + "\n" + block + c[i + |m|..]
  }

  /** With no occurrence of the marker, steps 1 and 2 leave the text as it was. */
  lemma ReplaceFirstAbsent(c: string, m: string, block: string)
    requires forall j :: !OccursAt(c, j, m)
    ensures ReplaceFirst(c, m, block) == c
  {
  }

  /** `find` returns the first occurrence. */
  lemma FirstOccurrence(c: string, m: string, i: nat)
    requires OccursAt(c, i, m) && forall j :: 0 <= j < i ==> !OccursAt(c, j, m)
    ensures Find(c, m) == Some(i)
  {
  }

  /** Where one match of the Sources pattern sits: marker, `files = (`, and the closing `);`. */
  datatype Phase = Phase(start: nat, open: nat, close: nat)

  /**
   * The leftmost match at or after `from` of the DOTALL pattern of step 3: the
   * marker, the first `files = (` after it and the first `);` after that, as the
   * two lazy `.*?` settle.  `None` when no match begins at or after `from`.
   */
  function PhaseMatch(c: string, pat: PhasePattern, from: nat): (r: Option<Phase>)
    ensures r.Some? ==> var ph := r.value;
      && from <= ph.start && OccursAt(c, ph.start, pat.marker)
      && ph.start + |pat.marker| <= ph.open && OccursAt(c, ph.open, pat.open)
      && ph.open + |pat.open| <= ph.close && OccursAt(c, ph.close, pat.close)
  {
    match FindFrom(c, pat.marker, from)
    case None => None
    case Some(s) =>
      match FindFrom(c, pat.open, s + |pat.marker|)
      case None => None
      case Some(f) =>
        match FindFrom(c, pat.close, f + |pat.open|)
        case None => None
        case Some(e) => Some(Phase(s, f, e))
  }

  /**
   * The match is the leftmost one and each lazy `.*?` stops at the first anchor it
   * can: no marker begins earlier, no `files = (` sits between the marker and the
   * chosen one, and no `);` between that and the chosen close.  `None` only when no
   * marker, `files = (`, `);` triple follows `from` in that order.
   */
  lemma PhaseMatchLeftmost(c: string, pat: PhasePattern, from: nat)
    ensures var r := PhaseMatch(c, pat, from);
      && (r.Some? ==> var ph := r.value;
          && (forall j :: from <= j < ph.start ==> !OccursAt(c, j, pat.marker))
          && (forall j :: ph.start + |pat.marker| <= j < ph.open ==> !OccursAt(c, j, pat.open))
          && (forall j :: ph.open + |pat.open| <= j < ph.close ==> !OccursAt(c, j, pat.close)))
      && (r.None? ==> forall s, f, e ::
          (from <= s && OccursAt(c, s, pat.marker) && s + |pat.marker| <= f
           && OccursAt(c, f, pat.open) && f + |pat.open| <= e) ==> !OccursAt(c, e, pat.close))
  {
  }

  /**
   * `from`, then the positions `es` of one `close` each, left to right, not
   * overlapping and inside `c`.
   */
  predicate ClosesAt(c: string, es: seq<nat>, from: nat, close: string)
    decreases |es|
  {
    if |es| == 0 then from <= |c|
    else from <= es[0] && OccursAt(c, es[0], close) && ClosesAt(c, es[1..], es[0] + |close|, close)
  }

  /**
   * Where the `);` of each match of step 3 sits, left to right: `re.sub` takes the
   * leftmost match, then looks for the next one after its end.
   */
  function PhaseCloses(c: string, pat: PhasePattern, from: nat): (es: seq<nat>)
    requires from <= |c| && |pat.close| > 0
    ensures ClosesAt(c, es, from, pat.close)
    ensures |es| == 0 <==> PhaseMatch(c, pat, from).None?
    decreases |c| - from
  {
    match PhaseMatch(c, pat, from)
    case None => []
    case Some(ph) =>
      var rest := PhaseCloses(c, pat, ph.close + |pat.close|);
      ClosesCons(c, ph.close, rest, from, pat.close);
      [ph.close] + rest
  }

  /** One more close in front of a run of closes. */
  lemma ClosesCons(c: string, e: nat, rest: seq<nat>, from: nat, close: string)
    requires from <= e && OccursAt(c, e, close) && ClosesAt(c, rest, e + |close|, close)
    ensures ClosesAt(c, [e] + rest, from, close)
  {
    assert ([e] + rest)[1..] == rest;
  }

  /** `c[from..]` with `add` spliced in right before each of the closes `es`. */
  function InsertBefore(c: string, from: nat, es: seq<nat>, add: string, close: string): (r: string)
    requires ClosesAt(c, es, from, close)
    decreases |es|
  {
    if |es| == 0 then c[from..]
    else c[from..es[0]] + add + close + InsertBefore(c, es[0] + |close|, es[1..], add, close)
  }

  /**
   * `re.sub(pattern, add_to_build_phase, c, flags=re.DOTALL)`: every
   * non-overlapping match, left to right, gets `add` between its existing entries
   * and its closing `);`.
   */
  function AppendToPhases(c: string, pat: PhasePattern, add: string): (r: string)
    requires |pat.close| > 0
    ensures PhaseMatch(c, pat, 0).None? ==> r == c
  {
    InsertBefore(c, 0, PhaseCloses(c, pat, 0), add, pat.close)
  }

  /** The text the script writes back: steps 1 to 3 of `add_files_to_project`. */
  function AddFilesToProject(c: string, groups: seq<FileGroup>, ids: nat -> string): (r: string)
    requires forall p :: p in AllPaths(groups) ==> Free(p, '\\')
    ensures ((forall j :: !OccursAt(c, j, FileRefMarker)) && (forall j :: !OccursAt(c, j, BuildFileMarker))
             && PhaseMatch(c, SourcesPattern, 0).None?) ==> r == c
  {
    var plan := PlanIds(groups, ids);
    var c1 := ReplaceFirst(c, FileRefMarker, Join(FileRefLines(plan.refs), "\n"));
    var c2 := ReplaceFirst(c1, BuildFileMarker, Join(BuildLines(plan.refs, plan.builds), "\n"));
    AppendToPhases(c2, SourcesPattern, SourcesBlock(plan.builds))
  }

  /**
   * Every listed path gets exactly one file-reference id and one build-file id:
   * the two dicts `PlanIds` builds from the listed paths have the same keys in the
   * same order, each listed path among them once, and its two ids are the two
   * draws of the last time it is listed.
   */
  lemma LegacyIdsPaired(paths: seq<string>, ids: nat -> string, k: string)
    requires k in paths
    ensures var refs := Assigned(paths, ids, 0, 2); var builds := Assigned(paths, ids, 1, 2);
      && refs.keys == builds.keys
      && k in refs.keys
      && (forall i, j :: 0 <= i < j < |refs.keys| ==> refs.keys[i] != refs.keys[j])
      && refs.values[k] == ids(2 * LastIndex(paths, k))
      && builds.values[k] == ids(2 * LastIndex(paths, k) + 1)
  {
    RefIdOf(paths, ids, k);
    BuildIdOf(paths, ids, k);
  }

  lemma RefIdOf(paths: seq<string>, ids: nat -> string, k: string)
    requires k in paths
    ensures AssignedValues(paths, ids, 0, 2)[k] == ids(2 * LastIndex(paths, k))
  {
    AssignedValue(paths, ids, 0, 2, k);
  }

  lemma BuildIdOf(paths: seq<string>, ids: nat -> string, k: string)
    requires k in paths
    ensures AssignedValues(paths, ids, 1, 2)[k] == ids(2 * LastIndex(paths, k) + 1)
  {
    AssignedValue(paths, ids, 1, 2, k);
  }

  /**
   * Group ids are drawn after the file ids, one per group outside `ExistingGroups`,
   * and nothing the script writes depends on them: two runs whose draws agree on
   * the file ids write the same text.
   */
  lemma LegacyGroupIdsUnused(c: string, groups: seq<FileGroup>, ids1: nat -> string, ids2: nat -> string)
    requires forall i, j :: 0 <= i < j < |groups| ==> groups[i].name != groups[j].name
    requires forall p :: p in AllPaths(groups) ==> Free(p, '\\')
    requires forall i :: 0 <= i < 2 * |AllPaths(groups)| ==> ids1(i) == ids2(i)
    ensures PlanIds(groups, ids1).drawn == 2 * |AllPaths(groups)| + |PlanIds(groups, ids1).groupIds.keys|
    ensures forall k :: k in PlanIds(groups, ids1).groupIds.keys <==>
      exists i :: 0 <= i < |groups| && groups[i].name == k && k !in ExistingGroups
    ensures AddFilesToProject(c, groups, ids1) == AddFilesToProject(c, groups, ids2)
  {
    var paths := AllPaths(groups);
    forall i | 0 <= i < |paths| ensures ids1(0 + 2 * i) == ids2(0 + 2 * i) && ids1(1 + 2 * i) == ids2(1 + 2 * i) {
    }
    AssignedAgree(paths, ids1, ids2, 0, 2);
    AssignedAgree(paths, ids1, ids2, 1, 2);
  }

  /**
   * Steps 1 and 2 insert their block once, right after the first occurrence of the
   * marker, on the line after it; the text before the marker and after it is kept.
   */
  lemma ReplaceFirstPlaces(c: string, m: string, block: string, i: nat)
    requires OccursAt(c, i, m) && forall j :: 0 <= j < i ==> !OccursAt(c, j, m)
    ensures var r := ReplaceFirst(c, m, block);
      && r[..i] == c[..i]
      && OccursAt(r, i + 1, m + "\n" + block)
      && r[i + 1 + |m| + 1 + |block|..] == c[i + |m|..]
  {
    var r := ReplaceFirst(c, m, block);
    FirstOccurrence(c, m, i);
    assert r == c[..i] + "\n" + (m + "\n" + block) + c[i + |m|..];
    assert r[i + 1..i + 1 + |m + "\n" + block|] == m + "\n" + block;
  }

  /** Each close of `es` lies at or after `from` and holds `close`. */
  lemma {:induction false} ClosesOccur(c: string, es: seq<nat>, from: nat, close: string)
    requires ClosesAt(c, es, from, close)
    ensures forall i :: 0 <= i < |es| ==> from <= es[i] && OccursAt(c, es[i], close)
    decreases |es|
  {
    if |es| > 0 {
      ClosesOccur(c, es[1..], es[0] + |close|, close);
      forall i | 1 <= i < |es| ensures from <= es[i] && OccursAt(c, es[i], close) {
        assert es[i] == es[1..][i - 1];
      }
    }
  }

  /**
   * Step 3 appends its entries to every match: in the text it writes, `add`
   * followed by the `);` stands where each match's `);` stood, shifted by the
   * entries added to the earlier matches.
   */
  lemma PhasesAppended(c: string, pat: PhasePattern, add: string, i: nat)
    requires |pat.close| > 0 && i < |PhaseCloses(c, pat, 0)|
    ensures OccursAt(AppendToPhases(c, pat, add), PhaseCloses(c, pat, 0)[i] + i * |add|, add + pat.close)
  {
    var es := PhaseCloses(c, pat, 0);
    var x := AppendToPhases(c, pat, add);
    assert x == InsertBefore(c, 0, es, add, pat.close);
    InsertBeforeAppends(c, 0, es, add, pat.close, i);
    var o := es[i] + i * |add|;
    assert es[i] - 0 + i * |add| == o;
  }

  lemma {:induction false} InsertBeforeAppends(c: string, from: nat, es: seq<nat>, add: string, close: string, i: nat)
    requires ClosesAt(c, es, from, close) && i < |es|
    ensures OccursAt(InsertBefore(c, from, es, add, close), es[i] - from + i * |add|, add + close)
    decreases |es|
  {
    var x := InsertBefore(c, from, es, add, close);
    var rest := InsertBefore(c, es[0] + |close|, es[1..], add, close);
    InsertBeforeCons(c, from, es, add, close);
    if i == 0 {
      SpliceOccurs(x, c[from..es[0]], add, close, rest);
      assert |c[from..es[0]]| == es[0] - from + i * |add|;
    } else {
      var h := c[from..es[0]] + add + close;
      InsertBeforeAppends(c, es[0] + |close|, es[1..], add, close, i - 1);
      var o := es[1..][i - 1] - (es[0] + |close|) + (i - 1) * |add|;
      OccursAfterAll(x, h, rest, o, add + close);
      var target := es[i] - from + i * |add|;
      assert |h| + o == target by {
        assert es[1..][i - 1] == es[i];
        assert |h| == es[0] - from + |add| + |close|;
        MulStep(i, |add|);
      }
    }
  }

  lemma MulStep(i: nat, a: nat)
    requires i > 0
    ensures (i - 1) * a + a == i * a
  {
  }

  /** The splice of a nonempty run of closes: the text up to the first close, `add`, the close, then the splice of the rest. */
  lemma InsertBeforeCons(c: string, from: nat, es: seq<nat>, add: string, close: string)
    requires ClosesAt(c, es, from, close) && |es| > 0
    ensures InsertBefore(c, from, es, add, close)
      == c[from..es[0]] + add + close + InsertBefore(c, es[0] + |close|, es[1..], add, close)
  {
  }

  /** In `x == a + b + d + e`, the text `b + d` starts at `|a|`. */
  lemma SpliceOccurs(x: string, a: string, b: string, d: string, e: string)
    requires x == a + b + d + e
    ensures OccursAt(x, |a|, b + d)
  {
    assert x[|a|..|a| + |b + d|] == b + d;
  }

  /**
   * Step 3 keeps every existing line without ')' that does not start with ';':
   * the only insertions go right before a `);`, which cannot fall inside such a line.
   */
  lemma PhasesKeep(c: string, pat: PhasePattern, add: string, p: nat, t: string) returns (q: nat)
    requires pat.close == ListClose
    requires OccursAt(c, p, t) && |t| > 0 && ')' !in t && t[0] != ';'
    ensures OccursAt(AppendToPhases(c, pat, add), q, t)
  {
    var es := PhaseCloses(c, pat, 0);
    ClosesOccur(c, es, 0, pat.close);
    forall i | 0 <= i < |es| ensures p + |t| <= es[i] || es[i] + |pat.close| <= p {
      PhaseCloseApart(c, p, t, es[i]);
    }
    q := InsertBeforeKeeps(c, 0, es, add, pat.close, p, t);
  }

  /** An occurrence clear of every close keeps its text through the splicing. */
  lemma {:induction false} InsertBeforeKeeps(c: string, from: nat, es: seq<nat>, add: string, close: string, p: nat, t: string)
    returns (q: nat)
    requires ClosesAt(c, es, from, close)
    requires from <= p && OccursAt(c, p, t)
    requires forall i :: 0 <= i < |es| ==> p + |t| <= es[i] || es[i] + |close| <= p
    ensures OccursAt(InsertBefore(c, from, es, add, close), q, t)
    decreases |es|
  {
    if |es| == 0 {
      q := p - from;
      OccursSlice(c, from, |c|, p, t);
      assert c[from..|c|] == c[from..];
    } else if p + |t| <= es[0] {
      q := p - from;
      ClosesOccur(c, es, from, close);
      OccursBeforeAll(InsertBefore(c, from, es, add, close), c, from, es[0], p, t, add, close,
        InsertBefore(c, es[0] + |close|, es[1..], add, close));
    } else {
      var h := c[from..es[0]] + add + close;
      var rest := InsertBefore(c, es[0] + |close|, es[1..], add, close);
      forall i | 0 <= i < |es[1..]| ensures p + |t| <= es[1..][i] || es[1..][i] + |close| <= p {
        assert es[1..][i] == es[i + 1];
      }
      var q' := InsertBeforeKeeps(c, es[0] + |close|, es[1..], add, close, p, t);
      q := |h| + q';
      OccursAfterAll(InsertBefore(c, from, es, add, close), h, rest, q', t);
    }
  }

  /** An occurrence inside `c[from..e]` stays put whatever is appended after it. */
  lemma OccursBeforeAll(x: string, c: string, from: nat, e: nat, p: nat, t: string, a: string, b: string, d: string)
    requires from <= p && p + |t| <= e <= |c| && OccursAt(c, p, t)
    requires x == c[from..e] + a + b + d
    ensures OccursAt(x, p - from, t)
  {
    var head := c[from..e];
    OccursSlice(c, from, e, p, t);
    OccursBefore(head, a, p - from, t);
    OccursBefore(head + a, b, p - from, t);
    OccursBefore(head + a + b, d, p - from, t);
  }

  /** An occurrence in `d` is one in `x == h + d`, shifted by `|h|`. */
  lemma OccursAfterAll(x: string, h: string, d: string, o: int, t: string)
    requires x == h + d && OccursAt(d, o, t)
    ensures OccursAt(x, |h| + o, t)
  {
    OccursAfter(h, d, o, t);
  }

  /** A `);` never overlaps a line without ')' that does not start with ';'. */
  lemma PhaseCloseApart(c: string, p: nat, t: string, e: nat)
    requires OccursAt(c, p, t) && |t| > 0 && ')' !in t && t[0] != ';'
    requires OccursAt(c, e, ListClose)
    ensures p + |t| <= e || e + |ListClose| <= p
  {
    OccursChars(c, p, t);
    OccursChars(c, e, ListClose);
    assert ListClose[0] == ')' && ListClose[1] == ';';
    assert c[e] == ')' && c[e + 1] == ';';
    assert c[p] == t[0];
    forall q | p <= q < p + |t| ensures c[q] != ')' {
      assert c[q] == t[q - p];
      assert t[q - p] in t;
    }
  }

  /**
   * Inserting after the first `m1` leaves the first `m2` where it was, when that
   * one ends before the first `m1`.
   */
  lemma EarlierMarkerStays(c: string, m1: string, m2: string, block: string, i: nat, j: nat)
    requires OccursAt(c, i, m1) && forall x :: 0 <= x < i ==> !OccursAt(c, x, m1)
    requires OccursAt(c, j, m2) && forall x :: 0 <= x < j ==> !OccursAt(c, x, m2)
    requires j + |m2| <= i
    ensures var c1 := ReplaceFirst(c, m1, block);
      OccursAt(c1, j, m2) && forall x :: 0 <= x < j ==> !OccursAt(c1, x, m2)
  {
    var c1 := ReplaceFirst(c, m1, block);
    ReplaceFirstPlaces(c, m1, block, i);
    forall x | 0 <= x <= j ensures OccursAt(c1, x, m2) == OccursAt(c, x, m2) {
      assert c1[x..x + |m2|] == c1[..i][x..x + |m2|];
      assert c[x..x + |m2|] == c[..i][x..x + |m2|];
    }
  }

  /**
   * Steps 1 and 2 together, with the second marker ending before the first: a line
   * of either inserted block occurs in the result, the second block's line before
   * the first block's.
   */
  lemma TwoInsertionsKeep(c: string, m1: string, b1: string, m2: string, b2: string,
                          i: nat, j: nat, o1: nat, t1: string, o2: nat, t2: string)
    returns (q1: nat, q2: nat)
    requires OccursAt(c, i, m1) && forall x :: 0 <= x < i ==> !OccursAt(c, x, m1)
    requires OccursAt(c, j, m2) && forall x :: 0 <= x < j ==> !OccursAt(c, x, m2)
    requires j + |m2| <= i
    requires OccursAt(b1, o1, t1) && OccursAt(b2, o2, t2)
    ensures var c2 := ReplaceFirst(ReplaceFirst(c, m1, b1), m2, b2);
      OccursAt(c2, q1, t1) && OccursAt(c2, q2, t2)
  {
    var c1 := ReplaceFirst(c, m1, b1);
    var p1 := InsertedLineAt(c, m1, b1, i, o1, t1);
    EarlierMarkerStays(c, m1, m2, b1, i, j);
    q2 := InsertedLineAt(c1, m2, b2, j, o2, t2);
    q1 := LaterTextShifts(c1, m2, b2, j, p1, t1);
  }

  /** A line of the inserted block sits one line below the first marker. */
  lemma InsertedLineAt(c: string, m: string, b: string, i: nat, o: nat, t: string) returns (q: nat)
    requires OccursAt(c, i, m) && forall x :: 0 <= x < i ==> !OccursAt(c, x, m)
    requires OccursAt(b, o, t)
    ensures q == i + 1 + |m| + 1 + o && q >= i + |m|
    ensures OccursAt(ReplaceFirst(c, m, b), q, t)
  {
    q := i + 1 + |m| + 1 + o;
    var r := ReplaceFirst(c, m, b);
    FirstOccurrence(c, m, i);
    var pre := c[..i] + "\n" + m + "\n";
    assert r == pre + b + c[i + |m|..];
    OccursAfter(pre, b, o, t);
    OccursBefore(pre + b, c[i + |m|..], |pre| + o, t);
  }

  /** Text after the first marker moves down by the inserted block and two newlines. */
  lemma LaterTextShifts(c: string, m: string, b: string, i: nat, p: nat, t: string) returns (q: nat)
    requires OccursAt(c, i, m) && forall x :: 0 <= x < i ==> !OccursAt(c, x, m)
    requires i + |m| <= p && OccursAt(c, p, t)
    ensures q == p + |b| + 2
    ensures OccursAt(ReplaceFirst(c, m, b), q, t)
  {
    q := p + |b| + 2;
    var r := ReplaceFirst(c, m, b);
    FirstOccurrence(c, m, i);
    var pre := c[..i] + "\n" + m + "\n" + b;
    assert r == pre + c[i + |m|..];
    OccursSuffix(c, i + |m|, p - (i + |m|), t);
    OccursAfter(pre, c[i + |m|..], p - (i + |m|), t);
  }

  lemma IdFree(id: string)
    requires IsId(id)
    ensures ')' !in id
  {
  }

  /** The file-reference line has no ')' when neither its id nor the file name has one. */
  lemma FileRefLineFree(fid: string, fn: string)
    requires ')' !in fid && ')' !in fn
    ensures ')' !in FileRefText(fid, fn)
  {
    assert ')' !in "; lastKnownFileType = " && ')' !in "sourcecode.swift; path = ";
    assert ')' !in RefSuffix;
    assert ')' !in "; sourceTree = \"<group>\"; };";
    assert ')' !in FileRefTail(fn);
    assert ')' !in RefToken(fn);
  }

  /** The build-file line has no ')' when neither its ids nor the file name has one. */
  lemma BuildLineFree(bid: string, fid: string, fn: string)
    requires ')' !in fid && ')' !in bid && ')' !in fn
    ensures ')' !in "\t\t" + BuildLine(bid, fid, fn)
  {
    var a := " = {isa = PBXBuildFile; fileRef = ";
    assert ')' !in a;
    assert ')' !in " in Sources";
  }

  lemma BasenameFree(p: string, c: char)
    requires c !in p
    ensures c !in Basename(p)
  {
    var b := Basename(p);
    var k := |p| - |b|;
    assert p[k..] == b;
    forall i | 0 <= i < |b| ensures b[i] != c {
      assert b[i] == p[k + i];
    }
  }

  /**
   * The lines the script writes for a listed path survive to the text it writes
   * back: its file-reference line, and its build-file line whose `fileRef` is the
   * id of that same file-reference line.  This holds for the usual section order,
   * where the build-file marker comes before the file-reference marker.
   */
  lemma LegacyEntriesWritten(c: string, groups: seq<FileGroup>, ids: nat -> string, k: string, i: nat, j: nat)
    requires forall p :: p in AllPaths(groups) ==> Free(p, '\\')
    requires forall n: nat :: IsId(ids(n))
    requires k in AllPaths(groups) && ')' !in k
    requires OccursAt(c, i, FileRefMarker) && forall x :: 0 <= x < i ==> !OccursAt(c, x, FileRefMarker)
    requires OccursAt(c, j, BuildFileMarker) && forall x :: 0 <= x < j ==> !OccursAt(c, x, BuildFileMarker)
    requires j + |BuildFileMarker| <= i
    ensures var plan := PlanIds(groups, ids); var r := AddFilesToProject(c, groups, ids);
      && k in plan.refs.values && k in plan.builds.values
      && var fid := plan.refs.values[k]; var bid := plan.builds.values[k];
      && (exists q :: OccursAt(r, q, FileRefText(fid, Basename(k))))
      && (exists q :: OccursAt(r, q, "\t\t" + BuildLine(bid, fid, Basename(k))))
  {
    var plan := PlanIds(groups, ids);
    var a := LegacyLinesOf(groups, ids, k);
    var fid := plan.refs.values[k];
    var bid := plan.builds.values[k];
    var fn := Basename(k);
    var fline := FileRefText(fid, fn);
    var bline := "\t\t" + BuildLine(bid, fid, fn);
    PlanIdsFree(groups, ids, k);
    BasenameFree(k, ')');
    FileRefLineFree(fid, fn);
    BuildLineFree(bid, fid, fn);
    var b1 := Join(FileRefLines(plan.refs), "\n");
    JoinOccurs(FileRefLines(plan.refs), "\n", a);
    var o1 :| OccursAt(b1, o1, fline);
    var b2 := Join(BuildLines(plan.refs, plan.builds), "\n");
    JoinOccurs(BuildLines(plan.refs, plan.builds), "\n", a);
    var o2 :| OccursAt(b2, o2, bline);
    var p1, p2 := TwoInsertionsKeep(c, FileRefMarker, b1, BuildFileMarker, b2, i, j, o1, fline, o2, bline);
    var c2 := ReplaceFirst(ReplaceFirst(c, FileRefMarker, b1), BuildFileMarker, b2);
    var add := SourcesBlock(plan.builds);
    assert AddFilesToProject(c, groups, ids) == AppendToPhases(c2, SourcesPattern, add);
    assert bline[0] == '\t';
    assert fline[0] == '\t';
    SourcesKeepLine(c2, add, p2, bline);
    SourcesKeepLine(c2, add, p1, fline);
  }

  /** The ids the plan gives a listed path are drawn ids, so they hold no ')'. */
  lemma PlanIdsFree(groups: seq<FileGroup>, ids: nat -> string, k: string)
    requires forall n: nat :: IsId(ids(n))
    requires k in AllPaths(groups)
    ensures var plan := PlanIds(groups, ids);
      && k in plan.refs.values && k in plan.builds.values
      && ')' !in plan.refs.values[k] && ')' !in plan.builds.values[k]
  {
    var paths := AllPaths(groups);
    RefIdOf(paths, ids, k);
    IdFree(ids(2 * LastIndex(paths, k)));
    BuildIdOf(paths, ids, k);
    IdFree(ids(2 * LastIndex(paths, k) + 1));
  }

  /** Where a listed path's two lines sit in the generated blocks. */
  lemma LegacyLinesOf(groups: seq<FileGroup>, ids: nat -> string, k: string) returns (a: nat)
    requires forall p :: p in AllPaths(groups) ==> Free(p, '\\')
    requires k in AllPaths(groups)
    ensures var plan := PlanIds(groups, ids);
      && k in plan.refs.values && k in plan.builds.values
      && var fid := plan.refs.values[k]; var bid := plan.builds.values[k];
      && a < |FileRefLines(plan.refs)| && a < |BuildLines(plan.refs, plan.builds)|
      && FileRefLines(plan.refs)[a] == FileRefText(fid, Basename(k))
      && BuildLines(plan.refs, plan.builds)[a] == "\t\t" + BuildLine(bid, fid, Basename(k))
  {
    var paths := AllPaths(groups);
    var refs := Assigned(paths, ids, 0, 2);
    var builds := Assigned(paths, ids, 1, 2);
    assert PlanIds(groups, ids).refs == refs && PlanIds(groups, ids).builds == builds;
    LegacyIdsPaired(paths, ids, k);
    a :| a < |refs.keys| && refs.keys[a] == k;
    assert builds.keys[a] == k;
    var fid := refs.values[k];
    var bid := builds.values[k];
    assert FileRefLines(refs)[a] == FileRefText(fid, Basename(k));
    assert BuildLines(refs, builds)[a] == "\t\t" + BuildLine(bid, fid, Basename(k));
  }

  /** Step 3 keeps a written line: it has no ')' and starts with a tab. */
  lemma SourcesKeepLine(c: string, add: string, p: nat, t: string)
    requires OccursAt(c, p, t) && |t| > 0 && ')' !in t && t[0] == '\t'
    ensures exists q :: OccursAt(AppendToPhases(c, SourcesPattern, add), q, t)
  {
    var q := PhasesKeep(c, SourcesPattern, add, p, t);
  }
}

=== FILE: pbx_edit.dfy ===
/**
 * The editing half of scripts/sync-xcode-files.py: `add_child_to_group`,
 * `create_group`, `ensure_group_path` and `add_file_to_project`, over the
 * project text.  Object ids come from `generate_uuid`, fed by a stream of
 * random draws `draws(0), draws(1), ...` and a counter of the draws used so far.
 */
module PbxEdit {
  import opened Wrappers
  import opened Text
  import opened HexText
  import opened Uuids
  import opened SourceTree
  import opened PbxScan
  import opened PbxGroups
  import opened Splices

  /** The line `add_child_to_group` writes into a children list. */
  function ChildEntry(id: string, name: string): string {
    "\n\t\t\t\t" + id + " /* " + name + " */,"
  }

  /** The child line without its leading newline and indent. */
  function ChildTok(id: string, name: string): string {
    id + " /* " + name + " */,"
  }

  /**
   * The pattern of `add_child_to_group` for group `gid`, tried at `s`: the id, a
   * comment, `= {`, `isa = PBXGroup;`, `children = (` and a later `)`.  The result
   * is the index just after `children = (`, where the new child goes.
   */
  function ChildListAt(c: string, gid: string, s: nat): (r: Option<nat>)
    ensures r.Some? ==> OccursAt(c, s, gid + " /* ")
    ensures r.Some? ==> 0 < r.value <= |c| && c[r.value - 1] == '(' && FindChar(c, ')', r.value).Some?
  {
    if !OccursAt(c, s, gid + " /* ") then None
    else
      var a := s + |gid| + 4;
      match FindChar(c, '*', a)
      case None => None
      case Some(b) =>
        if !(b >= a + 1 && c[b - 1] == ' ' && OccursAt(c, b, "*/ = {")) then None
        else
          var i1 := SkipSpaces(c, b + 6);
          if !OccursAt(c, i1, "isa = PBXGroup;") then None
          else
            var i2 := SkipSpaces(c, i1 + 15);
            if !OccursAt(c, i2, "children = (") then None
            else if FindChar(c, ')', i2 + 12).None? then None
            else Some(i2 + 12)
  }

  /** The new child goes directly after the `children = (` of the matched group. */
  lemma ChildListHeader(c: string, gid: string, s: nat)
    ensures ChildListAt(c, gid, s).Some? ==>
      s < ChildListAt(c, gid, s).value - 12 && OccursAt(c, ChildListAt(c, gid, s).value - 12, "children = (")
  {
  }

  function ChildListStarts(c: string, gid: string): nat -> bool {
    (s: nat) => ChildListAt(c, gid, s).Some?
  }

  /**
   * `add_child_to_group`: the new child goes first in the children list of the
   * leftmost group the pattern matches; when none matches the text is unchanged.
   */
  function AddChildToGroup(c: string, gid: string, child: string, name: string): (r: string)
    ensures r == c <==> forall s: nat :: ChildListAt(c, gid, s).None?
    ensures r != c ==> exists s: nat :: (ChildListAt(c, gid, s).Some?
      && (forall q: nat :: q < s ==> ChildListAt(c, gid, q).None?)
      && r == Insert(c, ChildListAt(c, gid, s).value, ChildEntry(child, name)))
    ensures SafeEdit(c, r)
  {
    assert forall s: nat :: ChildListStarts(c, gid)(s) == ChildListAt(c, gid, s).Some?;
    match First(ChildListStarts(c, gid), 0, |c|)
    case None =>
      assert forall s: nat :: ChildListAt(c, gid, s).Some? ==> s < |c|;
      c
    case Some(s) =>
      var k := ChildListAt(c, gid, s).value;
      ParenInsertSafe(c, k, ChildEntry(child, name));
      assert |Insert(c, k, ChildEntry(child, name))| > |c|;
      Insert(c, k, ChildEntry(child, name))
  }

  /** The quirk the pattern keeps: a group written without a comment (as the main group often is) never gains children. */
  lemma AddChildNeedsComment(c: string, gid: string, child: string, name: string)
    requires forall s: nat :: !OccursAt(c, s, gid + " /* ")
    ensures AddChildToGroup(c, gid, child, name) == c
  {
  }

  /** Whether a 24-character id run starts at `j`. */
  predicate IdRunAt(s: string, j: nat) {
    j + 24 <= |s| && AllWordChars(s[j..j + 24])
  }

  /** `name` has no run of 24 word characters, so it cannot be mistaken for an id. */
  predicate NoLongWord(name: string) {
    forall j: nat :: j < |name| ==> !IdRunAt(name, j)
  }

  lemma NoRunThrough(s: string, j: nat, q: nat)
    requires j <= q < j + 24 && q < |s| && !IsWordChar(s[q])
    ensures !IdRunAt(s, j)
  {
    if j + 24 <= |s| {
      assert s[j..j + 24][q - j] == s[q];
    }
  }

  /** Positions where no id run starts are skipped by the scan. */
  lemma {:induction false} WordTokensSkip(s: string, from: nat, to: nat)
    requires from <= to
    requires forall j: nat :: from <= j < to ==> !IdRunAt(s, j)
    ensures WordTokens(s, from) == WordTokens(s, to)
    decreases (to as int) - from
  {
    if from < to {
      assert !IdRunAt(s, from);
      WordTokensSkip(s, from + 1, to);
    }
  }

  /** The scan of `a + b` past `a` is the scan of `b`. */
  lemma {:induction false} WordTokensShift(a: string, b: string, k: nat)
    ensures WordTokens(a + b, |a| + k) == WordTokens(b, k)
    decreases |b| - k
  {
    var s := a + b;
    if |a| + k + 24 <= |s| {
      assert s[|a| + k..|a| + k + 24] == b[k..k + 24];
      WordTokensShift(a, b, k + 24);
      WordTokensShift(a, b, k + 1);
    }
  }

  /** A child line contributes exactly its id to the ids of the list it opens. */
  lemma ChildEntryTokens(id: string, name: string, rest: string)
    requires |id| == 24 && AllWordChars(id) && NoLongWord(name)
    ensures WordTokens(ChildEntry(id, name) + rest, 0) == [id] + WordTokens(rest, 0)
  {
    var e := ChildEntry(id, name);
    var s := e + rest;
    assert |e| == 37 + |name|;
    assert s[4] == '\t' && s[32] == ' ' && s[33 + |name|] == ' ' && s[|e| - 1] == ',';
    forall j: nat | j < 5 ensures !IdRunAt(s, j) {
      NoRunThrough(s, j, 4);
    }
    WordTokensSkip(s, 0, 5);
    assert s[5..29] == id;
    forall j: nat | 29 <= j < |e| ensures !IdRunAt(s, j) {
      if j <= 32 {
        NoRunThrough(s, j, 32);
      } else if j + 24 <= 33 + |name| {
        assert s[j..j + 24] == name[j - 33..j - 33 + 24];
        assert !IdRunAt(name, j - 33);
      } else if j <= 33 + |name| {
        NoRunThrough(s, j, 33 + |name|);
      } else {
        NoRunThrough(s, j, |e| - 1);
      }
    }
    WordTokensSkip(s, 29, |e|);
    WordTokensShift(e, rest, 0);
  }

  lemma ChildEntryCloseFree(id: string, name: string)
    requires |id| == 24 && Free(id, ')') && Free(name, ')')
    ensures Free(ChildEntry(id, name), ')')
  {
    var e := ChildEntry(id, name);
    forall i | 0 <= i < |e| ensures e[i] != ')' {
      if 5 <= i < 29 {
        assert e[i] == id[i - 5];
      } else if 33 <= i < 33 + |name| {
        assert e[i] == name[i - 33];
      }
    }
  }

  /** Inserting `)`-free text at `k` moves the first `)` after `k` by its length. */
  lemma InsertBeforeClose(c: string, k: nat, e: string)
    requires k <= |c| && FindChar(c, ')', k).Some? && Free(e, ')')
    ensures var q := FindChar(c, ')', k).value; var r := Insert(c, k, e);
      FindChar(r, ')', k) == Some(q + |e|) && r[k..q + |e|] == e + c[k..q]
  {
    var q := FindChar(c, ')', k).value;
    var r := Insert(c, k, e);
    InsertShifts(c, k, q, e);
    var m := r[k..q + |e|];
    FreeJoin(e, c[k..q], ')');
    assert Free(m, ')');
    FreeSlice(r, k, q + |e|, ')');
    FindCharFirst(r, ')', k, q + |e|);
  }

  lemma FreeJoin(a: string, b: string, x: char)
    requires Free(a, x) && Free(b, x)
    ensures Free(a + b, x)
  {
    forall j | 0 <= j < |a + b| ensures (a + b)[j] != x {
      if j >= |a| {
        assert (a + b)[j] == b[j - |a|];
      }
    }
  }

  lemma FreeSlice(s: string, lo: nat, hi: nat, x: char)
    requires lo <= hi <= |s| && Free(s[lo..hi], x)
    ensures forall j :: lo <= j < hi ==> s[j] != x
  {
    forall j | lo <= j < hi ensures s[j] != x {
      assert s[j] == s[lo..hi][j - lo];
    }
  }

  /** After inserting `e` at `k`, the text from `k` to a later position `q` is `e` then what was there, and `q` moves by `|e|`. */
  lemma InsertShifts(c: string, k: nat, q: nat, e: string)
    requires k <= q < |c|
    ensures Insert(c, k, e)[k..q + |e|] == e + c[k..q] && Insert(c, k, e)[q + |e|] == c[q]
  {
    var r := Insert(c, k, e);
    forall j | k <= j < q + |e| ensures r[j] == (e + c[k..q])[j - k] {
    }
  }

  /** The list text and ids after inserting a child line right after a `(`. */
  lemma ChildLineFirst(c: string, k: nat, child: string, name: string)
    requires 0 < k <= |c| && FindChar(c, ')', k).Some?
    requires |child| == 24 && AllWordChars(child) && NoLongWord(name) && Free(name, ')')
    ensures var r := Insert(c, k, ChildEntry(child, name)); var e := ChildEntry(child, name);
      var q := FindChar(c, ')', k).value;
      && FindChar(r, ')', k) == Some(q + |e|)
      && r[k..q + |e|] == e + c[k..q]
      && WordTokens(r[k..q + |e|], 0) == [child] + WordTokens(c[k..q], 0)
  {
    var e := ChildEntry(child, name);
    var q := FindChar(c, ')', k).value;
    assert Free(child, ')') by {
      forall i | 0 <= i < |child| ensures child[i] != ')' {
        assert IsWordChar(child[i]);
      }
    }
    ChildEntryCloseFree(child, name);
    InsertBeforeClose(c, k, e);
    ChildEntryTokens(child, name, c[k..q]);
  }

  /**
   * After `add_child_to_group` inserts into a list, the list up to its `)` is the
   * new line followed by the old list, and its ids are the child's id followed
   * by the old ones.
   */
  lemma AddChildPrepends(c: string, gid: string, child: string, name: string)
    requires |child| == 24 && AllWordChars(child) && NoLongWord(name) && Free(name, ')')
    requires exists s: nat :: ChildListAt(c, gid, s).Some?
    ensures var r := AddChildToGroup(c, gid, child, name); var e := ChildEntry(child, name);
      exists k: nat, q: nat :: (0 < k <= q < |c| && c[k - 1] == '(' && FindChar(c, ')', k) == Some(q)
        && FindChar(r, ')', k) == Some(q + |e|)
        && r[k..q + |e|] == e + c[k..q]
        && WordTokens(r[k..q + |e|], 0) == [child] + WordTokens(c[k..q], 0))
  {
    var r := AddChildToGroup(c, gid, child, name);
    var e := ChildEntry(child, name);
    var s: nat :| ChildListAt(c, gid, s).Some? && r == Insert(c, ChildListAt(c, gid, s).value, e);
    var k := ChildListAt(c, gid, s).value;
    var q := FindChar(c, ')', k).value;
    ChildLineFirst(c, k, child, name);
    assert 0 < k <= q < |c| && c[k - 1] == '(' && FindChar(c, ')', k) == Some(q);
  }

  /** The `PBXGroup` entry `create_group` writes. */
  function GroupEntry(id: string, name: string): string {
    "\t\t" + id + " /* " + name + " */ = {\n\t\t\tisa = PBXGroup;\n\t\t\tchildren = (\n\t\t\t);\n\t\t\tpath = "
      + name + ";\n\t\t\tsourceTree = \"<group>\";\n\t\t};\n"
  }

  /**
   * `create_group` with the new id `id` already drawn: the group entry goes one
   * character past the group-section marker (when there is one), then the new
   * id joins the parent's children.
   */
  function CreateGroup(c: string, parent: string, name: string, id: string): (r: string)
    ensures KeepsTokens(c, r)
    ensures !Contains(c, GroupMarker) ==> r == AddChildToGroup(c, parent, id, name)
    ensures |r| >= |c| + (if Contains(c, GroupMarker) then |GroupEntry(id, name)| else 0)
  {
    var withEntry := InsertAfterMarker(c, GroupMarker, GroupEntry(id, name));
    MarkerInsertSafe(c, GroupMarker, GroupEntry(id, name));
    SafeEditKeepsAll(c, withEntry);
    var r := AddChildToGroup(withEntry, parent, id, name);
    SafeEditKeepsAll(withEntry, r);
    KeepsTrans(c, withEntry, r);
    r
  }

  /** What `ensure_group_path` returns, with the number of draws used so far. */
  datatype Ensured = Ensured(content: string, leaf: string, next: nat)

  /**
   * The loop of `ensure_group_path` from group `cur`: each part either descends to
   * an existing child group with that path (re-parsing the current text) or
   * creates the group with the next drawn id.
   */
  function EnsureFrom(c: string, cur: string, parts: seq<string>, draws: nat -> nat, next: nat): (r: Ensured)
    decreases |parts|
    ensures next <= r.next <= next + |parts|
    ensures KeepsTokens(c, r.content)
    ensures r.next == next ==> r.content == c && Descend(ParseGroups(c), cur, parts) == Some(r.leaf)
    ensures Descend(ParseGroups(c), cur, parts).Some? ==> r == Ensured(c, Descend(ParseGroups(c), cur, parts).value, next)
  {
    if |parts| == 0 then Ensured(c, cur, next)
    else
      match FindChild(ParseGroups(c), cur, parts[0])
      case Some(child) =>
        EnsureFrom(c, child, parts[1..], draws, next)
      case None =>
        var id := GenerateUuid(draws(next));
        var c1 := CreateGroup(c, cur, parts[0], id);
        var r := EnsureFrom(c1, id, parts[1..], draws, next + 1);
        KeepsTrans(c, c1, r.content);
        r
  }

  /** `ensure_group_path`: a `ValueError` when the text names no main group. */
  function EnsureGroupPath(c: string, parts: seq<string>, draws: nat -> nat, next: nat): (r: Result<Ensured, string>)
    ensures r.Failure? <==> MainGroup(c).None?
    ensures |parts| == 0 && MainGroup(c).Some? ==> r == Success(Ensured(c, MainGroup(c).value, next))
    ensures r.Success? ==> next <= r.value.next <= next + |parts| && KeepsTokens(c, r.value.content)
  {
    match MainGroup(c)
    case None => Failure("Could not find mainGroup")
    case Some(m) => Success(EnsureFrom(c, m, parts, draws, next))
  }

  /**
   * `ensure_group_path` creates nothing exactly when `find_group_by_path` already
   * finds the whole path, and then both name the same group.
   */
  lemma EnsureFindsExisting(c: string, parts: seq<string>, draws: nat -> nat, next: nat, g: string)
    requires |parts| > 0
    ensures FindGroupByPath(c, ParseGroups(c), parts) == Some(g)
      <==> EnsureGroupPath(c, parts, draws, next) == Success(Ensured(c, g, next))
  {
  }

  /** The `PBXFileReference` line: its id, then the text the file-reference scan matches. */
  function FileRefEntry(fid: string, fn: string): string {
    FileRefText(fid, fn) + "\n"
  }

  /** The file-reference line without its newline. */
  function FileRefText(fid: string, fn: string): string {
    "\t\t" + FileRefTok(fid, fn) + FileRefTail(fn)
  }

  function FileRefTail(fn: string): string {
    "; lastKnownFileType = " + "sourcecode.swift; path = " + fn + "; sourceTree = \"<group>\"; };"
  }

  /** The id of a file-reference line followed by the text the scan matches. */
  function FileRefTok(fid: string, fn: string): string {
    fid + " " + RefToken(fn)
  }

  /** The `PBXBuildFile` line, whose `fileRef` is the file-reference id. */
  function BuildFileEntry(bid: string, fid: string, fn: string): string {
    "\t\t" + BuildLine(bid, fid, fn) + "\n"
  }

  function BuildLine(bid: string, fid: string, fn: string): string {
    bid + " " + "/* " + (fn + " in Sources") + " */" + (" = {isa = PBXBuildFile; fileRef = " + fid + " ")
      + "/* " + fn + " */" + "; };"
  }

  /** The line added to the `files` list of the sources build phase. */
  function SourcesEntry(bid: string, fn: string): string {
    "\n\t\t\t\t" + SourcesLine(bid, fn) + ","
  }

  function SourcesLine(bid: string, fn: string): string {
    bid + " " + "/* " + (fn + " in Sources") + " */"
  }

  lemma IdPlain(id: string)
    requires IsId(id)
    ensures Plain(id + " ")
  {
    var t := id + " ";
    forall i | 0 <= i < |t| ensures t[i] != '*' && t[i] != '(' {
      if i < |id| {
        assert t[i] == id[i] && IsUpperHexDigit(id[i]);
      }
    }
  }

  lemma SourcesNamePlain(fn: string)
    requires CommentName(fn)
    ensures CommentName(fn + " in Sources")
  {
    var t := fn + " in Sources";
    forall i | 0 <= i < |t| ensures t[i] != '*' && t[i] != '(' {
      if i < |fn| {
        assert t[i] == fn[i];
      }
    }
  }

  lemma FileRefTokShape(fid: string, fn: string)
    requires IsId(fid) && CommentName(fn)
    ensures TokenShape(FileRefTok(fid, fn))
  {
    IdPlain(fid);
    PlainStrict(fid + " ");
    CommentStrict(fn, " = {isa = PBXFileReference");
    assert RefToken(fn) == "/* " + fn + " */" + " = {isa = PBXFileReference";
    StrictConcat(fid + " ", RefToken(fn));
    StrictToken(FileRefTok(fid, fn));
  }

  lemma BuildLineShape(bid: string, fid: string, fn: string)
    requires IsId(bid) && IsId(fid) && CommentName(fn)
    ensures TokenShape(BuildLine(bid, fid, fn))
  {
    var mid := " = {isa = PBXBuildFile; fileRef = " + fid + " ";
    IdPlain(bid);
    IdPlain(fid);
    assert Plain(mid) by {
      forall i | 0 <= i < |mid| ensures mid[i] != '*' && mid[i] != '(' {
        if 34 <= i < 34 + |fid| {
          assert mid[i] == (fid + " ")[i - 34];
        }
      }
    }
    SourcesNamePlain(fn);
    var a := bid + " ";
    var b := "/* " + (fn + " in Sources") + " */" + mid;
    var d := "/* " + fn + " */" + "; };";
    PlainStrict(a);
    CommentStrict(fn + " in Sources", mid);
    CommentStrict(fn, "; };");
    StrictConcat(a, b);
    StrictConcat(a + b, d);
    assert BuildLine(bid, fid, fn) == a + b + d;
    StrictToken(a + b + d);
  }

  lemma SourcesLineShape(bid: string, fn: string)
    requires IsId(bid) && CommentName(fn)
    ensures TokenShape(SourcesLine(bid, fn))
  {
    IdPlain(bid);
    SourcesNamePlain(fn);
    PlainStrict(bid + " ");
    CommentStrict(fn + " in Sources", "");
    StrictConcat(bid + " ", "/* " + (fn + " in Sources") + " */" + "");
    assert SourcesLine(bid, fn) == bid + " " + ("/* " + (fn + " in Sources") + " */" + "");
    StrictToken(SourcesLine(bid, fn));
  }

  /** `files = \(([^)]*)\)` at `f`, wholly before `z`. */
  predicate FilesListAt(c: string, z: nat, f: nat) {
    f + 9 <= z && OccursAt(c, f, "files = (") && FindChar(c, ')', f + 9).Some?
  }

  function FilesListStarts(c: string, z: nat): nat -> bool {
    (f: nat) => FilesListAt(c, z, f)
  }

  /**
   * The sources pattern of `add_file_to_project` tried at `s`: `Sources` comment,
   * `= {`, `isa = PBXSourcesBuildPhase;`, then (the greedy `[^}]*`) the last
   * `files = (` before the next `}` that has a `)` after it.  The result is the
   * index just after that `(`.
   */
  function SourcesListAt(c: string, s: nat): (r: Option<nat>)
    ensures r.Some? ==> OccursAt(c, s, "/* Sources */ = {")
    ensures r.Some? ==> 0 < r.value <= |c| && c[r.value - 1] == '(' && FindChar(c, ')', r.value).Some?
  {
    if !OccursAt(c, s, "/* Sources */ = {") then None
    else
      var i1 := SkipSpaces(c, s + 17);
      if !OccursAt(c, i1, "isa = PBXSourcesBuildPhase;") then None
      else
        var lo := i1 + 27;
        var z := match FindChar(c, '}', lo) case Some(z) => z case None => |c|;
        assert forall f: nat :: FilesListStarts(c, z)(f) == FilesListAt(c, z, f);
        match Last(FilesListStarts(c, z), lo, z)
        case None => None
        case Some(f) => Some(f + 9)
  }

  /** The new Sources line goes directly after the `files = (` the pattern settles on. */
  lemma SourcesListHeader(c: string, s: nat)
    ensures SourcesListAt(c, s).Some? ==>
      s < SourcesListAt(c, s).value - 9 && OccursAt(c, SourcesListAt(c, s).value - 9, "files = (")
  {
  }

  function SourcesListStarts(c: string): nat -> bool {
    (s: nat) => SourcesListAt(c, s).Some?
  }

  /** Step 5 of `add_file_to_project`: the first sources phase gains the entry first in its list. */
  function AddToSources(c: string, bid: string, fn: string): (r: string)
    ensures r == c <==> forall s: nat :: SourcesListAt(c, s).None?
    ensures r != c ==> exists s: nat :: (SourcesListAt(c, s).Some?
      && (forall q: nat :: q < s ==> SourcesListAt(c, q).None?)
      && r == Insert(c, SourcesListAt(c, s).value, SourcesEntry(bid, fn)))
    ensures SafeEdit(c, r)
  {
    assert forall s: nat :: SourcesListStarts(c)(s) == SourcesListAt(c, s).Some?;
    match First(SourcesListStarts(c), 0, |c|)
    case None =>
      assert forall s: nat :: SourcesListAt(c, s).Some? ==> s < |c|;
      c
    case Some(s) =>
      var k := SourcesListAt(c, s).value;
      ParenInsertSafe(c, k, SourcesEntry(bid, fn));
      assert |Insert(c, k, SourcesEntry(bid, fn))| > |c|;
      Insert(c, k, SourcesEntry(bid, fn))
  }

  /** What `add_file_to_project` returns, with the number of draws used so far. */
  datatype Added = Added(content: string, next: nat)

  /** The parent group of a new file: its ensured directory group, or the main group for a file at the root. */
  function PlaceParent(c: string, dirs: seq<string>, draws: nat -> nat, next: nat): (r: Result<Ensured, string>)
    ensures r.Failure? <==> |dirs| > 0 && MainGroup(c).None?
    ensures r.Success? ==> next <= r.value.next <= next + |dirs| && KeepsTokens(c, r.value.content)
    ensures |dirs| > 0 && FindGroupByPath(c, ParseGroups(c), dirs).Some?
      ==> r == Success(Ensured(c, FindGroupByPath(c, ParseGroups(c), dirs).value, next))
  {
    if |dirs| > 0 then
      var found := FindGroupByPath(c, ParseGroups(c), dirs);
      // Both arms compute the same value; the split only brings EnsureFindsExisting into scope.
      if found.Some? then EnsureFindsExisting(c, dirs, draws, next, found.value); EnsureGroupPath(c, dirs, draws, next)
      else EnsureGroupPath(c, dirs, draws, next)
    else Success(Ensured(c, "", next))
  }

  /** Step 1 of writing a file: the file-reference line after its section marker. */
  function RefStep(c: string, fid: string, fn: string): string {
    InsertAfterMarker(c, FileRefMarker, FileRefEntry(fid, fn))
  }

  /** Step 2: the file joins the parent group's children, when there is a parent. */
  function ChildStep(c: string, parent: Option<string>, fid: string, fn: string): string {
    var c2 := RefStep(c, fid, fn);
    if parent.Some? then AddChildToGroup(c2, parent.value, fid, fn) else c2
  }

  /** Step 3: the build-file line after its section marker. */
  function BuildStep(c: string, parent: Option<string>, fid: string, bid: string, fn: string): string {
    InsertAfterMarker(ChildStep(c, parent, fid, fn), BuildFileMarker, BuildFileEntry(bid, fid, fn))
  }

  /**
   * The four entries of `add_file_to_project` once the parent group is placed:
   * the file reference after its marker, the child in the parent's list, the
   * build file after its marker, and the build file in the Sources phase.  The
   * child line and the Sources line stay in the final text whenever their step
   * found its list.
   */
  function WriteEntries(c: string, parent: Option<string>, fid: string, bid: string, fn: string): (r: string)
    requires IsId(fid) && IsId(bid)
    ensures KeepsTokens(c, r)
    ensures Kept(c, FileRefMarker) && CommentName(fn) ==> Kept(r, FileRefTok(fid, fn))
    ensures Kept(c, BuildFileMarker) && CommentName(fn) ==> Kept(r, BuildLine(bid, fid, fn))
    ensures CommentName(fn) && ChildStep(c, parent, fid, fn) != RefStep(c, fid, fn) ==> Kept(r, ChildTok(fid, fn))
    ensures CommentName(fn) && r != BuildStep(c, parent, fid, bid, fn) ==> Kept(r, SourcesLine(bid, fn))
  {
    var c2 := RefStep(c, fid, fn);
    var c3 := ChildStep(c, parent, fid, fn);
    var c4 := BuildStep(c, parent, fid, bid, fn);
    var c5 := AddToSources(c4, bid, fn);
    MarkerInsertSafe(c, FileRefMarker, FileRefEntry(fid, fn));
    SafeEditKeepsAll(c, c2);
    SafeEditKeepsAll(c2, c3);
    MarkerInsertSafe(c3, BuildFileMarker, BuildFileEntry(bid, fid, fn));
    SafeEditKeepsAll(c3, c4);
    SafeEditKeepsAll(c4, c5);
    KeepsTrans(c, c2, c3);
    KeepsTrans(c, c3, c4);
    KeepsTrans(c, c4, c5);
    KeepsTrans(c3, c4, c5);
    FileRefMarkerShape();
    BuildFileMarkerShape();
    FileRefWritten(c, fid, fn);
    BuildFileWritten(c3, bid, fid, fn);
    EntryShapes(bid, fid, fn);
    ChildStepWritten(c, parent, fid, fn);
    SourcesWritten(c4, bid, fn);
    c5
  }

  /**
   * `add_file_to_project` for the file at project-relative path `p`: two ids are
   * drawn (file reference, then build file), the parent group is ensured, and the
   * four entries are written in the order of the script.
   */
  function AddFile(c: string, p: Path, draws: nat -> nat, next: nat): (r: Result<Added, string>)
    requires |p| > 0
    ensures r.Failure? <==> |p| > 1 && MainGroup(c).None?
    ensures r.Success? ==> next + 2 <= r.value.next <= next + 1 + |p|
    ensures r.Success? ==> KeepsTokens(c, r.value.content)
    ensures r.Success? && Kept(c, FileRefMarker) && CommentName(Leaf(p))
      ==> Kept(r.value.content, FileRefTok(GenerateUuid(draws(next)), Leaf(p)))
    ensures r.Success? && Kept(c, BuildFileMarker) && CommentName(Leaf(p))
      ==> Kept(r.value.content, BuildLine(GenerateUuid(draws(next + 1)), GenerateUuid(draws(next)), Leaf(p)))
  {
    var fn := Leaf(p);
    var dirs := p[..|p| - 1];
    var fid := GenerateUuid(draws(next));
    var bid := GenerateUuid(draws(next + 1));
    var placed :- PlaceParent(c, dirs, draws, next + 2);
    var parent := if |dirs| > 0 then Some(placed.leaf) else MainGroup(c);
    var c1 := placed.content;
    var c5 := WriteEntries(c1, parent, fid, bid, fn);
    KeepsTrans(c, c1, c5);
    FileRefMarkerShape();
    BuildFileMarkerShape();
    Success(Added(c5, placed.next))
  }

  /** With the file-reference marker present, the new line is in the text afterwards. */
  lemma FileRefWritten(c: string, fid: string, fn: string)
    ensures Kept(c, FileRefMarker) ==> Kept(InsertAfterMarker(c, FileRefMarker, FileRefEntry(fid, fn)), FileRefTok(fid, fn))
  {
    if Kept(c, FileRefMarker) {
      KeptFound(c, FileRefMarker);
      var pos := Find(c, FileRefMarker).value + |FileRefMarker| + 1;
      var post := FileRefTail(fn) + "\n";
      assert FileRefEntry(fid, fn) == "\t\t" + FileRefTok(fid, fn) + post;
      InsertedKept(c, pos, "\t\t", FileRefTok(fid, fn), post);
    }
  }

  /** With the build-file marker present, the new line is in the text afterwards. */
  lemma BuildFileWritten(c: string, bid: string, fid: string, fn: string)
    ensures Kept(c, BuildFileMarker)
      ==> Kept(InsertAfterMarker(c, BuildFileMarker, BuildFileEntry(bid, fid, fn)), BuildLine(bid, fid, fn))
  {
    if Kept(c, BuildFileMarker) {
      KeptFound(c, BuildFileMarker);
      var pos := Find(c, BuildFileMarker).value + |BuildFileMarker| + 1;
      var e := BuildFileEntry(bid, fid, fn);
      assert InsertAfterMarker(c, BuildFileMarker, e) == SliceInsert(c, pos, e);
      InsertedKept(c, pos, "\t\t", BuildLine(bid, fid, fn), "\n");
    }
  }

  /** When `add_child_to_group` changes the text, the new child line is in it. */
  lemma ChildWritten(c: string, gid: string, child: string, name: string)
    ensures AddChildToGroup(c, gid, child, name) != c ==> Kept(AddChildToGroup(c, gid, child, name), ChildTok(child, name))
  {
    var r := AddChildToGroup(c, gid, child, name);
    if r != c {
      var s: nat :| ChildListAt(c, gid, s).Some? && r == Insert(c, ChildListAt(c, gid, s).value, ChildEntry(child, name));
      var k := ChildListAt(c, gid, s).value;
      ChildEntryTok(child, name);
      InsertedKept(c, k, "\n\t\t\t\t", ChildTok(child, name), "");
      assert SliceInsert(c, k, ChildEntry(child, name)) == r;
    }
  }

  lemma ChildEntryTok(id: string, name: string)
    ensures ChildEntry(id, name) == "\n\t\t\t\t" + ChildTok(id, name) + ""
  {
  }

  /** When step 2 changes the text, the new child line is in it. */
  lemma ChildStepWritten(c: string, parent: Option<string>, fid: string, fn: string)
    ensures ChildStep(c, parent, fid, fn) != RefStep(c, fid, fn) ==> Kept(ChildStep(c, parent, fid, fn), ChildTok(fid, fn))
  {
    if parent.Some? {
      ChildWritten(RefStep(c, fid, fn), parent.value, fid, fn);
    }
  }

  /** When step 5 changes the text, the new Sources line is in it. */
  lemma SourcesWritten(c: string, bid: string, fn: string)
    ensures AddToSources(c, bid, fn) != c ==> Kept(AddToSources(c, bid, fn), SourcesLine(bid, fn))
  {
    var r := AddToSources(c, bid, fn);
    if r != c {
      var s: nat :| SourcesListAt(c, s).Some? && r == Insert(c, SourcesListAt(c, s).value, SourcesEntry(bid, fn));
      var k := SourcesListAt(c, s).value;
      InsertedKept(c, k, "\n\t\t\t\t", SourcesLine(bid, fn), ",");
    }
  }

  lemma ChildTokShape(id: string, name: string)
    requires IsId(id) && CommentName(name)
    ensures TokenShape(ChildTok(id, name))
  {
    IdPlain(id);
    PlainStrict(id + " ");
    CommentStrict(name, ",");
    StrictConcat(id + " ", "/* " + name + " */" + ",");
    assert ChildTok(id, name) == id + " " + ("/* " + name + " */" + ",");
    StrictToken(ChildTok(id, name));
  }

  lemma EntryShapes(bid: string, fid: string, fn: string)
    requires IsId(bid) && IsId(fid)
    ensures CommentName(fn) ==> TokenShape(FileRefTok(fid, fn)) && TokenShape(BuildLine(bid, fid, fn))
    ensures CommentName(fn) ==> TokenShape(ChildTok(fid, fn)) && TokenShape(SourcesLine(bid, fn))
  {
    if CommentName(fn) {
      FileRefTokShape(fid, fn);
      BuildLineShape(bid, fid, fn);
      ChildTokShape(fid, fn);
      SourcesLineShape(bid, fn);
    }
  }
}

=== FILE: pbx_groups.dfy ===
/**
 * `parse_groups` and `find_group_by_path` of scripts/sync-xcode-files.py: every
 * `PBXGroup` header, its brace-delimited block, the 24-character child ids inside
 * `children = (...)`, and the `path` (defaulting to the comment name).
 */
module PbxGroups {
  import opened Wrappers
  import opened Text
  import opened PbxScan

  datatype Group = Group(name: string, path: string, children: seq<string>)

  /** A matched group header: the id, the stripped comment name, and where the match ends. */
  datatype Header = Header(id: string, name: string, end: nat)

  /** Where a greedy `\s*` that starts at `i` stops. */
  function SkipSpaces(c: string, i: nat): (j: nat)
    requires i <= |c|
    decreases |c| - i
    ensures i <= j <= |c|
    ensures forall k :: i <= k < j ==> IsSpace(c[k])
    ensures j < |c| ==> !IsSpace(c[j])
  {
    if i == |c| || !IsSpace(c[i]) then i else SkipSpaces(c, i + 1)
  }

  /** `\s*=\s*\{\s*isa = PBXGroup;` matched from `i`: where the match ends. */
  function GroupTail(c: string, i: nat): (r: Option<nat>)
    requires i <= |c|
    ensures r.Some? ==> i + 16 < r.value <= |c| && c[r.value - 15..r.value] == "isa = PBXGroup;"
  {
    var k1 := SkipSpaces(c, i);
    if !OccursAt(c, k1, "=") then None
    else
      var k2 := SkipSpaces(c, k1 + 1);
      if !OccursAt(c, k2, "{") then None
      else
        var k3 := SkipSpaces(c, k2 + 1);
        if !OccursAt(c, k3, "isa = PBXGroup;") then None else Some(k3 + 15)
  }

  /**
   * The group-header pattern of `parse_groups` tried at `s`: 24 word characters,
   * optionally a comment, then `= {` and `isa = PBXGroup;` with any spacing.  The optional comment is taken exactly when the first
   * non-space character after the id opens one, and its text runs to the first
   * star; when what follows the comment does not match, dropping the comment
   * cannot help either, since the character after the spaces is then a slash.
   */
  function HeaderAt(c: string, s: nat): (r: Option<Header>)
    ensures r.Some? ==> s + 24 <= |c| && r.value.id == c[s..s + 24] && AllWordChars(r.value.id)
    ensures r.Some? ==> s + 40 < r.value.end <= |c|
    ensures r.Some? ==> c[r.value.end - 15..r.value.end] == "isa = PBXGroup;"
    ensures r.Some? ==> |r.value.name| == 0 || (!IsSpace(r.value.name[0]) && !IsSpace(r.value.name[|r.value.name| - 1]))
  {
    if s + 24 > |c| || !AllWordChars(c[s..s + 24]) then None
    else
      var k := SkipSpaces(c, s + 24);
      if OccursAt(c, k, "/*") then
        var a := SkipSpaces(c, k + 2);
        match FindChar(c, '*', a)
        case None => None
        case Some(b) =>
          if !OccursAt(c, b, "*/") then None
          else
            match GroupTail(c, b + 2)
            case None => None
            case Some(e) => Some(Header(c[s..s + 24], Strip(c[a..b]), e))
      else
        match GroupTail(c, s + 24)
        case None => None
        case Some(e) => Some(Header(c[s..s + 24], "", e))
  }

  /** `+1` for `{`, `-1` for `}`. */
  function BraceDelta(ch: char): int {
    if ch == '{' then 1 else if ch == '}' then -1 else 0
  }

  /** The brace count after reading `t`. */
  function Depth(t: string): int {
    if |t| == 0 then 0 else Depth(t[..|t| - 1]) + BraceDelta(t[|t| - 1])
  }

  /** A `}` at `i - 1` that brings the count started at `s` back to zero. */
  predicate ClosesAt(c: string, s: nat, i: nat)
    requires s < i <= |c|
  {
    c[i - 1] == '}' && Depth(c[s..i]) == 0
  }

  /** The brace-counting loop of `parse_groups`, from `i` with count `d`. */
  function BlockEndFrom(c: string, i: nat, d: int): Option<nat>
    decreases |c| - i
  {
    if i >= |c| then None
    else if c[i] == '{' then BlockEndFrom(c, i + 1, d + 1)
    else if c[i] == '}' then (if d - 1 == 0 then Some(i + 1) else BlockEndFrom(c, i + 1, d - 1))
    else BlockEndFrom(c, i + 1, d)
  }

  lemma DepthStep(c: string, s: nat, i: nat)
    requires s <= i < |c|
    ensures Depth(c[s..i + 1]) == Depth(c[s..i]) + BraceDelta(c[i])
  {
    assert c[s..i + 1][..i - s] == c[s..i];
  }

  lemma {:induction false} BlockEndFromSpec(c: string, s: nat, i: nat, d: int)
    requires s <= i <= |c| && d == Depth(c[s..i])
    requires forall j :: s < j <= i ==> !ClosesAt(c, s, j)
    ensures var r := BlockEndFrom(c, i, d);
      && (r.Some? ==> (i < r.value <= |c| && ClosesAt(c, s, r.value)
            && forall j :: s < j < r.value ==> !ClosesAt(c, s, j)))
      && (r.None? ==> forall j :: s < j <= |c| ==> !ClosesAt(c, s, j))
    decreases |c| - i
  {
    if i < |c| {
      DepthStep(c, s, i);
      if c[i] == '}' && d - 1 == 0 {
      } else {
        BlockEndFromSpec(c, s, i + 1, d + BraceDelta(c[i]));
      }
    }
  }

  /**
   * The end of the block that starts at `s`: one past the first `}` that brings the
   * brace count (starting at 0) back to 0, if there is one.
   */
  function BlockEnd(c: string, s: nat): (r: Option<nat>)
    requires s <= |c|
    ensures r.Some? ==> s < r.value <= |c| && ClosesAt(c, s, r.value)
    ensures r.Some? ==> forall j :: s < j < r.value ==> !ClosesAt(c, s, j)
    ensures r.None? ==> forall j :: s < j <= |c| ==> !ClosesAt(c, s, j)
  {
    BlockEndFromSpec(c, s, s, 0);
    BlockEndFrom(c, s, 0)
  }

  /** `content[block_start:block_end]`, empty when the braces never balance. */
  function Block(c: string, s: nat): string
    requires s <= |c|
  {
    match BlockEnd(c, s)
    case None => ""
    case Some(e) => c[s..e]
  }

  /** `re.findall(r'(\w{24})', s[from:])`: runs of 24 word characters, left to right. */
  function WordTokens(s: string, from: nat): (r: seq<string>)
    decreases |s| - from
    ensures forall i :: 0 <= i < |r| ==> |r[i]| == 24 && AllWordChars(r[i])
  {
    if from + 24 > |s| then []
    else if AllWordChars(s[from..from + 24]) then [s[from..from + 24]] + WordTokens(s, from + 24)
    else WordTokens(s, from + 1)
  }

  /** `children = \(([^)]*)\)` matches at `p`. */
  predicate ChildrenAt(b: string, p: nat) {
    OccursAt(b, p, "children = (") && FindChar(b, ')', p + 12).Some?
  }

  /** The children ids of a block: the 24-character runs of the first children list. */
  function ChildrenOf(b: string): (r: seq<string>)
    ensures forall i :: 0 <= i < |r| ==> |r[i]| == 24 && AllWordChars(r[i])
    ensures (forall p: nat :: !ChildrenAt(b, p)) ==> r == []
  {
    var at := (p: nat) => ChildrenAt(b, p);
    assert forall p: nat :: at(p) == ChildrenAt(b, p);
    match First(at, 0, |b|)
    case None =>
      []
    case Some(p) =>
      var q := FindChar(b, ')', p + 12).value;
      WordTokens(b[p + 12..q], 0)
  }

  /** `path = ([^;]+);` matches at `p`: at least one character before the next `;`. */
  predicate PathAt(b: string, p: nat) {
    OccursAt(b, p, "path = ") && FindChar(b, ';', p + 7).Some? && FindChar(b, ';', p + 7).value > p + 7
  }

  /** The `path` of a block, `.strip().strip('"')`, or `name` when the block has none. */
  function PathOf(b: string, name: string): (r: string)
    ensures (forall p: nat :: !PathAt(b, p)) ==> r == name
    ensures (exists p: nat :: PathAt(b, p)) ==> |r| == 0 || (r[0] != '"' && r[|r| - 1] != '"')
  {
    var at := (p: nat) => PathAt(b, p);
    match First(at, 0, |b|)
    case None =>
      assert forall p: nat :: p < |b| ==> !at(p) && at(p) == PathAt(b, p);
      NoPathAt(b);
      name
    case Some(p) =>
      assert at(p) == PathAt(b, p);
      var q := FindChar(b, ';', p + 7).value;
      StripChar(Strip(b[p + 7..q]), '"')
  }

  /** A block without a `path = ` entry inside it has none at all. */
  lemma NoPathAt(b: string)
    requires forall p: nat :: p < |b| ==> !PathAt(b, p)
    ensures forall p: nat :: !PathAt(b, p)
  {
  }

  /**
   * With a `path = ` entry, the path is the text after the first such entry up to
   * the `;` that ends it, stripped of whitespace and then of quotes.
   */
  lemma PathOfExplicit(b: string, name: string, p: nat)
    requires PathAt(b, p) && forall j: nat :: j < p ==> !PathAt(b, j)
    ensures PathOf(b, name) == StripChar(Strip(b[p + 7..FindChar(b, ';', p + 7).value]), '"')
  {
    var at := (p: nat) => PathAt(b, p);
    assert forall j: nat :: at(j) == PathAt(b, j);
    assert First(at, 0, |b|) == Some(p);
  }

  /** The group `parse_groups` records for the header at `s`. */
  function GroupAt(c: string, s: nat): Group
    requires HeaderAt(c, s).Some?
  {
    var h := HeaderAt(c, s).value;
    var b := Block(c, s);
    Group(h.name, PathOf(b, h.name), ChildrenOf(b))
  }

  /** The positions where the group-header pattern matches. */
  function HeaderStarts(c: string): nat -> bool {
    (s: nat) => HeaderAt(c, s).Some?
  }

  /** The header-pattern search of `re.finditer`, resumed at `from`, recording into `acc`. */
  function ParseFrom(c: string, from: nat, acc: map<string, Group>): map<string, Group>
    decreases |c| - from
  {
    match First(HeaderStarts(c), from, |c|)
    case None => acc
    case Some(s) =>
      var h := HeaderAt(c, s).value;
      ParseFrom(c, h.end, acc[h.id := GroupAt(c, s)])
  }

  /** `g` is the group parsed from some header for `id`. */
  ghost predicate Recorded(c: string, id: string, g: Group) {
    exists s: nat :: HeaderFor(c, s, id) && g == GroupAt(c, s)
  }

  /** Each entry the scan adds is the group of a header for its id. */
  lemma {:induction false} ParseFromSound(c: string, from: nat, acc: map<string, Group>)
    requires forall id :: id in acc ==> Recorded(c, id, acc[id])
    ensures var r := ParseFrom(c, from, acc); forall id :: id in r ==> Recorded(c, id, r[id])
    decreases |c| - from
  {
    match First(HeaderStarts(c), from, |c|)
    case None =>
    case Some(s) =>
      var h := HeaderAt(c, s).value;
      var acc' := acc[h.id := GroupAt(c, s)];
      RecordOne(c, s, acc);
      ParseFromSound(c, h.end, acc');
      ParseFromStep(c, from, acc);
  }

  lemma ParseFromStep(c: string, from: nat, acc: map<string, Group>)
    requires First(HeaderStarts(c), from, |c|).Some?
    ensures var s := First(HeaderStarts(c), from, |c|).value; var h := HeaderAt(c, s).value;
      ParseFrom(c, from, acc) == ParseFrom(c, h.end, acc[h.id := GroupAt(c, s)])
  {
  }

  lemma RecordOne(c: string, s: nat, acc: map<string, Group>)
    requires HeaderAt(c, s).Some?
    requires forall id :: id in acc ==> Recorded(c, id, acc[id])
    ensures var h := HeaderAt(c, s).value; var acc' := acc[h.id := GroupAt(c, s)];
      forall id :: id in acc' ==> Recorded(c, id, acc'[id])
  {
    var h := HeaderAt(c, s).value;
    assert HeaderFor(c, s, h.id);
  }

  /** A header for `id` starts at `s`. */
  predicate HeaderFor(c: string, s: nat, id: string) {
    HeaderAt(c, s).Some? && HeaderAt(c, s).value.id == id
  }

  /**
   * `parse_groups(content)`: every recorded id has a header in the text, and its
   * entry is the group parsed from such a header (a later header for the same id
   * overwrites an earlier one).
   */
  function ParseGroups(c: string): (r: map<string, Group>)
    ensures forall id :: id in r ==> |id| == 24 && AllWordChars(id)
  {
    ParsedIds(c);
    ParseFrom(c, 0, map[])
  }

  /** Every id the scan from the start records is 24 word characters. */
  lemma ParsedIds(c: string)
    ensures forall id :: id in ParseFrom(c, 0, map[]) ==> |id| == 24 && AllWordChars(id)
  {
    ParseFromStartSound(c, 0);
    forall id | id in ParseFrom(c, 0, map[]) ensures |id| == 24 && AllWordChars(id) {
      RecordedId(c, id, ParseFrom(c, 0, map[])[id]);
    }
  }

  /**
   * Every id `parse_groups` records has a header in the text, and its entry is the
   * group parsed from such a header (a later header for the same id overwrites an
   * earlier one).
   */
  lemma ParseGroupsSound(c: string)
    ensures forall id :: id in ParseGroups(c) ==> Recorded(c, id, ParseGroups(c)[id])
  {
    ParseFromStartSound(c, 0);
  }

  lemma ParseFromStartSound(c: string, from: nat)
    ensures forall id :: id in ParseFrom(c, from, map[]) ==> Recorded(c, id, ParseFrom(c, from, map[])[id])
  {
    ParseFromSound(c, from, map[]);
  }

  lemma RecordedId(c: string, id: string, g: Group)
    requires Recorded(c, id, g)
    ensures |id| == 24 && AllWordChars(id)
  {
    var s: nat :| HeaderFor(c, s, id) && g == GroupAt(c, s);
  }

  /** `child_id in groups and groups[child_id]['path'] == part`. */
  predicate Matches(groups: map<string, Group>, part: string, k: string) {
    k in groups && groups[k].path == part
  }

  /** The first of `kids` that is a known group with path `part`. */
  function FirstChildWithPath(groups: map<string, Group>, kids: seq<string>, part: string): (r: Option<string>)
    ensures r.Some? ==> exists i :: (0 <= i < |kids| && kids[i] == r.value && Matches(groups, part, kids[i])
      && forall j :: 0 <= j < i ==> !Matches(groups, part, kids[j]))
    ensures r.None? <==> forall k :: k in kids ==> !Matches(groups, part, k)
  {
    var at := (i: nat) => i < |kids| && Matches(groups, part, kids[i]);
    assert forall i: nat :: at(i) == (i < |kids| && Matches(groups, part, kids[i]));
    match First(at, 0, |kids|)
    case None => None
    case Some(i) => Some(kids[i])
  }

  /** The loop body of `find_group_by_path` and `ensure_group_path`: look for `part` under `cur`. */
  function FindChild(groups: map<string, Group>, cur: string, part: string): (r: Option<string>)
    ensures r.Some? ==> (cur in groups && r.value in groups[cur].children && r.value in groups
      && groups[r.value].path == part)
    ensures r.None? <==> cur !in groups || forall k :: k in groups[cur].children ==> !(k in groups && groups[k].path == part)
  {
    if cur in groups then FirstChildWithPath(groups, groups[cur].children, part) else None
  }

  /** Following `parts` down from `cur`, one `FindChild` at a time. */
  function Descend(groups: map<string, Group>, cur: string, parts: seq<string>): Option<string>
    decreases |parts|
  {
    if |parts| == 0 then Some(cur)
    else
      match FindChild(groups, cur, parts[0])
      case None => None
      case Some(child) => Descend(groups, child, parts[1..])
  }

  /** `find_group_by_path(content, groups, path_parts)`. */
  function FindGroupByPath(c: string, groups: map<string, Group>, parts: seq<string>): (r: Option<string>)
    ensures |parts| == 0 ==> r.None?
    ensures MainGroup(c).None? ==> r.None?
  {
    if |parts| == 0 then None
    else
      match MainGroup(c)
      case None => None
      case Some(m) => Descend(groups, m, parts)
  }

  /** The reference: a chain of known groups from `cur` whose paths spell out `parts`, ending at `x`. */
  ghost predicate Chain(groups: map<string, Group>, cur: string, parts: seq<string>, x: string)
    decreases |parts|
  {
    if |parts| == 0 then x == cur
    else exists k :: (cur in groups && k in groups[cur].children && k in groups && groups[k].path == parts[0]
      && Chain(groups, k, parts[1..], x))
  }

  /** In every group, no two known children share a path. */
  ghost predicate PathsUnique(groups: map<string, Group>) {
    forall g, i, j :: g in groups && 0 <= i < j < |groups[g].children|
      && groups[g].children[i] in groups && groups[g].children[j] in groups
      ==> groups[groups[g].children[i]].path != groups[groups[g].children[j]].path
  }

  /** What the descent finds is reached along a chain of groups with the given paths. */
  lemma {:induction false} DescendChain(groups: map<string, Group>, cur: string, parts: seq<string>)
    requires Descend(groups, cur, parts).Some?
    ensures Chain(groups, cur, parts, Descend(groups, cur, parts).value)
    decreases |parts|
  {
    if |parts| > 0 {
      var child := FindChild(groups, cur, parts[0]).value;
      DescendChain(groups, child, parts[1..]);
    }
  }

  /** When paths are unique among siblings, the descent finds every chain's end. */
  lemma {:induction false} ChainDescend(groups: map<string, Group>, cur: string, parts: seq<string>, x: string)
    requires PathsUnique(groups) && Chain(groups, cur, parts, x)
    ensures Descend(groups, cur, parts) == Some(x)
    decreases |parts|
  {
    if |parts| > 0 {
      var k :| cur in groups && k in groups[cur].children && k in groups && groups[k].path == parts[0]
        && Chain(groups, k, parts[1..], x);
      var found := FindChild(groups, cur, parts[0]).value;
      var kids := groups[cur].children;
      var i :| 0 <= i < |kids| && kids[i] == k;
      var j :| 0 <= j < |kids| && kids[j] == found
        && forall m :: 0 <= m < j ==> !Matches(groups, parts[0], kids[m]);
      ChainDescend(groups, k, parts[1..], x);
    }
  }
}

=== FILE: pbx_scan.dfy ===
/**
 * The scans of scripts/sync-xcode-files.py that read a `project.pbxproj` text:
 * the `PBXFileReference` names (`get_files_in_project`), the `mainGroup` id, the
 * section markers, and which source files are missing.
 */
module PbxScan {
  import opened Wrappers
  import opened Text
  import opened SourceTree

  const SwiftExt := ".swift"
  const RefSuffix := " */ = {isa = PBXFileReference"
  const MainGroupKey := "mainGroup = "

  /** A name the group `([^*]+\.swift)` accepts: star-free, `.swift` after at least one character. */
  predicate IsRefName(x: string) { |x| > |SwiftExt| && Free(x, '*') && EndsWith(x, SwiftExt) }

  /** The text the file-reference pattern matches when its group is `x`. */
  function RefToken(x: string): string { "/* " + x + RefSuffix }

  /** The file-reference pattern matches at `p` with group `x`. */
  predicate FileRefAt(c: string, p: int, x: string) { IsRefName(x) && OccursAt(c, p, RefToken(x)) }

  /** The characters of a file-reference token, position by position. */
  lemma RefTokenChars(x: string)
    ensures var t := RefToken(x);
      && |t| == |x| + 32
      && t[0] == '/' && t[1] == '*' && t[2] == ' '
      && (forall i :: 0 <= i < |x| ==> t[3 + i] == x[i])
      && t[3 + |x|] == ' ' && t[4 + |x|] == '*' && t[5 + |x|] == '/'
      && (forall j :: 6 + |x| <= j < |t| ==> t[j] != '/' && t[j] != '*' && t[j] != '(')
      && t[|t| - 1] == 'e'
  {
    var t := RefToken(x);
    assert t == "/* " + x + RefSuffix;
    forall j | 6 + |x| <= j < |t| ensures t[j] != '/' && t[j] != '*' && t[j] != '(' {
      assert t[j] == RefSuffix[j - 3 - |x|];
    }
  }

  /** Matching the file-reference pattern at `p` (the group, if it matches). */
  function RefNameAt(c: string, p: nat): Option<string> {
    if !OccursAt(c, p, "/* ") then None
    else
      match FindChar(c, '*', p + 3)
      case None => None
      case Some(b) =>
        if b >= p + 4 && OccursAt(c, b - 1, RefSuffix) && IsRefName(c[p + 3..b - 1])
        then Some(c[p + 3..b - 1]) else None
  }

  /** The computed match is the pattern's: the group `x` exactly when the pattern matches at `p` with it. */
  lemma RefNameAtSpec(c: string, p: nat)
    ensures forall x :: RefNameAt(c, p) == Some(x) <==> FileRefAt(c, p, x)
  {
    RefNameAtCorrect(c, p);
  }

  /** The computed match and the pattern agree. */
  lemma RefNameAtCorrect(c: string, p: nat)
    ensures forall x :: FileRefAt(c, p, x) <==> RefMatchedBy(c, p, x)
  {
    forall x | FileRefAt(c, p, x) ensures RefMatchedBy(c, p, x) {
      RefMatchForward(c, p, x);
    }
    forall x | RefMatchedBy(c, p, x) ensures FileRefAt(c, p, x) {
      RefMatchBackward(c, p, x);
    }
  }

  /** What `RefNameAt` checks, spelled out. */
  predicate RefMatchedBy(c: string, p: nat, x: string) {
    && OccursAt(c, p, "/* ")
    && FindChar(c, '*', p + 3).Some?
    && var b := FindChar(c, '*', p + 3).value;
    && b >= p + 4 && OccursAt(c, b - 1, RefSuffix) && IsRefName(c[p + 3..b - 1])
    && x == c[p + 3..b - 1]
  }

  lemma RefMatchForward(c: string, p: nat, x: string)
    requires FileRefAt(c, p, x)
    ensures RefMatchedBy(c, p, x)
  {
    OccursSplit(c, p, "/* " + x, RefSuffix);
    OccursSplit(c, p, "/* ", x);
    RefStarAt(c, p, x);
    var b := p + 4 + |x|;
    assert c[p + 3..b - 1] == x;
    assert OccursAt(c, b - 1, RefSuffix);
  }

  /** The first '*' after the opening "/* " of a match is the one of its " */". */
  lemma RefStarAt(c: string, p: nat, x: string)
    requires IsRefName(x) && OccursAt(c, p + 3, x) && OccursAt(c, p + 3 + |x|, RefSuffix)
    ensures FindChar(c, '*', p + 3) == Some(p + 4 + |x|)
  {
    OccursChars(c, p + 3 + |x|, RefSuffix);
    assert RefSuffix[0] == ' ' && RefSuffix[1] == '*';
    OccursChars(c, p + 3, x);
    forall j | p + 3 <= j < p + 4 + |x| ensures c[j] != '*' {
      if j < p + 3 + |x| {
        assert c[j] == x[j - (p + 3)];
      }
    }
    FindCharFirst(c, '*', p + 3, p + 4 + |x|);
  }

  lemma RefMatchBackward(c: string, p: nat, x: string)
    requires RefMatchedBy(c, p, x)
    ensures FileRefAt(c, p, x)
  {
    var b := FindChar(c, '*', p + 3).value;
    assert OccursAt(c, p + 3, x);
    OccursJoin(c, p, "/* ", x);
    OccursJoin(c, p, "/* " + x, RefSuffix);
  }

  /** Two file-reference matches never overlap, so `findall` sees every one. */
  lemma RefMatchesDisjoint(c: string, p: nat, x: string, q: nat, y: string)
    requires FileRefAt(c, p, x) && FileRefAt(c, q, y)
    requires p < q
    ensures p + |RefToken(x)| <= q
  {
    var t := RefToken(x);
    RefTokenChars(x);
    RefTokenChars(y);
    OccursChars(c, p, t);
    OccursChars(c, q, RefToken(y));
  }

  /** The pattern tried at each position of `c`. */
  function RefMatcher(c: string): nat -> Option<string> {
    (p: nat) => RefNameAt(c, p)
  }

  /**
   * A left-to-right scan over `[from, n)` that takes every match `at` reports and
   * resumes after its token, or moves on by one where nothing matches.
   */
  function ScanNames(at: nat -> Option<string>, n: nat, from: nat): seq<string>
    decreases n - from
  {
    if from >= n then []
    else
      match at(from)
      case Some(x) => [x] + ScanNames(at, n, from + |RefToken(x)|)
      case None => ScanNames(at, n, from + 1)
  }

  /** `re.findall` of the file-reference pattern from position `from`. */
  function ScanRefs(c: string, from: nat): (r: seq<string>)
  {
    ScanNames(RefMatcher(c), |c|, from)
  }

  /** The scan from `from` finds exactly the matches that start at or after `from`. */
  lemma ScanRefsComplete(c: string, from: nat, x: string)
    ensures x in ScanRefs(c, from) <==> exists p :: from <= p && FileRefAt(c, p, x)
  {
    if x in ScanRefs(c, from) {
      var p := ScanRefsSound(c, from, x);
    }
    if p :| from <= p && FileRefAt(c, p, x) {
      ScanRefsFinds(c, from, p, x);
    }
  }

  /** Every name the scan reports is matched at or after where it started. */
  lemma {:induction false} ScanRefsSound(c: string, from: nat, x: string) returns (p: nat)
    requires x in ScanRefs(c, from)
    ensures from <= p && FileRefAt(c, p, x)
    decreases |c| - from
  {
    match RefNameAt(c, from)
    case Some(y) =>
      ScanRefsStep(c, from, y);
      if x == y {
        RefNameAtOne(c, from, y);
        p := from;
      } else {
        p := ScanRefsSound(c, from + |RefToken(y)|, x);
      }
    case None =>
      ScanRefsSkip(c, from);
      p := ScanRefsSound(c, from + 1, x);
  }

  /** Matches never overlap: each later match starts at or after the end of an earlier one's token. */
  ghost predicate Disjoint(at: nat -> Option<string>) {
    forall q: nat, r: nat :: q < r && at(q).Some? && at(r).Some? ==> q + |RefToken(at(q).value)| <= r
  }

  /** With non-overlapping matches, the scan reports every match at or after where it starts. */
  lemma {:induction false} ScanNamesFinds(at: nat -> Option<string>, n: nat, from: nat, p: nat)
    requires Disjoint(at) && from <= p < n && at(p).Some?
    ensures at(p).value in ScanNames(at, n, from)
    decreases n - from
  {
    ScanNamesStep(at, n, from);
    match at(from)
    case Some(y) =>
      if p != from {
        ScanNamesFinds(at, n, from + |RefToken(y)|, p);
      }
    case None =>
      ScanNamesFinds(at, n, from + 1, p);
  }

  /** File-reference matches never overlap. */
  lemma RefMatcherDisjoint(c: string)
    ensures Disjoint(RefMatcher(c))
  {
    var at := RefMatcher(c);
    forall q: nat, r: nat | q < r && at(q).Some? && at(r).Some? ensures q + |RefToken(at(q).value)| <= r {
      var x, y := at(q).value, at(r).value;
      RefNameAtOne(c, q, x);
      RefNameAtOne(c, r, y);
      RefMatchesDisjoint(c, q, x, r, y);
    }
  }

  /** Every match at or after where the scan starts is reported. */
  lemma ScanRefsFinds(c: string, from: nat, p: nat, x: string)
    requires from <= p && FileRefAt(c, p, x)
    ensures x in ScanRefs(c, from)
  {
    var at := RefMatcher(c);
    assert at(p) == Some(x) by {
      RefNameAtOne(c, p, x);
    }
    assert p < |c| by {
      assert OccursAt(c, p, RefToken(x));
    }
    RefMatcherDisjoint(c);
    ScanNamesFinds(at, |c|, from, p);
  }

  /** `RefNameAtSpec` for one candidate name. */
  lemma RefNameAtOne(c: string, p: nat, x: string)
    ensures RefNameAt(c, p) == Some(x) <==> FileRefAt(c, p, x)
  {
    RefNameAtSpec(c, p);
  }

  /** A match at `from`: its name, then the scan from its end. */
  lemma ScanRefsStep(c: string, from: nat, y: string)
    requires RefNameAt(c, from) == Some(y)
    ensures ScanRefs(c, from) == [y] + ScanRefs(c, from + |RefToken(y)|)
  {
    assert from < |c| by {
      assert OccursAt(c, from, "/* ");
    }
    var at := RefMatcher(c);
    assert at(from) == Some(y);
    ScanNamesStep(at, |c|, from);
  }

  /** No match at `from`: the scan goes on from the next position. */
  lemma ScanRefsSkip(c: string, from: nat)
    requires RefNameAt(c, from).None?
    ensures from < |c| ==> ScanRefs(c, from) == ScanRefs(c, from + 1)
    ensures from >= |c| ==> ScanRefs(c, from) == []
  {
    var at := RefMatcher(c);
    assert at(from).None?;
    ScanNamesStep(at, |c|, from);
  }

  /** One step of the scan, as the scan's definition takes it. */
  lemma ScanNamesStep(at: nat -> Option<string>, n: nat, from: nat)
    ensures from >= n ==> ScanNames(at, n, from) == []
    ensures from < n && at(from).Some? ==>
      ScanNames(at, n, from) == [at(from).value] + ScanNames(at, n, from + |RefToken(at(from).value)|)
    ensures from < n && at(from).None? ==> ScanNames(at, n, from) == ScanNames(at, n, from + 1)
  {
  }

  /** `get_files_in_project(content)`: the names of the file-reference entries. */
  function FileRefNames(c: string): (r: set<string>)
    ensures forall x :: x in r <==> exists p :: FileRefAt(c, p, x)
  {
    forall x ensures x in ScanRefs(c, 0) <==> exists p :: 0 <= p && FileRefAt(c, p, x) {
      ScanRefsComplete(c, 0, x);
    }
    set x | x in ScanRefs(c, 0)
  }

  /**
   * The `missing` list of `main()`: the files whose name is not among the project's
   * file-reference names, in their original order.
   */
  function Missing(files: seq<Path>, c: string): (r: seq<Path>)
    requires forall i :: 0 <= i < |files| ==> |files[i]| > 0
    ensures forall p :: p in r <==> p in files && Leaf(p) !in FileRefNames(c)
    ensures |r| <= |files|
    ensures (forall i :: 0 <= i < |files| ==> Leaf(files[i]) in FileRefNames(c)) ==> r == []
  {
    UnknownMembers(files, FileRefNames(c));
    Filter(files, Unknown(files, FileRefNames(c)))
  }

  /** For each file, whether its leaf name is not in `names`. */
  function Unknown(files: seq<Path>, names: set<string>): (r: seq<bool>)
    requires forall i :: 0 <= i < |files| ==> |files[i]| > 0
    ensures |r| == |files| && forall i :: 0 <= i < |files| ==> r[i] == (Leaf(files[i]) !in names)
  {
    seq(|files|, i requires 0 <= i < |files| => Leaf(files[i]) !in names)
  }

  /** The entries of `xs` whose flag in `keep` is set, in order. */
  function Filter<T>(xs: seq<T>, keep: seq<bool>): (r: seq<T>)
    requires |keep| == |xs|
    ensures |r| <= |xs|
    ensures (forall i :: 0 <= i < |xs| ==> !keep[i]) ==> r == []
  {
    if |xs| == 0 then []
    else
      assert forall i :: 0 <= i < |xs| - 1 ==> keep[1..][i] == keep[i + 1];
      var rest := Filter(xs[1..], keep[1..]);
      if keep[0] then [xs[0]] + rest else rest
  }

  /** The positions `j` (each plus `off`) whose flag is set, in increasing order. */
  function KeptAt(keep: seq<bool>, off: nat): (r: seq<nat>)
    ensures forall k :: 0 <= k < |r| ==> off <= r[k] < off + |keep| && keep[r[k] - off]
    ensures forall k, l :: 0 <= k < l < |r| ==> r[k] < r[l]
  {
    if |keep| == 0 then []
    else
      var rest := KeptAt(keep[1..], off + 1);
      assert forall k :: 0 <= k < |rest| ==> keep[1..][rest[k] - off - 1] == keep[rest[k] - off];
      if keep[0] then [off] + rest else rest
  }

  /** Every flagged position is in `KeptAt`. */
  lemma {:induction false} KeptAtComplete(keep: seq<bool>, off: nat, j: nat)
    requires j < |keep| && keep[j]
    ensures j + off in KeptAt(keep, off)
  {
    if j > 0 {
      assert keep[1..][j - 1];
      KeptAtComplete(keep[1..], off + 1, j - 1);
    }
  }

  /** The `k`-th entry `Filter` keeps is the one at the `k`-th position of `KeptAt`. */
  lemma {:induction false} FilterPicks<T>(xs: seq<T>, keep: seq<bool>, off: nat)
    requires |keep| == |xs|
    ensures |KeptAt(keep, off)| == |Filter(xs, keep)|
    ensures forall k :: 0 <= k < |Filter(xs, keep)| ==> Filter(xs, keep)[k] == xs[KeptAt(keep, off)[k] - off]
  {
    if |xs| > 0 {
      var rest, at := Filter(xs[1..], keep[1..]), KeptAt(keep[1..], off + 1);
      FilterPicks(xs[1..], keep[1..], off + 1);
      var r, pos := Filter(xs, keep), KeptAt(keep, off);
      forall k | 0 <= k < |at| ensures rest[k] == xs[at[k] - off] {
        assert xs[1..][at[k] - off - 1] == xs[at[k] - off];
      }
      if keep[0] {
        assert r == [xs[0]] + rest && pos == [off] + at;
        forall k | 0 < k < |r| ensures r[k] == xs[pos[k] - off] {
          assert r[k] == rest[k - 1] && pos[k] == at[k - 1];
        }
      } else {
        assert r == rest && pos == at;
      }
    }
  }

  /** Filtering by `Unknown` keeps exactly the files whose name is not in `names`. */
  lemma UnknownMembers(files: seq<Path>, names: set<string>)
    requires forall i :: 0 <= i < |files| ==> |files[i]| > 0
    ensures forall p :: p in Filter(files, Unknown(files, names)) <==> p in files && Leaf(p) !in names
  {
    var keep := Unknown(files, names);
    var r, at := Filter(files, keep), KeptAt(keep, 0);
    FilterPicks(files, keep, 0);
    forall p ensures p in r <==> p in files && Leaf(p) !in names {
      if p in r {
        var k :| 0 <= k < |r| && r[k] == p;
        assert keep[at[k]];
      }
      if p in files && Leaf(p) !in names {
        var j :| 0 <= j < |files| && files[j] == p;
        KeptAtComplete(keep, 0, j);
        var k :| 0 <= k < |at| && at[k] == j;
        assert r[k] == p;
      }
    }
  }

  /**
   * `missing` keeps the script's iteration order: its entries are the files at
   * increasing positions, and every file whose name is unknown is among them.
   */
  lemma MissingInOrder(files: seq<Path>, c: string) returns (idx: seq<nat>)
    requires forall i :: 0 <= i < |files| ==> |files[i]| > 0
    ensures |idx| == |Missing(files, c)|
    ensures forall k :: 0 <= k < |idx| ==> idx[k] < |files| && Missing(files, c)[k] == files[idx[k]]
    ensures forall k, l :: 0 <= k < l < |idx| ==> idx[k] < idx[l]
    ensures forall j :: 0 <= j < |files| && Leaf(files[j]) !in FileRefNames(c) ==> j in idx
  {
    var keep := Unknown(files, FileRefNames(c));
    idx := KeptAt(keep, 0);
    FilterPicks(files, keep, 0);
    forall j | 0 <= j < |files| && Leaf(files[j]) !in FileRefNames(c) ensures j in idx {
      KeptAtComplete(keep, 0, j);
    }
  }

  /** A file is missing exactly when no file-reference entry carries its name. */
  lemma MissingIff(files: seq<Path>, c: string, p: Path)
    requires forall i :: 0 <= i < |files| ==> |files[i]| > 0
    requires p in files
    ensures p in Missing(files, c) <==> forall q :: !FileRefAt(c, q, Leaf(p))
  {
  }

  /** `mainGroup = (\w{24})` matches at `p`. */
  predicate MainGroupAt(c: string, p: nat) {
    OccursAt(c, p, MainGroupKey) && p + 36 <= |c| && AllWordChars(c[p + 12..p + 36])
  }

  /** `re.search(r'mainGroup = (\w{24})', content)`: the id of the first match. */
  function MainGroup(c: string): (r: Option<string>)
    ensures r.None? <==> forall p: nat :: !MainGroupAt(c, p)
    ensures r.Some? ==> exists p: nat :: (MainGroupAt(c, p) && r.value == c[p + 12..p + 36]
      && forall q: nat :: q < p ==> !MainGroupAt(c, q))
    ensures r.Some? ==> |r.value| == 24 && AllWordChars(r.value)
  {
    var at := (p: nat) => MainGroupAt(c, p);
    assert forall p: nat :: at(p) == MainGroupAt(c, p);
    match First(at, 0, |c|)
    case None => None
    case Some(p) => Some(c[p + 12..p + 36])
  }

  const GroupMarker := "/* Begin PBXGroup section */"
  const FileRefMarker := "/* Begin PBXFileReference section */"
  const BuildFileMarker := "/* Begin PBXBuildFile section */"

  /** A section marker as Xcode writes them. */
  predicate IsSectionMarker(m: string) {
    |m| >= 20 && StartsWith(m, "/* Begin ") && EndsWith(m, " section */")
  }

  /**
   * `idx = content.find(marker)` and, when found, `entry` spliced in at
   * `idx + len(marker) + 1` (one past the character after the marker, clamped).
   */
  function InsertAfterMarker(c: string, m: string, entry: string): (r: string)
    ensures Find(c, m).None? ==> r == c
    ensures Find(c, m).Some? ==> r == SliceInsert(c, Find(c, m).value + |m| + 1, entry)
    ensures |r| == |c| + (if Contains(c, m) then |entry| else 0)
  {
    match Find(c, m)
    case None => c
    case Some(idx) => SliceInsert(c, idx + |m| + 1, entry)
  }
}

=== FILE: sorting.dfy ===
/**
 * Python's `sorted(...)` over a key, as a stable insertion sort, and the
 * lexicographic order Python uses for strings and for lists of strings.
 */
module Sorting {

  ghost predicate TotalPreorder<T(!new)>(le: (T, T) -> bool) {
    && (forall a, b :: le(a, b) || le(b, a))
    && (forall a, b, c :: le(a, b) && le(b, c) ==> le(a, c))
  }

  /** Irreflexive, transitive and trichotomous: a strict total order. */
  ghost predicate StrictTotalOrder<T(!new)>(lt: (T, T) -> bool) {
    && (forall a :: !lt(a, a))
    && (forall a, b, c :: lt(a, b) && lt(b, c) ==> lt(a, c))
    && (forall a, b :: a != b ==> lt(a, b) || lt(b, a))
  }

  predicate SortedBy<T>(s: seq<T>, le: (T, T) -> bool) {
    forall i, j :: 0 <= i < j < |s| ==> le(s[i], s[j])
  }

  /** Inserts `x` before the first element it is not after (keeps equal elements in order). */
  function InsertBy<T>(x: T, s: seq<T>, le: (T, T) -> bool): (r: seq<T>)
    ensures multiset(r) == multiset(s) + multiset{x}
    ensures |r| == |s| + 1
  {
    if |s| == 0 || le(x, s[0]) then [x] + s
    else
      assert s == [s[0]] + s[1..];
      [s[0]] + InsertBy(x, s[1..], le)
  }

  /** Python's `sorted(s, key=...)` where `le` compares keys. */
  function SortBy<T>(s: seq<T>, le: (T, T) -> bool): (r: seq<T>)
    ensures multiset(r) == multiset(s)
    ensures |r| == |s|
  {
    if |s| == 0 then []
    else
      assert s == [s[0]] + s[1..];
      InsertBy(s[0], SortBy(s[1..], le), le)
  }

  lemma {:induction false} InsertBySorted<T(!new)>(x: T, s: seq<T>, le: (T, T) -> bool)
    requires TotalPreorder(le) && SortedBy(s, le)
    ensures SortedBy(InsertBy(x, s, le), le)
  {
    if |s| == 0 || le(x, s[0]) {
    } else {
      var rest := InsertBy(x, s[1..], le);
      InsertBySorted(x, s[1..], le);
      var r := [s[0]] + rest;
      forall k | 0 <= k < |rest| ensures le(s[0], rest[k]) {
        assert rest[k] in multiset(rest);
        if rest[k] == x {
        } else {
          assert rest[k] in multiset(s[1..]);
          var j :| 0 <= j < |s[1..]| && s[1..][j] == rest[k];
          assert s[j + 1] == rest[k];
        }
      }
      assert forall i, j :: 0 <= i < j < |r| ==> le(r[i], r[j]) by {
        forall i, j | 0 <= i < j < |r| ensures le(r[i], r[j]) {
          if i == 0 {
            assert r[j] == rest[j - 1];
          } else {
            assert r[i] == rest[i - 1] && r[j] == rest[j - 1];
          }
        }
      }
    }
  }

  /** The result of `SortBy` is sorted whenever the comparison is a total preorder. */
  lemma {:induction false} SortBySorted<T(!new)>(s: seq<T>, le: (T, T) -> bool)
    requires TotalPreorder(le)
    ensures SortedBy(SortBy(s, le), le)
  {
    if |s| > 0 {
      SortBySorted(s[1..], le);
      InsertBySorted(s[0], SortBy(s[1..], le), le);
    }
  }

  /** Lexicographic `<=` over sequences, given a strict order on elements. */
  predicate LexLe<T(==)>(a: seq<T>, b: seq<T>, lt: (T, T) -> bool) {
    |a| == 0 || (|b| > 0 && (lt(a[0], b[0]) || (a[0] == b[0] && LexLe(a[1..], b[1..], lt))))
  }

  lemma {:induction false} LexLeTotal<T(!new)>(a: seq<T>, b: seq<T>, lt: (T, T) -> bool)
    requires StrictTotalOrder(lt)
    ensures LexLe(a, b, lt) || LexLe(b, a, lt)
  {
    if |a| > 0 && |b| > 0 && a[0] == b[0] {
      LexLeTotal(a[1..], b[1..], lt);
    }
  }

  lemma {:induction false} LexLeTransitive<T(!new)>(a: seq<T>, b: seq<T>, c: seq<T>, lt: (T, T) -> bool)
    requires StrictTotalOrder(lt) && LexLe(a, b, lt) && LexLe(b, c, lt)
    ensures LexLe(a, c, lt)
  {
    if |a| > 0 && a[0] == b[0] && b[0] == c[0] {
      LexLeTransitive(a[1..], b[1..], c[1..], lt);
    }
  }

  lemma {:induction false} LexLeAntisymmetric<T(!new)>(a: seq<T>, b: seq<T>, lt: (T, T) -> bool)
    requires StrictTotalOrder(lt) && LexLe(a, b, lt) && LexLe(b, a, lt)
    ensures a == b
  {
    if |a| > 0 {
      LexLeAntisymmetric(a[1..], b[1..], lt);
      assert a == [a[0]] + a[1..] && b == [b[0]] + b[1..];
    }
  }

  /** Python's `<` on single characters (code point order). */
  function CharLt(): (char, char) -> bool {
    (x: char, y: char) => x < y
  }

  /** Python's `a <= b` on strings. */
  predicate StrLe(a: string, b: string) { LexLe(a, b, CharLt()) }

  /** Python's `a < b` on strings. */
  predicate StrLt(a: string, b: string) { StrLe(a, b) && a != b }

  function StrLeFn(): (string, string) -> bool { (a: string, b: string) => StrLe(a, b) }
  function StrLtFn(): (string, string) -> bool { (a: string, b: string) => StrLt(a, b) }

  lemma StrLtIsStrictTotalOrder()
    ensures StrictTotalOrder(StrLtFn())
  {
    assert StrictTotalOrder(CharLt());
    forall a: string, b: string, c: string | StrLt(a, b) && StrLt(b, c) ensures StrLt(a, c) {
      LexLeTransitive(a, b, c, CharLt());
      if a == c {
        LexLeAntisymmetric(a, b, CharLt());
      }
    }
    forall a: string, b: string | a != b ensures StrLt(a, b) || StrLt(b, a) {
      LexLeTotal(a, b, CharLt());
    }
  }

  lemma StrLeAntisymmetric(a: string, b: string)
    requires StrLe(a, b) && StrLe(b, a)
    ensures a == b
  {
    assert StrictTotalOrder(CharLt());
    LexLeAntisymmetric(a, b, CharLt());
  }

  lemma StrLeIsTotalPreorder()
    ensures TotalPreorder(StrLeFn())
  {
    assert StrictTotalOrder(CharLt());
    forall a: string, b: string ensures StrLe(a, b) || StrLe(b, a) {
      LexLeTotal(a, b, CharLt());
    }
    forall a: string, b: string, c: string | StrLe(a, b) && StrLe(b, c) ensures StrLe(a, c) {
      LexLeTransitive(a, b, c, CharLt());
    }
  }

  /** Python's `a <= b` on lists of strings (how `pathlib` paths compare). */
  predicate PathLe(a: seq<string>, b: seq<string>) { LexLe(a, b, StrLtFn()) }

  function PathLeFn(): (seq<string>, seq<string>) -> bool {
    (a: seq<string>, b: seq<string>) => PathLe(a, b)
  }

  lemma PathLeIsTotalPreorder()
    ensures TotalPreorder(PathLeFn())
  {
    StrLtIsStrictTotalOrder();
    forall a: seq<string>, b: seq<string> ensures PathLe(a, b) || PathLe(b, a) {
      LexLeTotal(a, b, StrLtFn());
    }
    forall a: seq<string>, b: seq<string>, c: seq<string> | PathLe(a, b) && PathLe(b, c)
      ensures PathLe(a, c)
    {
      LexLeTransitive(a, b, c, StrLtFn());
    }
  }

  lemma PathLeAntisymmetric(a: seq<string>, b: seq<string>)
    requires PathLe(a, b) && PathLe(b, a)
    ensures a == b
  {
    StrLtIsStrictTotalOrder();
    LexLeAntisymmetric(a, b, StrLtFn());
  }
}

=== FILE: source_tree.dfy ===
/**
 * `find_swift_files()` (scripts/sync-xcode-files.py) over an abstract directory tree:
 * the walk prunes skipped directories before descending and the result is sorted
 * the way `pathlib` paths sort.  Paths are lists of components relative to the
 * project directory, which sort the same way as the absolute paths do.
 */
module SourceTree {
  import opened Text
  import opened Sorting

  datatype Entry = File(name: string) | Dir(name: string, entries: seq<Entry>)

  /** A path relative to the project directory, as its components. */
  type Path = seq<string>

  const SkipDirs: set<string> := {"build", ".build", "DerivedData", "Packages", ".swiftpm", "xcshareddata"}

  /** A directory the walk does not descend into. */
  predicate Pruned(d: string) { d in SkipDirs || EndsWith(d, ".xcodeproj") }

  predicate IsSwift(f: string) { EndsWith(f, ".swift") }

  /** The file name of a path (`Path.name`). */
  function Leaf(p: Path): string
    requires |p| > 0
  {
    p[|p| - 1]
  }

  /** `Path(d) / p` for each of `ps`. */
  function Under(d: string, ps: seq<Path>): (r: seq<Path>)
    ensures |r| == |ps| && forall i :: 0 <= i < |ps| ==> r[i] == [d] + ps[i]
  {
    seq(|ps|, i requires 0 <= i < |ps| => [d] + ps[i])
  }

  /** What `os.walk` with in-place pruning of `dirs` collects, in walk order. */
  function Walk(es: seq<Entry>): seq<Path>
    decreases es
  {
    if |es| == 0 then [] else WalkEntry(es[0]) + Walk(es[1..])
  }

  function WalkEntry(e: Entry): seq<Path>
    decreases e
  {
    match e
    case File(n) => if IsSwift(n) then [[n]] else []
    case Dir(n, sub) => if Pruned(n) then [] else Under(n, Walk(sub))
  }

  /**
   * The reference: `p` names a `.swift` file reached through directories none of
   * which is pruned.
   */
  predicate Reaches(es: seq<Entry>, p: Path)
    decreases es
  {
    exists i :: 0 <= i < |es| && EntryReaches(es[i], p)
  }

  predicate EntryReaches(e: Entry, p: Path)
    decreases e
  {
    match e
    case File(n) => IsSwift(n) && p == [n]
    case Dir(n, sub) => !Pruned(n) && |p| > 0 && p[0] == n && Reaches(sub, p[1..])
  }

  /** `find_swift_files()` for the tree whose top-level entries are `root`. */
  function FindSwiftFiles(root: seq<Entry>): (r: seq<Path>)
    ensures SortedBy(r, PathLeFn())
    ensures forall p :: p in r <==> Reaches(root, p)
    ensures multiset(r) == multiset(Walk(root))
  {
    PathLeIsTotalPreorder();
    SortBySorted(Walk(root), PathLeFn());
    WalkReaches(root);
    var r := SortBy(Walk(root), PathLeFn());
    assert forall p :: p in r <==> p in multiset(r);
    assert forall p :: p in Walk(root) <==> p in multiset(Walk(root));
    r
  }

  /** The walk collects exactly the reachable `.swift` files. */
  lemma {:induction false} WalkReaches(es: seq<Entry>)
    ensures forall p :: p in Walk(es) <==> Reaches(es, p)
    decreases es, 1
  {
    if |es| > 0 {
      WalkEntryReaches(es[0]);
      WalkReaches(es[1..]);
      forall p ensures p in Walk(es) <==> Reaches(es, p) {
        if Reaches(es, p) {
          var i :| 0 <= i < |es| && EntryReaches(es[i], p);
          if i > 0 {
            assert es[1..][i - 1] == es[i];
          }
        }
        if p in Walk(es[1..]) {
          var i :| 0 <= i < |es[1..]| && EntryReaches(es[1..][i], p);
          assert es[i + 1] == es[1..][i];
        }
      }
    }
  }

  lemma {:induction false} WalkEntryReaches(e: Entry)
    ensures forall p :: p in WalkEntry(e) <==> EntryReaches(e, p)
    decreases e, 0
  {
    match e
    case File(n) =>
    case Dir(n, sub) =>
      if !Pruned(n) {
        WalkReaches(sub);
        var u := Under(n, Walk(sub));
        forall p ensures p in u <==> EntryReaches(e, p) {
          if p in u {
            var i :| 0 <= i < |u| && u[i] == p;
            assert p[1..] == Walk(sub)[i];
          }
          if EntryReaches(e, p) {
            var q := p[1..];
            assert q in Walk(sub);
            var i :| 0 <= i < |Walk(sub)| && Walk(sub)[i] == q;
            assert u[i] == [n] + q == p;
          }
        }
      }
  }

  /**
   * Every path found names a `.swift` file, and no directory on the way to it is
   * pruned: skipped directories are never entered.
   */
  lemma {:induction false} FoundPathShape(es: seq<Entry>, p: Path)
    requires Reaches(es, p)
    ensures |p| > 0 && IsSwift(Leaf(p))
    ensures forall k :: 0 <= k < |p| - 1 ==> !Pruned(p[k])
    decreases es
  {
    var i :| 0 <= i < |es| && EntryReaches(es[i], p);
    match es[i]
    case File(n) =>
    case Dir(n, sub) =>
      FoundPathShape(sub, p[1..]);
      forall k | 0 < k < |p| - 1 ensures !Pruned(p[k]) {
        assert p[k] == p[1..][k - 1];
      }
  }

  /** A file below a pruned directory is never found. */
  lemma PrunedNotFound(root: seq<Entry>, p: Path, k: nat)
    requires k < |p| - 1 && Pruned(p[k])
    ensures p !in FindSwiftFiles(root)
  {
    if Reaches(root, p) {
      FoundPathShape(root, p);
    }
  }
}

=== FILE: splices.dfy ===
/**
 * Every edit scripts/sync-xcode-files.py makes to a `project.pbxproj` text is a
 * splice: an entry inserted just after a `(` (a `children = (` or `files = (`
 * list), or one character past a `Begin ... section` marker comment.  This module
 * shows which text such splices can never cut through, which is what keeps
 * earlier entries, and the file-reference names, readable after later edits.
 */
module Splices {
  import opened Text
  import opened PbxScan

  /** One of the section markers the scripts insert after. */
  predicate IsMarker(m: string) {
    m == GroupMarker || m == FileRefMarker || m == BuildFileMarker
  }

  /** The positions where an edit may insert: after a `(`, or one past the end of a marker. */
  ghost predicate SplicePoint(c: string, pos: nat) {
    || (0 < pos <= |c| && c[pos - 1] == '(')
    || exists idx: nat :: MarkerEndsAt(c, idx, pos)
  }

  /** A marker occurs at `idx` and `pos` is one past the character after it. */
  predicate MarkerEndsAt(c: string, idx: nat, pos: nat) {
    (OccursAt(c, idx, GroupMarker) && pos == idx + |GroupMarker| + 1)
    || (OccursAt(c, idx, FileRefMarker) && pos == idx + |FileRefMarker| + 1)
    || (OccursAt(c, idx, BuildFileMarker) && pos == idx + |BuildFileMarker| + 1)
  }

  /** Every entry the scripts insert ends with a newline or a comma. */
  predicate EntryEnd(e: string) {
    |e| > 0 && e[|e| - 1] != '/' && e[|e| - 1] != '*'
  }

  /** `r` is `c`, or `c` with one entry spliced in at a splice point. */
  ghost predicate SafeEdit(c: string, r: string) {
    r == c || exists pos: nat, e :: SplicePoint(c, pos) && EntryEnd(e) && r == SliceInsert(c, pos, e)
  }

  /**
   * Text that a splice cannot cut: it has no `(`, and each comment close inside
   * it is not preceded by `n ` (as the close of a section marker is).
   */
  predicate TokenShape(t: string) {
    && Free(t, '(')
    && forall j :: 0 <= j < |t| - 2 && t[j] == '*' && t[j + 1] == '/' ==> j >= 2 && t[j - 2] != 'n'
  }

  /** `t` occurs at `p`, not right after a slash or a star. */
  predicate GuardedAt(c: string, p: int, t: string) {
    OccursAt(c, p, t) && p >= 1 && c[p - 1] != '/' && c[p - 1] != '*'
  }

  /** `t` has a guarded occurrence in `c`. */
  ghost predicate Kept(c: string, t: string) {
    exists p: nat :: GuardedAt(c, p, t)
  }

  lemma MarkerChars(m: string)
    requires IsMarker(m)
    ensures |m| >= 20 && m[|m| - 1] == '/' && m[|m| - 2] == '*' && m[|m| - 4] == 'n'
  {
  }

  /** A splice point never falls strictly inside a guarded token. */
  lemma NotInside(c: string, pos: nat, p: nat, t: string)
    requires TokenShape(t) && GuardedAt(c, p, t) && SplicePoint(c, pos)
    ensures !(p < pos < p + |t|)
  {
    OccursChars(c, p, t);
    forall i | p <= i < p + |t| ensures c[i] != '(' {
      assert c[i] == t[i - p];
    }
    forall a | p + 1 <= a < p + |t| - 1 && c[a - 1] == '*' && c[a] == '/' ensures c[a - 3] != 'n' {
      var j := a - 1 - p;
      assert t[j] == '*' && t[j + 1] == '/';
      assert t[j - 2] == c[a - 3];
    }
    if !(0 < pos <= |c| && c[pos - 1] == '(') {
      var idx: nat :| MarkerEndsAt(c, idx, pos);
      var m: string :| IsMarker(m) && OccursAt(c, idx, m) && pos == idx + |m| + 1 by {
        if OccursAt(c, idx, GroupMarker) && pos == idx + |GroupMarker| + 1 {
          assert IsMarker(GroupMarker);
        } else if OccursAt(c, idx, FileRefMarker) && pos == idx + |FileRefMarker| + 1 {
          assert IsMarker(FileRefMarker);
        } else {
          assert IsMarker(BuildFileMarker);
        }
      }
      MarkerChars(m);
      OccursChars(c, idx, m);
      var a := idx + |m| - 1;
      assert c[a] == '/' && c[a - 1] == '*' && c[a - 3] == 'n';
    }
  }

  /** A splice keeps every guarded token, shifted when the entry lands before it. */
  lemma SpliceKeeps(c: string, pos: nat, e: string, p: nat, t: string)
    requires TokenShape(t) && GuardedAt(c, p, t) && SplicePoint(c, pos) && EntryEnd(e)
    ensures GuardedAt(SliceInsert(c, pos, e), if pos <= p then p + |e| else p, t)
  {
    NotInside(c, pos, p, t);
    var r := SliceInsert(c, pos, e);
    if pos > |c| {
      assert r[p..p + |t|] == c[p..p + |t|];
    } else if pos <= p {
      assert r == c[..pos] + e + c[pos..];
      assert r[p + |e|..p + |e| + |t|] == c[p..p + |t|];
      if pos < p {
        assert r[p + |e| - 1] == c[p - 1];
      }
    } else {
      assert r == c[..pos] + e + c[pos..];
      assert r[p..p + |t|] == c[p..p + |t|];
    }
  }

  /** A safe edit keeps every kept token. */
  lemma SafeEditKeeps(c: string, r: string, t: string)
    requires SafeEdit(c, r) && TokenShape(t) && Kept(c, t)
    ensures Kept(r, t)
  {
    if r != c {
      var pos: nat, e :| SplicePoint(c, pos) && EntryEnd(e) && r == SliceInsert(c, pos, e);
      var p: nat :| GuardedAt(c, p, t);
      SpliceKeeps(c, pos, e, p, t);
    }
  }

  /** Inserting after a marker is a safe edit when the entry ends like the scripts' entries. */
  lemma MarkerInsertSafe(c: string, m: string, e: string)
    requires IsMarker(m) && EntryEnd(e)
    ensures SafeEdit(c, InsertAfterMarker(c, m, e))
  {
    match Find(c, m)
    case None =>
    case Some(idx) =>
      assert MarkerEndsAt(c, idx, idx + |m| + 1);
      assert SplicePoint(c, idx + |m| + 1);
  }

  /** Inserting right after a `(` is a safe edit. */
  lemma ParenInsertSafe(c: string, k: nat, e: string)
    requires 0 < k <= |c| && c[k - 1] == '(' && EntryEnd(e)
    ensures SafeEdit(c, Insert(c, k, e))
  {
    assert SplicePoint(c, k);
    assert Insert(c, k, e) == SliceInsert(c, k, e);
  }

  /** The file-reference token of a name without `(` has the shape splices keep. */
  lemma RefTokenShape(x: string)
    requires IsRefName(x) && Free(x, '(')
    ensures TokenShape(RefToken(x))
  {
    RefTokenOpenFree(x);
    RefTokenCommentEnd(x);
  }

  lemma RefTokenOpenFree(x: string)
    requires Free(x, '(')
    ensures Free(RefToken(x), '(')
  {
    var t := RefToken(x);
    RefTokenChars(x);
    forall i | 0 <= i < |t| ensures t[i] != '(' {
      if 3 <= i < 3 + |x| {
        assert t[3 + (i - 3)] == x[i - 3];
      }
    }
  }

  // The only star-slash of a file-reference token closes the comment after the name, which ends in `t`.
  lemma RefTokenCommentEnd(x: string)
    requires IsRefName(x)
    ensures var t := RefToken(x);
      forall j :: 0 <= j < |t| - 2 && t[j] == '*' && t[j + 1] == '/' ==> j >= 2 && t[j - 2] != 'n'
  {
    var t := RefToken(x);
    RefTokenChars(x);
    forall i | 3 <= i < 3 + |x| ensures t[i] != '*' {
      assert t[3 + (i - 3)] == x[i - 3];
    }
    assert t[2 + |x|] == 't' by {
      assert t[3 + (|x| - 1)] == x[|x| - 1];
      assert x[|x| - 1] == SwiftExt[5];
    }
    forall j | 0 <= j < |t| - 2 && t[j] == '*' && t[j + 1] == '/' ensures j == 4 + |x| {
    }
  }

  /** The file-reference section marker has the shape splices keep. */
  lemma FileRefMarkerShape()
    ensures TokenShape(FileRefMarker)
  {
    var t := FileRefMarker;
    forall j | 0 <= j < |t| - 2 && t[j] == '*' && t[j + 1] == '/' ensures j >= 2 && t[j - 2] != 'n' {
    }
  }

  /** The build-file section marker has the shape splices keep. */
  lemma BuildFileMarkerShape()
    ensures TokenShape(BuildFileMarker)
  {
    var t := BuildFileMarker;
    forall j | 0 <= j < |t| - 2 && t[j] == '*' && t[j + 1] == '/' ensures j >= 2 && t[j - 2] != 'n' {
    }
  }

  /** Every token of the right shape that `c` keeps, `r` keeps too. */
  ghost predicate KeepsTokens(c: string, r: string) {
    forall t :: TokenShape(t) && Kept(c, t) ==> Kept(r, t)
  }

  lemma SafeEditKeepsAll(c: string, r: string)
    requires SafeEdit(c, r)
    ensures KeepsTokens(c, r)
  {
    forall t | TokenShape(t) && Kept(c, t) ensures Kept(r, t) {
      SafeEditKeeps(c, r, t);
    }
  }

  lemma KeepsTrans(a: string, b: string, c: string)
    requires KeepsTokens(a, b) && KeepsTokens(b, c)
    ensures KeepsTokens(a, c)
  {
  }

  /** A kept token is found by `find`. */
  lemma KeptFound(c: string, t: string)
    requires Kept(c, t)
    ensures Find(c, t).Some?
  {
  }

  /** `TokenShape` without the allowance for a comment close at the very end. */
  predicate StrictShape(t: string) {
    && Free(t, '(')
    && forall j :: 0 <= j < |t| - 1 && t[j] == '*' && t[j + 1] == '/' ==> j >= 2 && t[j - 2] != 'n'
  }

  /** A name that can sit inside a comment of a kept token. */
  predicate CommentName(x: string) {
    |x| > 0 && Free(x, '*') && Free(x, '(') && x[|x| - 1] != 'n'
  }

  /** Text with neither a star nor a `(`. */
  predicate Plain(x: string) { Free(x, '*') && Free(x, '(') }

  lemma PlainStrict(x: string)
    requires Plain(x)
    ensures StrictShape(x)
  {
  }

  lemma StrictToken(t: string)
    requires StrictShape(t)
    ensures TokenShape(t)
  {
  }

  /** `/* x */` followed by plain text. */
  lemma CommentStrict(x: string, tail: string)
    requires CommentName(x) && Plain(tail)
    ensures StrictShape("/* " + x + " */" + tail)
  {
    var t := "/* " + x + " */" + tail;
    forall j | 3 <= j < 3 + |x| ensures t[j] == x[j - 3] {
    }
    forall j | 6 + |x| <= j < |t| ensures t[j] == tail[j - 6 - |x|] {
    }
    forall j | 0 <= j < |t| - 1 && t[j] == '*' && t[j + 1] == '/' ensures j >= 2 && t[j - 2] != 'n' {
      assert j == 4 + |x|;
      assert t[j - 2] == x[|x| - 1];
    }
  }

  /** Two strict pieces stay strict when the first does not end in a star. */
  lemma StrictConcat(a: string, b: string)
    requires StrictShape(a) && StrictShape(b) && (|a| == 0 || a[|a| - 1] != '*')
    ensures StrictShape(a + b)
  {
    var t := a + b;
    forall i | 0 <= i < |t| ensures t[i] != '(' {
      if i >= |a| {
        assert t[i] == b[i - |a|];
      }
    }
    forall j | 0 <= j < |t| - 1 && t[j] == '*' && t[j + 1] == '/' ensures j >= 2 && t[j - 2] != 'n' {
      if j + 1 < |a| {
        assert a[j] == '*' && a[j + 1] == '/';
      } else {
        assert j >= |a|;
        assert b[j - |a|] == '*' && b[j - |a| + 1] == '/';
        assert t[j - 2] == b[j - |a| - 2];
      }
    }
  }

  /** An entry `pre + t + post` spliced in leaves `t` kept when `pre` ends in neither a slash nor a star. */
  lemma InsertedKept(c: string, pos: nat, pre: string, t: string, post: string)
    requires |pre| > 0 && pre[|pre| - 1] != '/' && pre[|pre| - 1] != '*'
    ensures Kept(SliceInsert(c, pos, pre + t + post), t)
  {
    var k := if pos <= |c| then pos else |c|;
    var r := SliceInsert(c, pos, pre + t + post);
    assert r == c[..k] + (pre + t + post) + c[k..];
    assert r[k + |pre|..k + |pre| + |t|] == t;
    assert r[k + |pre| - 1] == pre[|pre| - 1];
    assert GuardedAt(r, k + |pre|, t);
  }
}

=== FILE: sync_main.dfy ===
/**
 * `main()` of scripts/sync-xcode-files.py: which files are missing, adding them
 * one after another, and what each mode (`--check`, `--diff`, `--dry-run`, or
 * none) does with the result.  The project file is a value read at the start;
 * writing it and the backup copy are effects in a list, in the order they happen.
 */
module SyncMain {
  import opened Wrappers
  import opened Text
  import opened Uuids
  import opened SourceTree
  import opened PbxScan
  import opened Splices
  import opened PbxEdit

  /** The three flags `main` looks for anywhere in `argv`. */
  datatype Flags = Flags(check: bool, dryRun: bool, diff: bool)

  function ParseFlags(argv: seq<string>): (f: Flags)
    ensures f.check <==> exists i :: 0 <= i < |argv| && argv[i] == "--check"
    ensures f.dryRun <==> exists i :: 0 <= i < |argv| && argv[i] == "--dry-run"
    ensures f.diff <==> exists i :: 0 <= i < |argv| && argv[i] == "--diff"
  {
    Flags("--check" in argv, "--dry-run" in argv, "--diff" in argv)
  }

  /** Writes to disk: `shutil.copy` of the project file to the backup, then the new text. */
  datatype Effect = Backup(copy: string) | Write(text: string)

  /** How a run ends; the printed text is not modelled, only which branch was taken. */
  datatype Outcome =
    | NotFound                                  // no project file: exit status 1
    | InSync                                    // nothing missing
    | Listed(missing: seq<Path>)                // `--check`
    | Crashed(message: string)                  // `ensure_group_path` raised
    | Diffed(before: string, after: string)     // `--diff`
    | DryRun(missing: seq<Path>)                // `--dry-run`
    | Applied(missing: seq<Path>)               // the text was written

  datatype Run = Run(outcome: Outcome, effects: seq<Effect>)

  /** The paths `find_swift_files` reports are never empty. */
  lemma FoundNonEmpty(root: seq<Entry>)
    ensures forall i :: 0 <= i < |FindSwiftFiles(root)| ==> |FindSwiftFiles(root)[i]| > 0
    ensures forall p :: p in FindSwiftFiles(root) ==> |p| > 0
  {
    var r := FindSwiftFiles(root);
    forall p | p in r ensures |p| > 0 {
      FoundPathShape(root, p);
    }
  }

  /** `for filepath in missing: content = add_file_to_project(content, filepath)`. */
  function AddAll(c: string, ms: seq<Path>, draws: nat -> nat, next: nat): (r: Result<Added, string>)
    requires forall i :: 0 <= i < |ms| ==> |ms[i]| > 0
    decreases |ms|
    ensures (forall i :: 0 <= i < |ms| ==> |ms[i]| == 1) ==> r.Success?
    ensures r.Success? ==> r.value.next >= next + 2 * |ms| && KeepsTokens(c, r.value.content)
  {
    if |ms| == 0 then Success(Added(c, next))
    else
      var a :- AddFile(c, ms[0], draws, next);
      var r := AddAll(a.content, ms[1..], draws, a.next);
      if r.Success? then
        KeepsTrans(c, a.content, r.value.content);
        r
      else r
  }

  /**
   * `main()`: `projectFound` says whether the project file is there, `original` is
   * its text, `root` the directory tree under the project directory.
   */
  function RunSync(argv: seq<string>, projectFound: bool, original: string, root: seq<Entry>, draws: nat -> nat): (run: Run)
    ensures !projectFound ==> run == Run(NotFound, [])
  {
    if !projectFound then Run(NotFound, [])
    else
      FoundNonEmpty(root);
      Decide(ParseFlags(argv), original, FindSwiftFiles(root), draws)
  }

  /** Everything `main()` does after reading the project file and scanning for `files`. */
  function Decide(flags: Flags, original: string, files: seq<Path>, draws: nat -> nat): (run: Run)
    requires forall i :: 0 <= i < |files| ==> |files[i]| > 0
    ensures run.outcome.InSync? <==> Missing(files, original) == []
    ensures run.effects != [] <==> run.outcome.Applied?
    ensures run.effects != [] ==> !flags.check && !flags.diff && !flags.dryRun
    ensures run.effects != [] ==> |run.effects| == 2 && run.effects[0] == Backup(original) && run.effects[1].Write?
  {
    var missing := Missing(files, original);
    assert forall i :: 0 <= i < |missing| ==> missing[i] in missing;
    if |missing| == 0 then Run(InSync, [])
    else if flags.check then Run(Listed(missing), [])
    else
      match AddAll(original, missing, draws, 0)
      case Failure(e) => Run(Crashed(e), [])
      case Success(a) =>
        if flags.diff then Run(Diffed(original, a.content), [])
        else if flags.dryRun then Run(DryRun(missing), [])
        else Run(Applied(missing), [Backup(original), Write(a.content)])
  }

  /** `--check` never processes the files, so it neither writes nor crashes. */
  lemma CheckOnlyLists(flags: Flags, original: string, files: seq<Path>, draws: nat -> nat)
    requires forall i :: 0 <= i < |files| ==> |files[i]| > 0
    requires flags.check
    ensures var run := Decide(flags, original, files, draws);
      run.effects == [] && (run.outcome.InSync? || run.outcome == Listed(Missing(files, original)))
  {
  }

  /**
   * A file name whose entry is shown to survive the later edits: the scan pattern
   * `[^*]+\.swift` matches it, and it has no `(`, since an edit may be spliced in
   * after any `(` of the text.
   */
  predicate Addable(fn: string) { IsRefName(fn) && Free(fn, '(') }

  /** No file-reference entry of the text directly follows a slash or a star (Xcode puts its id and a space there). */
  ghost predicate RefsGuarded(c: string) {
    forall q: nat, x :: FileRefAt(c, q, x) ==> q >= 1 && c[q - 1] != '/' && c[q - 1] != '*'
  }

  lemma AddableShape(fn: string)
    requires Addable(fn)
    ensures CommentName(fn) && TokenShape(RefToken(fn))
  {
    RefTokenShape(fn);
    assert fn[|fn| - 1] == SwiftExt[5];
  }

  /** A kept file-reference line keeps the part the scan matches. */
  lemma RefTokenOfLine(c: string, fid: string, fn: string)
    requires |fid| == 24 && Kept(c, FileRefTok(fid, fn))
    ensures Kept(c, RefToken(fn))
  {
    var p: nat :| GuardedAt(c, p, FileRefTok(fid, fn));
    var t := FileRefTok(fid, fn);
    assert c[p..p + |t|] == t;
    assert c[p + 25..p + 25 + |RefToken(fn)|] == t[25..];
    assert c[p + 24] == t[24];
    assert GuardedAt(c, p + 25, RefToken(fn));
  }

  /** A kept file-reference match is one the scan reports. */
  lemma KeptRecognised(c: string, fn: string)
    requires IsRefName(fn) && Kept(c, RefToken(fn))
    ensures fn in FileRefNames(c)
  {
    var p: nat :| GuardedAt(c, p, RefToken(fn));
    assert FileRefAt(c, p, fn);
  }

  /** The file `add_file_to_project` adds is one the scan reports, and the marker it needs stays. */
  lemma AddFileRecognised(c: string, m: Path, draws: nat -> nat, next: nat)
    requires |m| > 0 && Addable(Leaf(m)) && Kept(c, FileRefMarker)
    requires AddFile(c, m, draws, next).Success?
    ensures var r := AddFile(c, m, draws, next).value.content;
      Kept(r, RefToken(Leaf(m))) && Kept(r, FileRefMarker)
  {
    var r := AddFile(c, m, draws, next).value.content;
    var fn := Leaf(m);
    AddableShape(fn);
    FileRefMarkerShape();
    assert Kept(r, FileRefTok(GenerateUuid(draws(next)), fn));
    RefTokenOfLine(r, GenerateUuid(draws(next)), fn);
  }

  /** The loop over a nonempty list: the first file, then the loop over the rest. */
  lemma AddAllCons(c: string, ms: seq<Path>, draws: nat -> nat, next: nat)
    requires forall i :: 0 <= i < |ms| ==> |ms[i]| > 0
    requires |ms| > 0 && AddAll(c, ms, draws, next).Success?
    ensures AddFile(c, ms[0], draws, next).Success?
    ensures var a := AddFile(c, ms[0], draws, next).value;
      AddAll(c, ms, draws, next) == AddAll(a.content, ms[1..], draws, a.next)
  {
  }

  /** Every file the loop adds is one the scan reports in the final text. */
  lemma {:induction false} AddAllRecognises(c: string, ms: seq<Path>, draws: nat -> nat, next: nat)
    requires forall i :: 0 <= i < |ms| ==> |ms[i]| > 0 && Addable(Leaf(ms[i]))
    requires Kept(c, FileRefMarker)
    requires AddAll(c, ms, draws, next).Success?
    ensures forall i :: 0 <= i < |ms| ==> Kept(AddAll(c, ms, draws, next).value.content, RefToken(Leaf(ms[i])))
    decreases |ms|
  {
    if |ms| > 0 {
      AddAllCons(c, ms, draws, next);
      var a := AddFile(c, ms[0], draws, next).value;
      var rest := AddAll(a.content, ms[1..], draws, a.next);
      var r := rest.value.content;
      var fn := Leaf(ms[0]);
      AddFileRecognised(c, ms[0], draws, next);
      assert Kept(r, RefToken(fn)) by {
        AddableShape(fn);
        assert KeepsTokens(a.content, r);
      }
      AddAllRecognises(a.content, ms[1..], draws, a.next);
      KeptCons(r, ms);
    }
  }

  lemma KeptCons(r: string, ms: seq<Path>)
    requires |ms| > 0 && forall i :: 0 <= i < |ms| ==> |ms[i]| > 0
    requires Kept(r, RefToken(Leaf(ms[0])))
    requires forall i :: 0 <= i < |ms[1..]| ==> Kept(r, RefToken(Leaf(ms[1..][i])))
    ensures forall i :: 0 <= i < |ms| ==> Kept(r, RefToken(Leaf(ms[i])))
  {
    forall i | 0 <= i < |ms| ensures Kept(r, RefToken(Leaf(ms[i]))) {
      if i > 0 {
        assert ms[i] == ms[1..][i - 1];
      }
    }
  }

  /** A file that was present or was added is reported by the scan of the new text. */
  lemma FileSeen(original: string, written: string, files: seq<Path>, missing: seq<Path>, p: Path)
    requires forall i :: 0 <= i < |files| ==> |files[i]| > 0
    requires missing == Missing(files, original) && p in files && Addable(Leaf(p))
    requires forall i :: 0 <= i < |missing| ==> |missing[i]| > 0
    requires RefsGuarded(original) && KeepsTokens(original, written)
    requires forall i :: 0 <= i < |missing| ==> Kept(written, RefToken(Leaf(missing[i])))
    ensures Leaf(p) in FileRefNames(written)
  {
    var fn := Leaf(p);
    AddableShape(fn);
    if p in missing {
      var i :| 0 <= i < |missing| && missing[i] == p;
    } else {
      var q :| FileRefAt(original, q, fn);
      assert GuardedAt(original, q, RefToken(fn));
      assert Kept(written, RefToken(fn));
    }
    KeptRecognised(written, fn);
  }

  /** Nothing is missing once every file's name is reported. */
  lemma NoneMissing(files: seq<Path>, c: string)
    requires forall i :: 0 <= i < |files| ==> |files[i]| > 0
    requires forall p :: p in files ==> Leaf(p) in FileRefNames(c)
    ensures Missing(files, c) == []
  {
    assert forall i :: 0 <= i < |files| ==> files[i] in files;
  }

  /** The text the loop writes, when the run writes. */
  lemma AppliedText(flags: Flags, original: string, files: seq<Path>, draws: nat -> nat)
    requires forall i :: 0 <= i < |files| ==> |files[i]| > 0
    requires Decide(flags, original, files, draws).outcome.Applied?
    ensures var missing := Missing(files, original);
      && (forall i :: 0 <= i < |missing| ==> |missing[i]| > 0 && missing[i] in files)
      && AddAll(original, missing, draws, 0).Success?
      && Decide(flags, original, files, draws).effects[1].text == AddAll(original, missing, draws, 0).value.content
  {
    var missing := Missing(files, original);
    assert forall i :: 0 <= i < |missing| ==> missing[i] in missing;
  }

  /**
   * Running the script again after it wrote the project file finds nothing
   * missing, provided the file had its file-reference section, its existing
   * file-reference entries each follow an id, and every found file name is addable.
   */
  lemma SyncIdempotent(flags: Flags, original: string, files: seq<Path>, draws: nat -> nat,
                       flags2: Flags, draws2: nat -> nat)
    requires forall i :: 0 <= i < |files| ==> |files[i]| > 0
    requires Decide(flags, original, files, draws).outcome.Applied?
    requires Kept(original, FileRefMarker) && RefsGuarded(original)
    requires forall p :: p in files ==> Addable(Leaf(p))
    ensures Decide(flags2, Decide(flags, original, files, draws).effects[1].text, files, draws2) == Run(InSync, [])
  {
    AppliedText(flags, original, files, draws);
    var missing := Missing(files, original);
    var written := AddAll(original, missing, draws, 0).value.content;
    AddAllRecognises(original, missing, draws, 0);
    WrittenInSync(original, written, files, missing);
  }

  /** The written text leaves none of the found files missing. */
  lemma WrittenInSync(original: string, written: string, files: seq<Path>, missing: seq<Path>)
    requires forall i :: 0 <= i < |files| ==> |files[i]| > 0
    requires forall p :: p in files ==> Addable(Leaf(p))
    requires missing == Missing(files, original)
    requires forall i :: 0 <= i < |missing| ==> |missing[i]| > 0
    requires RefsGuarded(original) && KeepsTokens(original, written)
    requires forall i :: 0 <= i < |missing| ==> Kept(written, RefToken(Leaf(missing[i])))
    ensures Missing(files, written) == []
  {
    forall p | p in files ensures Leaf(p) in FileRefNames(written) {
      FileSeen(original, written, files, missing, p);
    }
    NoneMissing(files, written);
  }
}

=== FILE: text.dfy ===
/** Python string primitives the scripts rely on, over `string` (= `seq<char>`). */
module Text {
  import opened Wrappers

  /** Python's `str.isspace()`, which is also what `\s` and `str.strip()` use. */
  predicate IsSpace(c: char) {
    || ('\t' <= c <= '\r') || ('\U{1C}' <= c <= ' ') || c == '\U{85}' || c == '\U{A0}'
    || c == '\U{1680}' || ('\U{2000}' <= c <= '\U{200A}') || c == '\U{2028}' || c == '\U{2029}'
    || c == '\U{202F}' || c == '\U{205F}' || c == '\U{3000}'
  }

  /** `\d` restricted to ASCII digits. */
  predicate IsDigit(c: char) { '0' <= c <= '9' }

  /** `\w` restricted to ASCII letters, digits and underscore. */
  predicate IsWordChar(c: char) {
    ('a' <= c <= 'z') || ('A' <= c <= 'Z') || IsDigit(c) || c == '_'
  }

  predicate AllSpace(s: string) { forall i :: 0 <= i < |s| ==> IsSpace(s[i]) }
  predicate AllDigits(s: string) { forall i :: 0 <= i < |s| ==> IsDigit(s[i]) }
  predicate AllWordChars(s: string) { forall i :: 0 <= i < |s| ==> IsWordChar(s[i]) }
  predicate Free(s: string, c: char) { forall i :: 0 <= i < |s| ==> s[i] != c }

  predicate StartsWith(s: string, p: string) { |p| <= |s| && s[..|p|] == p }
  predicate EndsWith(s: string, p: string) { |p| <= |s| && s[|s| - |p|..] == p }

  /** `p` occurs in `s` starting at index `i`. */
  predicate OccursAt(s: string, i: int, p: string) {
    0 <= i && i + |p| <= |s| && s[i..i + |p|] == p
  }

  /** Python's `s.find(p, from)`, with `None` for -1. */
  function FindFrom(s: string, p: string, from: nat): (r: Option<nat>)
    decreases |s| - from
    ensures r.Some? ==> from <= r.value && OccursAt(s, r.value, p)
    ensures r.Some? ==> forall j :: from <= j < r.value ==> !OccursAt(s, j, p)
    ensures r.None? ==> forall j :: from <= j ==> !OccursAt(s, j, p)
  {
    if from + |p| > |s| then None
    else if s[from..from + |p|] == p then Some(from)
    else FindFrom(s, p, from + 1)
  }

  /** Python's `s.find(c, from)` for a single character. */
  function FindChar(s: string, c: char, from: nat): (r: Option<nat>)
    decreases |s| - from
    ensures r.Some? ==> from <= r.value < |s| && s[r.value] == c
    ensures r.Some? ==> forall j :: from <= j < r.value ==> s[j] != c
    ensures r.None? ==> forall j :: from <= j < |s| ==> s[j] != c
  {
    if from >= |s| then None else if s[from] == c then Some(from) else FindChar(s, c, from + 1)
  }

  /** An occurrence gives every character of the pattern at its offset. */
  lemma OccursChars(s: string, i: int, p: string)
    requires OccursAt(s, i, p)
    ensures forall k :: 0 <= k < |p| ==> s[i + k] == p[k]
  {
    forall k | 0 <= k < |p| ensures s[i + k] == p[k] {
      assert s[i..i + |p|][k] == s[i + k];
    }
  }

  /** Python's `s.find(p)`. */
  function Find(s: string, p: string): (r: Option<nat>)
    ensures r.Some? ==> OccursAt(s, r.value, p) && forall j :: 0 <= j < r.value ==> !OccursAt(s, j, p)
    ensures r.None? <==> forall j :: !OccursAt(s, j, p)
  {
    FindFrom(s, p, 0)
  }

  /** Python's `p in s` for strings. */
  predicate Contains(s: string, p: string) { Find(s, p).Some? }

  /** `s[:k] + t + s[k:]` for an index inside the string. */
  function Insert(s: string, k: nat, t: string): string
    requires k <= |s|
  {
    s[..k] + t + s[k..]
  }

  /** Python's `s[:pos] + t + s[pos:]`: a position past the end clamps to the end. */
  function SliceInsert(s: string, pos: nat, t: string): (r: string)
    ensures pos <= |s| ==> r == Insert(s, pos, t)
    ensures pos > |s| ==> r == s + t
  {
    if pos <= |s| then Insert(s, pos, t) else s + t
  }

  /** Number of leading whitespace characters. */
  function LeadingSpaces(s: string): (n: nat)
    ensures n <= |s|
    ensures forall i :: 0 <= i < n ==> IsSpace(s[i])
    ensures n < |s| ==> !IsSpace(s[n])
  {
    if |s| == 0 || !IsSpace(s[0]) then 0 else 1 + LeadingSpaces(s[1..])
  }

  /** Index where the trailing whitespace of `s` starts. */
  function TrailingStart(s: string): (n: nat)
    ensures n <= |s|
    ensures forall i :: n <= i < |s| ==> IsSpace(s[i])
    ensures n > 0 ==> !IsSpace(s[n - 1])
  {
    if |s| == 0 || !IsSpace(s[|s| - 1]) then |s| else TrailingStart(s[..|s| - 1])
  }

  /** Python's `s.strip()`. */
  function Strip(s: string): (r: string)
    ensures |r| == 0 || (!IsSpace(r[0]) && !IsSpace(r[|r| - 1]))
  {
    var t := s[LeadingSpaces(s)..];
    t[..TrailingStart(t)]
  }

  /** A string with no whitespace at either end is its own strip. */
  lemma StripTrimmed(m: string)
    requires |m| == 0 || (!IsSpace(m[0]) && !IsSpace(m[|m| - 1]))
    ensures Strip(m) == m
  {
    StripPadded("", m, "");
    assert "" + m + "" == m;
  }

  /** A string padded with whitespace strips back to its unpadded middle. */
  lemma StripPadded(a: string, m: string, b: string)
    requires AllSpace(a) && AllSpace(b)
    requires |m| == 0 || (!IsSpace(m[0]) && !IsSpace(m[|m| - 1]))
    ensures Strip(a + m + b) == m
  {
    var s := a + m + b;
    var n := LeadingSpaces(s);
    if |m| == 0 {
      assert forall i :: 0 <= i < |s| ==> IsSpace(s[i]);
      assert n == |s|;
    } else {
      assert s[|a|] == m[0];
      assert forall i :: 0 <= i < |a| ==> IsSpace(s[i]);
      assert n == |a|;
      var t := s[n..];
      assert t == m + b;
      assert t[|m| - 1] == m[|m| - 1];
      assert forall i :: |m| <= i < |t| ==> IsSpace(t[i]);
      assert TrailingStart(t) == |m|;
      assert t[..|m|] == m;
    }
  }

  /** Python's `s.strip(c)` for one character `c`. */
  function StripChar(s: string, c: char): (r: string)
    ensures |r| <= |s|
    ensures |r| == 0 || (r[0] != c && r[|r| - 1] != c)
    ensures Free(s, c) ==> r == s
  {
    if |s| > 0 && s[0] == c then StripChar(s[1..], c)
    else if |s| > 0 && s[|s| - 1] == c then StripChar(s[..|s| - 1], c)
    else s
  }

  /** Python's `s.split(c)` for a one-character separator. */
  function Split(s: string, c: char): (r: seq<string>)
    ensures |r| > 0
    ensures forall i :: 0 <= i < |r| ==> Free(r[i], c)
  {
    match FindFrom(s, [c], 0)
    case None =>
      NotFoundFree(s, c, 0, |s|);
      [s]
    case Some(i) =>
      NotFoundFree(s, c, 0, i);
      [s[..i]] + Split(s[i + 1..], c)
  }

  /** No one-character occurrence of `c` in a range means `c` is absent from it. */
  lemma NotFoundFree(s: string, c: char, lo: nat, hi: nat)
    requires lo <= hi <= |s|
    requires forall j :: lo <= j < hi ==> !OccursAt(s, j, [c])
    ensures Free(s[lo..hi], c)
  {
    forall j | lo <= j < hi ensures s[j] != c {
      assert !OccursAt(s, j, [c]);
      assert s[j..j + 1] == [s[j]];
    }
  }

  /** Python's `sep.join(xs)`. */
  function Join(xs: seq<string>, sep: string): string {
    if |xs| == 0 then ""
    else if |xs| == 1 then xs[0]
    else xs[0] + sep + Join(xs[1..], sep)
  }

  /** Splitting at a character and joining with it gives the string back. */
  lemma {:induction false} JoinSplit(s: string, c: char)
    ensures Join(Split(s, c), [c]) == s
    decreases |s|
  {
    match FindFrom(s, [c], 0)
    case None =>
    case Some(i) =>
      JoinSplit(s[i + 1..], c);
      assert s[i..i + 1] == [c];
      assert s == s[..i] + [c] + s[i + 1..];
      var rest := Split(s[i + 1..], c);
      assert Split(s, c) == [s[..i]] + rest;
      assert (Split(s, c))[1..] == rest;
  }

  /** A first `c` found by the search is the leftmost `c`. */
  lemma FindFromChar(s: string, c: char, i: nat)
    requires i < |s| && s[i] == c && forall j :: 0 <= j < i ==> s[j] != c
    ensures FindFrom(s, [c], 0) == Some(i)
  {
    assert OccursAt(s, i, [c]);
    forall j | 0 <= j < i ensures !OccursAt(s, j, [c]) {
      assert s[j..j + 1] == [s[j]];
    }
  }

  /** Text without `c` splits into itself alone. */
  lemma SplitFree(t: string, c: char)
    requires Free(t, c)
    ensures Split(t, c) == [t]
  {
    forall j | 0 <= j ensures !OccursAt(t, j, [c]) {
      if j < |t| {
        assert t[j..j + 1] == [t[j]];
      }
    }
  }

  /** Appending `c` and a `c`-free tail adds the tail as one more piece. */
  lemma {:induction false} SplitAppend(s: string, c: char, t: string)
    requires Free(t, c)
    ensures Split(s + [c] + t, c) == Split(s, c) + [t]
    decreases |s|
  {
    var u := s + [c] + t;
    SplitFree(t, c);
    match FindFrom(s, [c], 0)
    case None =>
      forall j | 0 <= j < |s| ensures u[j] != c {
        assert !OccursAt(s, j, [c]);
        assert s[j..j + 1] == [s[j]];
      }
      FindFromChar(u, c, |s|);
      assert u[..|s|] == s && u[|s| + 1..] == t;
    case Some(i) =>
      forall j | 0 <= j < i ensures u[j] != c {
        assert !OccursAt(s, j, [c]);
        assert s[j..j + 1] == [s[j]];
      }
      assert s[i..i + 1] == [c];
      FindFromChar(u, c, i);
      assert u[..i] == s[..i] && u[i + 1..] == s[i + 1..] + [c] + t;
      SplitAppend(s[i + 1..], c, t);
  }

  /** The first piece of `s.split(c)` is the text before the first `c`. */
  lemma SplitHead(s: string, c: char)
    ensures var h := Split(s, c)[0];
      StartsWith(s, h) && (|h| < |s| ==> s[|h|] == c)
  {
    match FindFrom(s, [c], 0)
    case None =>
    case Some(i) =>
      assert s[i..i + 1] == [c];
  }

  /** The first piece of a split is the text before the first `c`, when there is one. */
  lemma SplitFirst(s: string, c: char)
    ensures FindChar(s, c, 0).Some? <==> FindFrom(s, [c], 0).Some?
    ensures FindChar(s, c, 0).Some? ==> Split(s, c)[0] == s[..FindChar(s, c, 0).value]
  {
    match FindChar(s, c, 0)
    case Some(i) =>
      FindFromChar(s, c, i);
    case None =>
  }

  /** The first word of text that does not start with whitespace is a prefix of it ending at whitespace or the end. */
  lemma FirstWord(s: string)
    requires |s| == 0 || !IsSpace(s[0])
    ensures |SplitWhitespace(s)| > 0 <==> |s| > 0
    ensures |s| > 0 ==> var w := SplitWhitespace(s)[0];
      StartsWith(s, w) && (|w| == |s| || IsSpace(s[|w|]))
  {
  }

  /** Python's `str.split()` with no argument: the maximal non-whitespace runs. */
  function SplitWhitespace(s: string): (r: seq<string>)
    ensures forall i :: 0 <= i < |r| ==> |r[i]| > 0 && forall j :: 0 <= j < |r[i]| ==> !IsSpace(r[i][j])
    decreases |s|
  {
    var t := s[LeadingSpaces(s)..];
    if |t| == 0 then []
    else
      var n := WordLength(t);
      [t[..n]] + SplitWhitespace(t[n..])
  }

  /** Length of the non-whitespace run at the start of `s`. */
  function WordLength(s: string): (n: nat)
    ensures n <= |s|
    ensures forall j :: 0 <= j < n ==> !IsSpace(s[j])
    ensures n < |s| ==> IsSpace(s[n])
    ensures |s| > 0 && !IsSpace(s[0]) ==> n > 0
  {
    if |s| == 0 || IsSpace(s[0]) then 0 else 1 + WordLength(s[1..])
  }

  /** One character of ASCII case mapping: to upper case when `up`, else to lower case. */
  function CaseChar(c: char, up: bool): char {
    if up && 'a' <= c <= 'z' then c - 'a' + 'A'
    else if !up && 'A' <= c <= 'Z' then c - 'A' + 'a'
    else c
  }

  /** ASCII case mapping of a whole string, character by character. */
  function CaseMap(s: string, up: bool): (r: string)
    ensures |r| == |s|
    ensures forall i :: 0 <= i < |s| ==> r[i] == CaseChar(s[i], up)
  {
    seq(|s|, i requires 0 <= i < |s| => CaseChar(s[i], up))
  }

  /** Python's `str.lower()` on ASCII text. */
  function Lower(s: string): string { CaseMap(s, false) }

  /** Python's `str.upper()` on ASCII text. */
  function Upper(s: string): string { CaseMap(s, true) }

  /** Python's `s.replace(p, t)` for a non-empty pattern: left-to-right, non-overlapping. */
  function ReplaceAll(s: string, p: string, t: string): (r: string)
    requires |p| > 0
    ensures (forall j :: !OccursAt(s, j, p)) ==> r == s
    decreases |s|
  {
    match Find(s, p)
    case None => s
    case Some(i) => s[..i] + t + ReplaceAll(s[i + |p|..], p, t)
  }

  /**
   * The least `i` in `[from, n)` with `P(i)`: where a regular-expression search
   * that starts at `from` first succeeds.
   */
  function First(P: nat -> bool, from: nat, n: nat): (r: Option<nat>)
    decreases n - from
    ensures r.Some? ==> from <= r.value < n && P(r.value)
    ensures r.Some? ==> forall j :: from <= j < r.value ==> !P(j)
    ensures r.None? ==> forall j :: from <= j < n ==> !P(j)
  {
    if from >= n then None else if P(from) then Some(from) else First(P, from + 1, n)
  }

  /** The greatest `i` in `[lo, hi)` with `P(i)`: what a greedy repetition settles on. */
  function Last(P: nat -> bool, lo: nat, hi: nat): (r: Option<nat>)
    decreases hi
    ensures r.Some? ==> lo <= r.value < hi && P(r.value)
    ensures r.Some? ==> forall j :: r.value < j < hi ==> !P(j)
    ensures r.None? ==> forall j :: lo <= j < hi ==> !P(j)
  {
    if hi <= lo then None else if P(hi - 1) then Some(hi - 1) else Last(P, lo, hi - 1)
  }

  /** An occurrence inside a window of `s` is an occurrence in that slice. */
  lemma OccursSlice(s: string, lo: nat, hi: nat, i: int, p: string)
    requires lo <= i && i + |p| <= hi <= |s| && OccursAt(s, i, p)
    ensures OccursAt(s[lo..hi], i - lo, p)
  {
    forall k | 0 <= k < |p| ensures s[lo..hi][i - lo..i - lo + |p|][k] == p[k] {
      assert s[lo..hi][i - lo..i - lo + |p|][k] == s[i + k] == s[i..i + |p|][k];
    }
  }

  /** An occurrence inside an occurrence of `p` is an occurrence in `s`. */
  lemma OccursInside(s: string, i: int, p: string, o: int, t: string)
    requires OccursAt(s, i, p) && OccursAt(p, o, t)
    ensures OccursAt(s, i + o, t)
  {
    forall k | 0 <= k < |t| ensures s[i + o..i + o + |t|][k] == t[k] {
      assert s[i + o..i + o + |t|][k] == s[i + o + k] == s[i..i + |p|][o + k] == p[o + k];
      assert p[o + k] == p[o..o + |t|][k];
    }
  }

  /** Occurrences in a suffix of `s` are the occurrences in `s` from its start on. */
  lemma OccursSuffix(s: string, lo: nat, o: int, t: string)
    requires lo <= |s|
    ensures OccursAt(s[lo..], o, t) <==> o >= 0 && OccursAt(s, lo + o, t)
  {
    if o >= 0 && lo + o + |t| <= |s| {
      assert s[lo..][o..o + |t|] == s[lo + o..lo + o + |t|];
    }
  }

  /** An occurrence of `a + b` is one of `a` followed by one of `b`. */
  lemma OccursSplit(s: string, i: int, a: string, b: string)
    requires OccursAt(s, i, a + b)
    ensures OccursAt(s, i, a) && OccursAt(s, i + |a|, b)
  {
    assert s[i..i + |a|] == (a + b)[..|a|];
    assert s[i + |a|..i + |a| + |b|] == (a + b)[|a|..];
  }

  /** An occurrence of `a` followed by one of `b` is one of `a + b`. */
  lemma OccursJoin(s: string, i: int, a: string, b: string)
    requires OccursAt(s, i, a) && OccursAt(s, i + |a|, b)
    ensures OccursAt(s, i, a + b)
  {
    assert s[i..i + |a + b|] == s[i..i + |a|] + s[i + |a|..i + |a| + |b|];
  }

  /** The first `c` at or after `from` is what `FindChar` returns. */
  lemma FindCharFirst(s: string, c: char, from: nat, e: nat)
    requires from <= e < |s| && s[e] == c
    requires forall j :: from <= j < e ==> s[j] != c
    ensures FindChar(s, c, from) == Some(e)
  {
  }

  /** An occurrence survives text appended after it. */
  lemma OccursBefore(x: string, b: string, o: int, t: string)
    requires OccursAt(x, o, t)
    ensures OccursAt(x + b, o, t)
  {
    assert (x + b)[o..o + |t|] == x[o..o + |t|];
  }

  /** An occurrence survives text prepended before it, shifted by its length. */
  lemma OccursAfter(a: string, x: string, o: int, t: string)
    requires OccursAt(x, o, t)
    ensures OccursAt(a + x, |a| + o, t)
  {
    assert (a + x)[|a| + o..|a| + o + |t|] == x[o..o + |t|];
  }

  /** Each element of a joined list occurs in the joined text. */
  lemma {:induction false} JoinOccurs(xs: seq<string>, sep: string, i: nat)
    requires i < |xs|
    ensures exists o :: OccursAt(Join(xs, sep), o, xs[i])
  {
    if |xs| == 1 {
      assert OccursAt(Join(xs, sep), 0, xs[0]);
    } else if i == 0 {
      assert OccursAt(xs[0], 0, xs[0]);
      OccursBefore(xs[0], sep + Join(xs[1..], sep), 0, xs[0]);
      assert xs[0] + (sep + Join(xs[1..], sep)) == Join(xs, sep);
    } else {
      JoinOccurs(xs[1..], sep, i - 1);
      var o :| OccursAt(Join(xs[1..], sep), o, xs[1..][i - 1]);
      OccursAfter(xs[0] + sep, Join(xs[1..], sep), o, xs[i]);
      assert xs[0] + sep + Join(xs[1..], sep) == Join(xs, sep);
    }
  }
}

=== FILE: uuids.dfy ===
/**
 * `generate_uuid()` as both pbxproj scripts define it: `uuid.uuid4().hex[:24].upper()`.
 * The 128 random bits that `uuid4` draws are a parameter.
 */
module Uuids {
  import opened Text
  import opened HexText

  /** An Xcode object id as the scripts write them: 24 upper-case hex digits. */
  predicate IsId(s: string) {
    |s| == 24 && forall i :: 0 <= i < |s| ==> IsUpperHexDigit(s[i])
  }

  /**
   * `uuid.uuid4().hex` for the drawn bits `random` (taken modulo 2^128): the 32 digits
   * of the draw with the version nibble (the 13th digit) set to 4 and the two top
   * variant bits (of the 17th digit) set to `10`.
   */
  function Uuid4Hex(random: nat): (h: string)
    ensures |h| == 32 && AllHexDigits(h)
  {
    var d := FixedHex(random, 32);
    var variant := 8 + DigitValue(d[16]) % 4;
    d[..12] + "4" + d[13..16] + [DigitChar(variant)] + d[17..]
  }

  /**
   * `generate_uuid()`: the first 24 of the 32 hex digits of the uuid, upper-cased.
   * Its 13th digit is the version 4, its 17th carries the variant, and every other
   * digit is the drawn one.
   */
  function GenerateUuid(random: nat): (id: string)
    ensures IsId(id)
    ensures id[12] == '4'
    ensures id[16] in {'8', '9', 'A', 'B'}
    ensures forall i :: 0 <= i < 24 && i != 12 && i != 16 ==>
      id[i] == Upper(FixedHex(random, 32))[i]
  {
    Upper(Uuid4Hex(random)[..24])
  }
}

=== FILE: wrappers.dfy ===
/** Failure-carrying result types shared by every module of the model. */
module Wrappers {

  /** An optional value: Python's `None` or a value. */
  datatype Option<+T> = None | Some(value: T) {
    predicate IsFailure() { None? }

    function PropagateFailure<U>(): Option<U>
      requires None?
    {
      None
    }

    function Extract(): T
      requires Some?
    {
      value
    }

    function GetOr(default: T): T {
      match this
      case Some(v) => v
      case None => default
    }
  }

  /** A value or the error a Python function would raise instead of returning. */
  datatype Result<+R, +E> = Success(value: R) | Failure(error: E) {
    predicate IsFailure() { Failure? }

    function PropagateFailure<U>(): Result<U, E>
      requires Failure?
    {
      Failure(error)
    }

    function Extract(): R
      requires Success?
    {
      value
    }
  }
}

=== FILE: xpc_contracts.dfy ===
/**
 * scripts/verify-xpc-contracts.py: reading the methods of a Swift protocol out of
 * its source text and out of a symbol graph, the hash of a method list, and the
 * verdict over every list found.  Finding the files, running `xcrun`, loading the
 * JSON and SHA-256 itself are inputs.
 */
module XpcContracts {
  import opened Wrappers
  import opened Text
  import opened Sorting
  import opened PbxGroups

  /** Where a method entry came from: the source parser, or a symbol graph with its precise identifier. */
  datatype Origin = Parsed | Graph(precise: string)

  /** One protocol method: its selector-style name and its declaration text. */
  datatype Method = Method(name: string, declaration: string, origin: Origin)

  function NameLe(): (Method, Method) -> bool {
    (a: Method, b: Method) => StrLe(a.name, b.name)
  }

  lemma NameLeTotal()
    ensures TotalPreorder(NameLe())
  {
    StrLeIsTotalPreorder();
    forall a: Method, b: Method ensures NameLe()(a, b) || NameLe()(b, a) {
      assert StrLeFn()(a.name, b.name) || StrLeFn()(b.name, a.name);
    }
    forall a: Method, b: Method, c: Method | NameLe()(a, b) && NameLe()(b, c) ensures NameLe()(a, c) {
      assert StrLeFn()(a.name, b.name) && StrLeFn()(b.name, c.name);
    }
  }

  /** `sorted(methods, key=lambda m: m['name'])`. */
  function ByName(ms: seq<Method>): (r: seq<Method>)
    ensures SortedBy(r, NameLe())
    ensures multiset(r) == multiset(ms)
  {
    NameLeTotal();
    SortBySorted(ms, NameLe());
    SortBy(ms, NameLe())
  }

  function Names(ms: seq<Method>): (r: seq<string>)
    ensures |r| == |ms| && forall i :: 0 <= i < |ms| ==> r[i] == ms[i].name
  {
    seq(|ms|, i requires 0 <= i < |ms| => ms[i].name)
  }

  // ---------------------------------------------------------------------------
  // parse_protocol_methods
  // ---------------------------------------------------------------------------

  /** The fields of one symbol-graph entry that the script reads. */
  datatype Symbol = Symbol(pathComponents: seq<string>, kind: Option<string>, title: string,
                           fragments: seq<string>, precise: string)

  /** A method declared under the protocol: the protocol is on its path and its kind is `swift.method`. */
  predicate Selected(sym: Symbol, protocol: string) {
    protocol in sym.pathComponents && sym.kind == Some("swift.method")
  }

  /** `''.join(xs)`. */
  function Concat(xs: seq<string>): string {
    if |xs| == 0 then "" else xs[0] + Concat(xs[1..])
  }

  function SymbolMethod(sym: Symbol): Method {
    Method(sym.title, Concat(sym.fragments), Graph(sym.precise))
  }

  /** The selected symbols' methods, in the graph's order. */
  function SelectedMethods(symbols: seq<Symbol>, protocol: string): (r: seq<Method>)
    ensures forall m :: m in r <==> exists i :: 0 <= i < |symbols| && Selected(symbols[i], protocol) && m == SymbolMethod(symbols[i])
  {
    if |symbols| == 0 then []
    else
      var rest := SelectedMethods(symbols[1..], protocol);
      assert forall i :: 0 <= i < |symbols| - 1 ==> symbols[1..][i] == symbols[i + 1];
      (if Selected(symbols[0], protocol) then [SymbolMethod(symbols[0])] else []) + rest
  }

  /** Two lists holding the same multiset hold the same members. */
  lemma SameMembers<T>(a: seq<T>, b: seq<T>)
    requires multiset(a) == multiset(b)
    ensures forall x :: x in a <==> x in b
  {
    forall x ensures x in a <==> x in b {
      assert x in a <==> x in multiset(a);
      assert x in b <==> x in multiset(b);
    }
  }

  /** `parse_protocol_methods`: exactly the protocol's methods, sorted by name. */
  function ParseProtocolMethods(symbols: seq<Symbol>, protocol: string): (r: seq<Method>)
    ensures SortedBy(r, NameLe())
    ensures multiset(r) == multiset(SelectedMethods(symbols, protocol))
    ensures forall m :: m in r <==> exists i :: 0 <= i < |symbols| && Selected(symbols[i], protocol) && m == SymbolMethod(symbols[i])
  {
    var sel := SelectedMethods(symbols, protocol);
    var r := ByName(sel);
    SameMembers(r, sel);
    r
  }

  // ---------------------------------------------------------------------------
  // compute_method_hash
  // ---------------------------------------------------------------------------

  /**
   * `compute_method_hash`: the first twelve characters of the digest of the names,
   * one per line.  `digest` stands for SHA-256 as a hex string.
   */
  function MethodHash(ms: seq<Method>, digest: string -> string): (h: string)
    ensures |h| <= 12 && StartsWith(digest(Join(Names(ms), "\n")), h)
  {
    var d := digest(Join(Names(ms), "\n"));
    d[..if |d| < 12 then |d| else 12]
  }

  /** Names in non-decreasing order. */
  predicate StrSorted(x: seq<string>) {
    forall i, j :: 0 <= i < j < |x| ==> StrLe(x[i], x[j])
  }

  /** Dropping an element keeps the others' multiset. */
  lemma RemoveAt<T>(s: seq<T>, j: nat)
    requires j < |s|
    ensures multiset(s[..j] + s[j + 1..]) == multiset(s) - multiset{s[j]}
  {
    assert s == s[..j] + [s[j]] + s[j + 1..];
    assert multiset(s) == multiset(s[..j]) + multiset{s[j]} + multiset(s[j + 1..]);
  }

  lemma TailMultiset<T>(s: seq<T>)
    requires |s| > 0
    ensures multiset(s[1..]) == multiset(s) - multiset{s[0]}
  {
    assert s == [s[0]] + s[1..];
  }

  /** The first of a sorted list is no greater than any of its members. */
  lemma SortedFirst(x: seq<string>, i: nat)
    requires StrSorted(x) && i < |x|
    ensures StrLe(x[0], x[i])
  {
    StrLeIsTotalPreorder();
    if i == 0 {
      assert StrLeFn()(x[0], x[0]);
    }
  }

  /** Two sorted lists with the same members start alike. */
  lemma SortedHead(x: seq<string>, y: seq<string>)
    requires StrSorted(x) && StrSorted(y) && multiset(x) == multiset(y) && |x| > 0
    ensures |y| > 0 && x[0] == y[0]
  {
    assert x[0] in multiset(y);
    assert |y| > 0;
    assert y[0] in multiset(x);
    var i :| 0 <= i < |x| && x[i] == y[0];
    var j :| 0 <= j < |y| && y[j] == x[0];
    SortedFirst(x, i);
    SortedFirst(y, j);
    StrLeAntisymmetric(x[0], y[0]);
  }

  lemma SortedTail(x: seq<string>)
    requires StrSorted(x) && |x| > 0
    ensures StrSorted(x[1..])
  {
    var t := x[1..];
    forall a, b | 0 <= a < b < |t| ensures StrLe(t[a], t[b]) {
      assert t[a] == x[a + 1] && t[b] == x[b + 1];
    }
  }

  /** Two lists sorted by name that hold the same names hold them in the same order. */
  lemma {:induction false} SortedStringsUnique(x: seq<string>, y: seq<string>)
    requires StrSorted(x) && StrSorted(y)
    requires multiset(x) == multiset(y)
    ensures x == y
  {
    if |x| > 0 {
      SortedHead(x, y);
      TailMultiset(x);
      TailMultiset(y);
      SortedTail(x);
      SortedTail(y);
      SortedStringsUnique(x[1..], y[1..]);
      assert x == [x[0]] + x[1..] && y == [y[0]] + y[1..];
    } else {
      assert |y| == |multiset(y)|;
    }
  }

  /** `f` applied to every element, in order. */
  function MapSeq<A, B>(s: seq<A>, f: A -> B): (r: seq<B>)
    ensures |r| == |s|
  {
    if |s| == 0 then [] else [f(s[0])] + MapSeq(s[1..], f)
  }

  lemma {:induction false} MapAppend<A, B>(x: seq<A>, y: seq<A>, f: A -> B)
    ensures MapSeq(x + y, f) == MapSeq(x, f) + MapSeq(y, f)
  {
    if |x| > 0 {
      assert (x + y)[1..] == x[1..] + y;
      MapAppend(x[1..], y, f);
    } else {
      assert x + y == y;
    }
  }

  /** Rearranging a list rearranges its images. */
  lemma {:induction false} PermutedMap<A, B>(a: seq<A>, b: seq<A>, f: A -> B)
    requires multiset(a) == multiset(b)
    ensures multiset(MapSeq(a, f)) == multiset(MapSeq(b, f))
    decreases |a|
  {
    if |a| > 0 {
      assert a[0] in multiset(b);
      var j :| 0 <= j < |b| && b[j] == a[0];
      var u, v := b[..j], b[j + 1..];
      assert b == u + ([b[j]] + v);
      RemoveAt(b, j);
      TailMultiset(a);
      PermutedMap(a[1..], u + v, f);
      MapAppend(u, [b[j]] + v, f);
      MapAppend(u, v, f);
      assert MapSeq([b[j]] + v, f) == [f(b[j])] + MapSeq(v, f);
      assert multiset(MapSeq(a, f)) == multiset{f(a[0])} + multiset(MapSeq(a[1..], f));
    } else {
      assert |b| == |multiset(b)|;
    }
  }

  lemma {:induction false} NamesMap(a: seq<Method>)
    ensures Names(a) == MapSeq(a, (m: Method) => m.name)
  {
    if |a| > 0 {
      NamesMap(a[1..]);
      assert Names(a) == [a[0].name] + Names(a[1..]);
    }
  }

  /** Rearranging methods rearranges their names. */
  lemma PermutedNames(a: seq<Method>, b: seq<Method>)
    requires multiset(a) == multiset(b)
    ensures multiset(Names(a)) == multiset(Names(b))
  {
    var f := (m: Method) => m.name;
    PermutedMap(a, b, f);
    NamesMap(a);
    NamesMap(b);
  }

  /** Methods sorted by name hash alike whenever they carry the same names, in whatever order they were declared. */
  lemma HashIgnoresOrder(a: seq<Method>, b: seq<Method>, digest: string -> string)
    requires SortedBy(a, NameLe()) && SortedBy(b, NameLe())
    requires multiset(Names(a)) == multiset(Names(b))
    ensures MethodHash(a, digest) == MethodHash(b, digest)
  {
    var x := Names(a);
    var y := Names(b);
    forall i, j | 0 <= i < j < |x| ensures StrLe(x[i], x[j]) {
      assert NameLe()(a[i], a[j]);
    }
    forall i, j | 0 <= i < j < |y| ensures StrLe(y[i], y[j]) {
      assert NameLe()(b[i], b[j]);
    }
    SortedStringsUnique(x, y);
  }

  /** Sorting a list by name keeps its hash once the names are known up to order. */
  lemma SortedHashIgnoresOrder(a: seq<Method>, b: seq<Method>, digest: string -> string)
    requires multiset(Names(a)) == multiset(Names(b))
    ensures MethodHash(ByName(a), digest) == MethodHash(ByName(b), digest)
  {
    PermutedNames(ByName(a), a);
    PermutedNames(ByName(b), b);
    HashIgnoresOrder(ByName(a), ByName(b), digest);
  }

  // ---------------------------------------------------------------------------
  // extract_methods_from_source: finding the protocol's body
  // ---------------------------------------------------------------------------

  /**
   * A protocol name as the script interpolates it into its patterns: a non-empty
   * run of word characters, so that it matches only itself.
   */
  predicate ProtocolName(name: string) { |name| > 0 && AllWordChars(name) }

  /**
   * `w1\s+w2\s+...\s+wn` read from `i`: where it ends.  Every word after the
   * first starts with a non-space character, so each whitespace run is taken whole.
   */
  function WordsAt(c: string, i: nat, ws: seq<string>): (r: Option<nat>)
    requires |ws| > 0
    decreases |ws|
    ensures r.Some? ==> i < r.value <= |c| || (|ws[0]| == 0 && i <= r.value <= |c|)
  {
    if !OccursAt(c, i, ws[0]) then None
    else if |ws| == 1 then Some(i + |ws[0]|)
    else
      var j := i + |ws[0]|;
      var k := SkipSpaces(c, j);
      if k == j then None else WordsAt(c, k, ws[1..])
  }

  /** The whole header pattern from `i`: the words, optional whitespace, then `{`; where the match ends. */
  function HeaderEndAt(c: string, i: nat, ws: seq<string>): (r: Option<nat>)
    requires |ws| > 0
    ensures r.Some? ==> 0 < r.value <= |c| && c[r.value - 1] == '{'
  {
    match WordsAt(c, i, ws)
    case None => None
    case Some(j) =>
      var k := SkipSpaces(c, j);
      if k < |c| && c[k] == '{' then Some(k + 1) else None
  }

  function HeaderStarts(c: string, ws: seq<string>): nat -> bool
    requires |ws| > 0
  {
    (i: nat) => HeaderEndAt(c, i, ws).Some?
  }

  /** `re.search` for a header: where its leftmost match ends. */
  function SearchHeader(c: string, ws: seq<string>): (r: Option<nat>)
    requires |ws| > 0
    ensures r.Some? ==> 0 < r.value <= |c| && c[r.value - 1] == '{'
  {
    match First(HeaderStarts(c, ws), 0, |c|)
    case None => None
    case Some(i) => HeaderEndAt(c, i, ws)
  }

  /** The search finds the match of the leftmost start, and finds nothing only when no start matches. */
  lemma SearchHeaderLeftmost(c: string, ws: seq<string>)
    requires |ws| > 0
    ensures var r := SearchHeader(c, ws);
      && (r.Some? ==> exists i :: (0 <= i < |c| && HeaderEndAt(c, i, ws) == r
            && forall j :: 0 <= j < i ==> HeaderEndAt(c, j, ws).None?))
      && (r.None? ==> forall i :: 0 <= i < |c| ==> HeaderEndAt(c, i, ws).None?)
  {
    assert forall i: nat :: HeaderStarts(c, ws)(i) == HeaderEndAt(c, i, ws).Some?;
  }

  /** `@objc\s+public\s+protocol\s+NAME\s*\{`. */
  function ObjcHeader(name: string): seq<string> { ["@objc", "public", "protocol", name] }

  /** `protocol\s+NAME\s*\{`. */
  function PlainHeader(name: string): seq<string> { ["protocol", name] }

  /** Where the protocol's body starts: just after the `{` of the `@objc public` header, or else of the plain one. */
  function BodyStart(c: string, name: string): (r: Option<nat>)
    ensures r.Some? ==> 0 < r.value <= |c| && c[r.value - 1] == '{'
  {
    match SearchHeader(c, ObjcHeader(name))
    case Some(e) => Some(e)
    case None => SearchHeader(c, PlainHeader(name))
  }

  /**
   * A body is found exactly when one of the two headers matches somewhere, and
   * an `@objc public` header anywhere wins over a plain one earlier in the text.
   */
  lemma BodyStartFound(c: string, name: string)
    ensures BodyStart(c, name).Some? <==> exists i :: (0 <= i < |c|
      && (HeaderEndAt(c, i, ObjcHeader(name)).Some? || HeaderEndAt(c, i, PlainHeader(name)).Some?))
    ensures (exists i :: 0 <= i < |c| && HeaderEndAt(c, i, ObjcHeader(name)).Some?) ==>
      BodyStart(c, name) == SearchHeader(c, ObjcHeader(name))
  {
    SearchHeaderLeftmost(c, ObjcHeader(name));
    SearchHeaderLeftmost(c, PlainHeader(name));
  }

  /** A `}` at `k` that balances the braces read since `start`. */
  predicate BodyCloses(c: string, start: nat, k: nat) {
    start <= k < |c| && c[k] == '}' && Depth(c[start..k]) == 0
  }

  /** Reading one more character in front adds its brace count. */
  lemma {:induction false} DepthFront(x: char, t: string)
    ensures Depth([x] + t) == BraceDelta(x) + Depth(t)
    decreases |t|
  {
    if |t| > 0 {
      var n := |t| - 1;
      assert ([x] + t)[..|t|] == [x] + t[..n];
      DepthFront(x, t[..n]);
    }
  }

  /** The count started at the `{` closes one past where the count started after it balances. */
  lemma ClosesShift(c: string, start: nat)
    requires 0 < start <= |c| && c[start - 1] == '{'
    ensures forall k :: start <= k < |c| ==> (ClosesAt(c, start - 1, k + 1) <==> BodyCloses(c, start, k))
    ensures !ClosesAt(c, start - 1, start)
  {
    forall k | start <= k < |c| ensures ClosesAt(c, start - 1, k + 1) <==> BodyCloses(c, start, k) {
      assert c[start - 1..k + 1] == [c[start - 1]] + c[start..k + 1];
      DepthFront(c[start - 1], c[start..k + 1]);
      DepthStep(c, start, k);
    }
  }

  /**
   * The brace-counting loop, started at 1 just after the header's `{`: the first
   * `}` that brings the count to 0, or `start` itself when none does.
   */
  function BodyEnd(c: string, start: nat): (end: nat)
    requires 0 < start <= |c| && c[start - 1] == '{'
    ensures start <= end <= |c|
    ensures (exists k :: BodyCloses(c, start, k)) ==>
      BodyCloses(c, start, end) && forall k :: start <= k < end ==> !BodyCloses(c, start, k)
    ensures (forall k :: !BodyCloses(c, start, k)) ==> end == start
  {
    ClosesShift(c, start);
    match BlockEnd(c, start - 1)
    case None => start
    case Some(j) => j - 1
  }

  /** `protocol_body`. */
  function ProtocolBody(c: string, start: nat): string
    requires 0 < start <= |c| && c[start - 1] == '{'
  {
    c[start..BodyEnd(c, start)]
  }

  // ---------------------------------------------------------------------------
  // extract_methods_from_source: the `func` declarations
  // ---------------------------------------------------------------------------

  /** The end of the run of word characters from `i`. */
  function WordEnd(c: string, i: nat): (j: nat)
    requires i <= |c|
    decreases |c| - i
    ensures i <= j <= |c|
    ensures forall k :: i <= k < j ==> IsWordChar(c[k])
    ensures j < |c| ==> !IsWordChar(c[j])
  {
    if i == |c| || !IsWordChar(c[i]) then i else WordEnd(c, i + 1)
  }

  /** The keyword `func` at `i`, character by character. */
  predicate KeywordAt(b: string, i: nat) {
    i + 4 <= |b| && b[i] == 'f' && b[i + 1] == 'u' && b[i + 2] == 'n' && b[i + 3] == 'c'
  }

  /** One match of `func\s+(\w+)\s*\(([^)]*)\)`: the name, the parameter text, and where it starts and ends. */
  datatype FuncMatch = FuncMatch(start: nat, name: string, params: string, end: nat)

  /**
   * The pattern matched from `i`.  The name is the whole word run, since a shorter
   * one would leave a word character where whitespace or `(` is needed, and the
   * parameter text runs to the first `)`.
   */
  function FuncAt(b: string, i: nat): (r: Option<FuncMatch>)
    ensures r.Some? ==> r.value.start == i && i < r.value.end <= |b|
    ensures r.Some? ==> |r.value.name| > 0 && AllWordChars(r.value.name) && Free(r.value.params, ')')
  {
    if !KeywordAt(b, i) then None
    else
      var j := SkipSpaces(b, i + 4);
      var n := WordEnd(b, j);
      if j == i + 4 || n == j then None else FuncParams(b, i, j, n)
  }

  /** The rest of the pattern once the name `b[j..n]` is read: optional whitespace, `(`, anything but `)`, then `)`. */
  function FuncParams(b: string, i: nat, j: nat, n: nat): (r: Option<FuncMatch>)
    requires i < j <= n <= |b|
    ensures r.Some? ==> r.value.start == i && n < r.value.end <= |b|
    ensures r.Some? ==> r.value.name == b[j..n] && Free(r.value.params, ')')
  {
    var k := SkipSpaces(b, n);
    if k == |b| || b[k] != '(' then None
    else
      match FindChar(b, ')', k + 1)
      case None => None
      case Some(e) =>
        var ps := b[k + 1..e];
        assert Free(ps, ')') by {
          forall q | 0 <= q < |ps| ensures ps[q] != ')' {
            assert ps[q] == b[k + 1 + q];
          }
        }
        Some(FuncMatch(i, b[j..n], ps, e + 1))
  }

  /** The pattern tried at every position of `b`. */
  function FuncMatcher(b: string): nat -> Option<FuncMatch> {
    (i: nat) => if i < |b| then FuncAt(b, i) else None
  }

  /** A matcher whose matches start where they are tried and end after that, within `n`. */
  ghost predicate Advances(at: nat -> Option<FuncMatch>, n: nat) {
    forall i: nat :: at(i).Some? ==> at(i).value.start == i < at(i).value.end <= n
  }

  lemma FuncMatcherAdvances(b: string)
    ensures Advances(FuncMatcher(b), |b|)
  {
    forall i: nat | FuncMatcher(b)(i).Some? ensures FuncMatcher(b)(i).value.start == i < FuncMatcher(b)(i).value.end <= |b| {
      assert FuncMatcher(b)(i) == FuncAt(b, i);
    }
  }

  /** `re.search` from `from`: the leftmost match starting there or later. */
  function NextMatch(at: nat -> Option<FuncMatch>, n: nat, from: nat): (r: Option<FuncMatch>)
    requires from <= n && Advances(at, n)
    decreases n - from
    ensures r.Some? ==> from <= r.value.start < r.value.end <= n
  {
    if from == n then None
    else
      match at(from)
      case Some(m) => Some(m)
      case None => NextMatch(at, n, from + 1)
  }

  /** What `NextMatch` finds is a match at its start. */
  lemma {:induction false} NextMatchSound(at: nat -> Option<FuncMatch>, n: nat, from: nat)
    requires from <= n && Advances(at, n)
    decreases n - from
    ensures NextMatch(at, n, from).Some? ==> at(NextMatch(at, n, from).value.start) == NextMatch(at, n, from)
  {
    if from < n && at(from).None? {
      NextMatchSound(at, n, from + 1);
    }
  }

  /** A match at `p` means `NextMatch` finds one no later than `p`: the one it finds is the leftmost. */
  lemma {:induction false} NextMatchFinds(at: nat -> Option<FuncMatch>, n: nat, from: nat, p: nat)
    requires from <= p < n && Advances(at, n) && at(p).Some?
    decreases p - from
    ensures NextMatch(at, n, from).Some? && NextMatch(at, n, from).value.start <= p
  {
    if at(from).None? {
      NextMatchFinds(at, n, from + 1, p);
    }
  }

  /** `re.finditer`: the leftmost match from `from`, then the leftmost from its end, and so on. */
  function Scan(at: nat -> Option<FuncMatch>, n: nat, from: nat): (r: seq<FuncMatch>)
    requires from <= n && Advances(at, n)
    decreases n - from
    ensures forall k :: 0 <= k < |r| ==> from <= r[k].start < r[k].end <= n
    ensures forall k, l :: 0 <= k < l < |r| ==> r[k].end <= r[l].start
  {
    match NextMatch(at, n, from)
    case None => []
    case Some(m) => [m] + Scan(at, n, m.end)
  }

  /** Every reported match is a match at its start. */
  lemma {:induction false} ScanSound(at: nat -> Option<FuncMatch>, n: nat, from: nat, k: nat)
    requires from <= n && Advances(at, n) && k < |Scan(at, n, from)|
    ensures at(Scan(at, n, from)[k].start) == Some(Scan(at, n, from)[k])
    decreases n - from
  {
    NextMatchSound(at, n, from);
    var m := NextMatch(at, n, from).value;
    var rest := Scan(at, n, m.end);
    assert Scan(at, n, from) == [m] + rest;
    if k > 0 {
      ScanSound(at, n, m.end, k - 1);
      assert Scan(at, n, from)[k] == rest[k - 1];
    }
  }

  /** The reported match around a place where the pattern matches. */
  lemma {:induction false} ScanCovering(at: nat -> Option<FuncMatch>, n: nat, from: nat, p: nat) returns (k: nat)
    requires from <= p < n && Advances(at, n) && at(p).Some?
    ensures k < |Scan(at, n, from)| && Scan(at, n, from)[k].start <= p < Scan(at, n, from)[k].end
    decreases n - from
  {
    NextMatchFinds(at, n, from, p);
    var m := NextMatch(at, n, from).value;
    var r := Scan(at, n, from);
    var rest := Scan(at, n, m.end);
    assert r == [m] + rest;
    if p >= m.end {
      var k' := ScanCovering(at, n, m.end, p);
      assert r[k' + 1] == rest[k'];
      k := k' + 1;
    } else {
      assert r[0] == m;
      k := 0;
    }
  }

  /** The `func` declarations of a body, as `re.finditer` reports them. */
  function Funcs(b: string, from: nat): (r: seq<FuncMatch>)
    requires from <= |b|
    ensures forall k :: 0 <= k < |r| ==> from <= r[k].start < r[k].end <= |b|
    ensures forall k, l :: 0 <= k < l < |r| ==> r[k].end <= r[l].start
  {
    FuncMatcherAdvances(b);
    Scan(FuncMatcher(b), |b|, from)
  }

  /** Every reported declaration is a match of the pattern at its start. */
  lemma FuncsSound(b: string, from: nat, k: nat)
    requires from <= |b| && k < |Funcs(b, from)|
    ensures FuncAt(b, Funcs(b, from)[k].start) == Some(Funcs(b, from)[k])
  {
    FuncMatcherAdvances(b);
    ScanSound(FuncMatcher(b), |b|, from, k);
  }

  /** Every place the pattern matches lies within a declaration that `finditer` reports. */
  lemma FuncsCover(b: string, from: nat, p: nat)
    requires from <= p < |b| && FuncAt(b, p).Some?
    ensures exists k :: 0 <= k < |Funcs(b, from)| && Funcs(b, from)[k].start <= p < Funcs(b, from)[k].end
  {
    FuncMatcherAdvances(b);
    var at := FuncMatcher(b);
    assert at(p) == FuncAt(b, p);
    var k := ScanCovering(at, |b|, from, p);
    var r := Funcs(b, from);
    assert r == Scan(at, |b|, from);
    assert 0 <= k < |r| && r[k].start <= p < r[k].end;
  }

  // ---------------------------------------------------------------------------
  // extract_methods_from_source: parameters and selectors
  // ---------------------------------------------------------------------------

  /** How the parameter scan's nesting count moves: up on `<([`, down on `>)]`. */
  function ParamDelta(ch: char): int {
    if ch == '<' || ch == '(' || ch == '[' then 1
    else if ch == '>' || ch == ')' || ch == ']' then -1
    else 0
  }

  /** The nesting count after reading `t`. */
  function ParamDepth(t: string): int {
    if |t| == 0 then 0 else ParamDepth(t[..|t| - 1]) + ParamDelta(t[|t| - 1])
  }

  /** A comma at `k` read at nesting count zero. */
  predicate TopComma(s: string, k: nat) { k < |s| && s[k] == ',' && ParamDepth(s[..k]) == 0 }

  function TopCommas(s: string): nat -> bool { (k: nat) => TopComma(s, k) }

  /**
   * `s[..hi]` cut at every position `cut` marks, pieces not yet stripped: the
   * last marked position splits off the last piece.
   */
  function PiecesBy(s: string, cut: nat -> bool, hi: nat): (r: seq<string>)
    requires hi <= |s|
    decreases hi
    ensures |r| > 0
  {
    match Last(cut, 0, hi)
    case None => [s[..hi]]
    case Some(k) => PiecesBy(s, cut, k) + [s[k + 1..hi]]
  }

  lemma TopCommaAt(s: string, k: nat)
    ensures TopCommas(s)(k) <==> k < |s| && s[k] == ',' && ParamDepth(s[..k]) == 0
  {
  }

  /** The parameter text cut at every top-level comma, pieces not yet stripped. */
  function Pieces(s: string): (r: seq<string>)
    ensures |r| > 0
  {
    PiecesBy(s, TopCommas(s), |s|)
  }

  /** The `params` list: the pieces stripped, except that a blank last piece is left out. */
  function TopLevelParams(s: string): seq<string> {
    var ps := Pieces(s);
    var n := |ps| - 1;
    seq(n, i requires 0 <= i < n => Strip(ps[i])) + (if Strip(ps[n]) != "" then [Strip(ps[n])] else [])
  }

  /** A marked position opens a new, empty piece. */
  lemma PiecesByCut(s: string, cut: nat -> bool, hi: nat)
    requires hi < |s| && cut(hi)
    ensures PiecesBy(s, cut, hi + 1) == PiecesBy(s, cut, hi) + [""]
  {
    assert Last(cut, 0, hi + 1) == Some(hi);
    assert s[hi + 1..hi + 1] == "";
  }

  /** An unmarked position extends the only piece when nothing before it is marked. */
  lemma PiecesByWhole(s: string, cut: nat -> bool, hi: nat)
    requires hi < |s| && !cut(hi) && Last(cut, 0, hi).None?
    ensures PiecesBy(s, cut, hi) == [s[..hi]]
    ensures PiecesBy(s, cut, hi + 1) == [s[..hi] + [s[hi]]]
  {
    assert s[..hi + 1] == s[..hi] + [s[hi]];
  }

  /** An unmarked position extends the last piece, which starts after the last mark `k`. */
  lemma PiecesByExtend(s: string, cut: nat -> bool, hi: nat, k: nat)
    requires hi < |s| && !cut(hi) && Last(cut, 0, hi) == Some(k)
    ensures PiecesBy(s, cut, hi) == PiecesBy(s, cut, k) + [s[k + 1..hi]]
    ensures PiecesBy(s, cut, hi + 1) == PiecesBy(s, cut, k) + [s[k + 1..hi] + [s[hi]]]
  {
    assert s[k + 1..hi + 1] == s[k + 1..hi] + [s[hi]];
  }

  /** One more character either opens a new piece (a marked position) or extends the last one. */
  lemma PiecesBySnoc(s: string, cut: nat -> bool, hi: nat)
    requires hi < |s|
    ensures var p := PiecesBy(s, cut, hi); var n := |p| - 1;
      PiecesBy(s, cut, hi + 1) == if cut(hi) then p + [""] else p[..n] + [p[n] + [s[hi]]]
  {
    if cut(hi) {
      PiecesByCut(s, cut, hi);
    } else {
      match Last(cut, 0, hi)
      case None =>
        PiecesByWhole(s, cut, hi);
      case Some(k) =>
        PiecesByExtend(s, cut, hi, k);
        var p := PiecesBy(s, cut, hi);
        assert p[..|p| - 1] == PiecesBy(s, cut, k);
    }
  }

  lemma {:induction false} JoinSnoc(xs: seq<string>, y: string, sep: string)
    requires |xs| > 0
    ensures Join(xs + [y], sep) == Join(xs, sep) + sep + y
  {
    if |xs| == 1 {
      assert (xs + [y])[1..] == [y];
    } else {
      assert (xs + [y])[1..] == xs[1..] + [y];
      JoinSnoc(xs[1..], y, sep);
    }
  }

  /** Pieces cut only at commas, put back together with commas, give the text they were cut from. */
  lemma {:induction false} PiecesByJoin(s: string, cut: nat -> bool, hi: nat)
    requires hi <= |s|
    requires forall k: nat :: k < hi && cut(k) ==> s[k] == ','
    ensures Join(PiecesBy(s, cut, hi), ",") == s[..hi]
    decreases hi
  {
    match Last(cut, 0, hi)
    case None =>
    case Some(k) =>
      PiecesByJoin(s, cut, k);
      JoinSnoc(PiecesBy(s, cut, k), s[k + 1..hi], ",");
      assert s[..hi] == s[..k] + "," + s[k + 1..hi];
  }

  /** The pieces put back together with commas give the parameter text. */
  lemma PiecesJoin(s: string)
    ensures Join(Pieces(s), ",") == s
  {
    PiecesByJoin(s, TopCommas(s), |s|);
    assert s[..|s|] == s;
  }

  /** The loop's state: the finished pieces stripped, and the last piece still being read. */
  predicate SplitState(ps: seq<string>, params: seq<string>, current: string) {
    && |params| + 1 == |ps|
    && (forall j :: 0 <= j < |params| ==> params[j] == Strip(ps[j]))
    && current == ps[|params|]
  }

  /** The loop's variables: the nesting count, the finished parameters, and the text of the current one. */
  datatype ParamScan = ParamScan(depth: int, params: seq<string>, current: string)

  /** One pass of the loop body: count the character, then either close the current parameter at a top-level comma or extend it. */
  function SplitChar(st: ParamScan, ch: char): ParamScan {
    var d := st.depth + ParamDelta(ch);
    if ch == ',' && d == 0 then ParamScan(d, st.params + [Strip(st.current)], "")
    else ParamScan(d, st.params, st.current + [ch])
  }

  /** The loop's variables after reading `t`. */
  function SplitRead(t: string): ParamScan {
    if |t| == 0 then ParamScan(0, [], "") else SplitChar(SplitRead(t[..|t| - 1]), t[|t| - 1])
  }

  /**
   * One pass of the loop body keeps the loop's state in step with the pieces:
   * a top-level comma closes the current parameter and opens an empty piece,
   * any other character extends the current parameter and the last piece alike.
   */
  lemma SplitStep(ps: seq<string>, next: seq<string>, st: ParamScan, ch: char)
    requires SplitState(ps, st.params, st.current)
    requires var n := |ps| - 1;
      next == if ch == ',' && st.depth + ParamDelta(ch) == 0 then ps + [""] else ps[..n] + [ps[n] + [ch]]
    ensures SplitState(next, SplitChar(st, ch).params, SplitChar(st, ch).current)
  {
  }

  /** After reading `s[..i]`, the loop holds its nesting count, the stripped pieces before the last, and the last piece. */
  lemma {:induction false} SplitReadPieces(s: string, i: nat)
    requires i <= |s|
    ensures SplitRead(s[..i]).depth == ParamDepth(s[..i])
    ensures SplitState(PiecesBy(s, TopCommas(s), i), SplitRead(s[..i]).params, SplitRead(s[..i]).current)
  {
    if i > 0 {
      var t := s[..i - 1];
      var ch := s[i - 1];
      SplitReadPieces(s, i - 1);
      var st := SplitRead(t);
      assert SplitRead(s[..i]) == SplitChar(st, ch) && ParamDepth(s[..i]) == ParamDepth(t) + ParamDelta(ch) by {
        assert s[..i][..i - 1] == t;
      }
      var cut := TopCommas(s);
      assert cut(i - 1) == (ch == ',' && st.depth + ParamDelta(ch) == 0) by {
        TopCommaAt(s, i - 1);
      }
      PiecesBySnoc(s, cut, i - 1);
      SplitStep(PiecesBy(s, cut, i - 1), PiecesBy(s, cut, i), st, ch);
    }
  }

  /** The last piece is kept only when it is not blank. */
  lemma SplitDone(s: string, params: seq<string>, current: string)
    requires SplitState(Pieces(s), params, current)
    ensures (if Strip(current) != "" then params + [Strip(current)] else params) == TopLevelParams(s)
  {
  }

  /** The character loop that splits the parameter text at top-level commas. */
  method SplitParams(s: string) returns (params: seq<string>)
    ensures params == TopLevelParams(s)
  {
    var depth := 0;
    var current := "";
    params := [];
    var i := 0;
    while i < |s|
      invariant 0 <= i <= |s|
      invariant ParamScan(depth, params, current) == SplitRead(s[..i])
    {
      var ch := s[i];
      assert s[..i + 1][..i] == s[..i];
      if ch == '<' || ch == '(' || ch == '[' {
        depth := depth + 1;
      } else if ch == '>' || ch == ')' || ch == ']' {
        depth := depth - 1;
      }
      if ch == ',' && depth == 0 {
        params := params + [Strip(current)];
        current := "";
      } else {
        current := current + [ch];
      }
      i := i + 1;
    }
    SplitReadPieces(s, i);
    assert s[..i] == s;
    SplitDone(s, params, current);
    if Strip(current) != "" {
      params := params + [Strip(current)];
    }
  }

  /** A selector label: non-blank, no whitespace, ending in `:`. */
  predicate Label(p: string) {
    |p| > 1 && p[|p| - 1] == ':' && forall i :: 0 <= i < |p| ==> !IsSpace(p[i])
  }

  /** What a parameter adds to the selector: its first word before the first `:`, then `:`. */
  function SelectorPart(param: string): (r: Option<string>)
    ensures r.Some? ==> Label(r.value)
    ensures r.Some? <==> Contains(Strip(param), ":") && |SplitWhitespace(Strip(Split(Strip(param), ':')[0]))| > 0
  {
    var p := Strip(param);
    if !Contains(p, ":") then None
    else
      var words := SplitWhitespace(Strip(Split(p, ':')[0]));
      if |words| >= 1 then Some(words[0] + ":") else None
  }

  /**
   * A parameter contributes a label exactly when it has a `:` with non-blank text
   * before the first one, and the label is the first whitespace-separated word of
   * that text, then `:`.
   */
  lemma SelectorPartWord(param: string)
    ensures var p := Strip(param); var colon := FindChar(p, ':', 0);
      SelectorPart(param).Some? <==> colon.Some? && Strip(p[..colon.value]) != ""
    ensures SelectorPart(param).Some? ==> var p := Strip(param); var b := Strip(p[..FindChar(p, ':', 0).value]);
      var w := SelectorPart(param).value[..|SelectorPart(param).value| - 1];
      |w| > 0 && StartsWith(b, w) && (|w| == |b| || IsSpace(b[|w|]))
  {
    var p := Strip(param);
    SplitFirst(p, ':');
    if Contains(p, ":") {
      var b := Strip(Split(p, ':')[0]);
      var words := SplitWhitespace(b);
      FirstWord(b);
      if |words| >= 1 {
        assert (words[0] + ":")[..|words[0]|] == words[0];
      }
    }
  }

  /** `selector_parts`: the labels of the parameters that have one, in order. */
  function SelectorParts(params: seq<string>): (r: seq<string>)
    ensures |r| <= |params|
    ensures forall i :: 0 <= i < |r| ==> Label(r[i])
  {
    if |params| == 0 then []
    else PartOf(params[0]) + SelectorParts(params[1..])
  }

  /** The label a parameter contributes, as a list of zero or one. */
  function PartOf(param: string): seq<string> {
    match SelectorPart(param) case Some(p) => [p] case None => []
  }

  /**
   * `SelectorParts` follows the script's loop: one more parameter appends its
   * label, if it has one, after the labels of the parameters before it.
   */
  lemma {:induction false} SelectorPartsSnoc(params: seq<string>, param: string)
    ensures SelectorParts(params + [param]) == SelectorParts(params) + PartOf(param)
  {
    if |params| == 0 {
      assert SelectorParts([param]) == PartOf(param) + SelectorParts([]);
    } else {
      assert (params + [param])[1..] == params[1..] + [param];
      SelectorPartsSnoc(params[1..], param);
    }
  }

  /** `name(part1 part2 ...)` with every space removed, or the bare name when there are no parts. */
  function Selector(name: string, parts: seq<string>): string {
    if |parts| > 0 then ReplaceAll(name + "(" + Join(parts, " ") + ")", " ", "") else name
  }

  /** The reference for removing spaces: every character but `' '`, in order. */
  function DropSpaces(s: string): string {
    if |s| == 0 then "" else (if s[0] == ' ' then "" else [s[0]]) + DropSpaces(s[1..])
  }

  lemma {:induction false} DropSpacesAppend(a: string, b: string)
    ensures DropSpaces(a + b) == DropSpaces(a) + DropSpaces(b)
  {
    if |a| == 0 {
      assert a + b == b;
    } else {
      assert (a + b)[0] == a[0] && (a + b)[1..] == a[1..] + b;
      DropSpacesAppend(a[1..], b);
    }
  }

  lemma {:induction false} DropSpacesFree(s: string)
    requires Free(s, ' ')
    ensures DropSpaces(s) == s
  {
    if |s| > 0 {
      DropSpacesFree(s[1..]);
    }
  }

  /** `s.replace(' ', '')` removes exactly the spaces. */
  lemma {:induction false} ReplaceSpaces(s: string)
    ensures ReplaceAll(s, " ", "") == DropSpaces(s)
    decreases |s|
  {
    match Find(s, " ")
    case None =>
      forall j | 0 <= j < |s| ensures s[j] != ' ' {
        assert s[j..j + 1] == [s[j]] && !OccursAt(s, j, " ");
      }
      DropSpacesFree(s);
    case Some(i) =>
      forall j | 0 <= j < i ensures s[j] != ' ' {
        assert s[j..j + 1] == [s[j]] && !OccursAt(s, j, " ");
      }
      assert s[i..i + 1] == " ";
      assert s == s[..i] + [' '] + s[i + 1..];
      DropSpacesAppend(s[..i] + [' '], s[i + 1..]);
      DropSpacesAppend(s[..i], [' ']);
      DropSpacesFree(s[..i]);
      ReplaceSpaces(s[i + 1..]);
  }

  lemma {:induction false} DropSpacesJoin(parts: seq<string>)
    requires forall i :: 0 <= i < |parts| ==> Free(parts[i], ' ')
    ensures DropSpaces(Join(parts, " ")) == Concat(parts)
  {
    if |parts| == 1 {
      DropSpacesFree(parts[0]);
      assert Concat(parts) == parts[0] + Concat([]);
    } else if |parts| > 1 {
      DropSpacesJoin(parts[1..]);
      DropSpacesAppend(parts[0] + " ", Join(parts[1..], " "));
      DropSpacesAppend(parts[0], " ");
      DropSpacesFree(parts[0]);
    }
  }

  lemma LabelFree(p: string)
    requires Label(p)
    ensures Free(p, ' ')
  {
    forall j | 0 <= j < |p| ensures p[j] != ' ' {
      assert !IsSpace(p[j]);
    }
  }

  /** Removing spaces from `name(mid)` leaves the name and parentheses alone. */
  lemma DropSpacesWrapped(name: string, mid: string)
    requires Free(name, ' ')
    ensures DropSpaces(name + "(" + mid + ")") == name + "(" + DropSpaces(mid) + ")"
  {
    DropSpacesAppend(name + "(" + mid, ")");
    DropSpacesAppend(name + "(", mid);
    DropSpacesAppend(name, "(");
    DropSpacesFree(name);
    DropSpacesFree("(");
    DropSpacesFree(")");
  }

  /**
   * With a word-character name and labels, the canonical selector is the name with
   * the labels run together in parentheses: `transcribe(audioPath:modelId:)`.
   */
  lemma SelectorShape(name: string, parts: seq<string>)
    requires AllWordChars(name)
    requires forall i :: 0 <= i < |parts| ==> Label(parts[i])
    ensures Selector(name, parts) == if |parts| == 0 then name else name + "(" + Concat(parts) + ")"
  {
    if |parts| > 0 {
      ReplaceSpaces(name + "(" + Join(parts, " ") + ")");
      forall i | 0 <= i < |name| ensures name[i] != ' ' {
        assert IsWordChar(name[i]);
      }
      forall i | 0 <= i < |parts| ensures Free(parts[i], ' ') {
        LabelFree(parts[i]);
      }
      DropSpacesJoin(parts);
      DropSpacesWrapped(name, Join(parts, " "));
    }
  }

  /** The stripped line of the body around a match: from after the last newline before it to the first newline after it. */
  function LineAround(b: string, start: nat, end: nat): string
    requires start <= end <= |b|
  {
    var ls := match Last((k: nat) => k < |b| && b[k] == '\n', 0, start) case None => 0 case Some(k) => k + 1;
    var le := match FindChar(b, '\n', end) case None => |b| case Some(k) => k;
    Strip(b[ls..le])
  }

  /** The parameter list of a match: split only when the text is not blank. */
  function MatchParams(m: FuncMatch): seq<string> {
    if Strip(m.params) != "" then TopLevelParams(m.params) else []
  }

  /** The method entry for one match. */
  function MatchMethod(b: string, m: FuncMatch): Method
    requires m.start <= m.end <= |b|
  {
    Method(Selector(m.name, SelectorParts(MatchParams(m))), LineAround(b, m.start, m.end), Parsed)
  }

  /** The entries for every `func` match of a protocol body, in text order. */
  function ParsedMethods(b: string): (r: seq<Method>)
    ensures |r| == |Funcs(b, 0)|
    ensures forall k :: 0 <= k < |r| ==> r[k] == MatchMethod(b, Funcs(b, 0)[k])
  {
    var fs := Funcs(b, 0);
    seq(|fs|, k requires 0 <= k < |fs| => MatchMethod(b, fs[k]))
  }

  /** Each parsed method is named `f(label:...)`, or just `f`, after the `func` it comes from. */
  lemma ParsedNames(b: string, k: nat)
    requires k < |Funcs(b, 0)|
    ensures var m := Funcs(b, 0)[k]; var parts := SelectorParts(MatchParams(m));
      ParsedMethods(b)[k].name == if |parts| == 0 then m.name else m.name + "(" + Concat(parts) + ")"
  {
    var m := Funcs(b, 0)[k];
    FuncsSound(b, 0, k);
    SelectorShape(m.name, SelectorParts(MatchParams(m)));
  }

  /** `extract_methods_from_source` on the file's text: the body's methods sorted by name, or none without a header. */
  function ExtractMethodsFromSource(content: string, protocol: string): (r: seq<Method>)
    requires ProtocolName(protocol)
    ensures BodyStart(content, protocol).None? ==> r == []
    ensures BodyStart(content, protocol).Some? ==>
      multiset(r) == multiset(ParsedMethods(ProtocolBody(content, BodyStart(content, protocol).value)))
    ensures SortedBy(r, NameLe())
  {
    match BodyStart(content, protocol)
    case None => []
    case Some(start) => ByName(ParsedMethods(ProtocolBody(content, start)))
  }

  // ---------------------------------------------------------------------------
  // main(): merging and the verdict
  // ---------------------------------------------------------------------------

  const Protocol: string := "TalkieEngineProtocol"

  /** The modules whose symbol graphs are extracted, in order. */
  const GraphModules: seq<string> := ["TalkieKit", "TalkieEngine"]

  /** A file the usage scan reported as defining the protocol: its repository-relative path and text. */
  datatype Definition = Definition(path: string, content: string)

  /** The short name of a definition: its file name with `.swift` removed. */
  function ShortName(path: string): string {
    var parts := Split(path, '/');
    ReplaceAll(parts[|parts| - 1], ".swift", "")
  }

  function DefinedMethods(d: Definition): seq<Method> {
    assert ProtocolName(Protocol);
    ExtractMethodsFromSource(d.content, Protocol)
  }

  /** What one definition gave: its short name and the methods read from its text. */
  function Extracted(d: Definition): (string, seq<Method>) {
    (ShortName(d.path), DefinedMethods(d))
  }

  function ExtractedAll(defs: seq<Definition>): (r: seq<(string, seq<Method>)>)
    ensures |r| == |defs| && forall i :: 0 <= i < |defs| ==> r[i] == Extracted(defs[i])
  {
    seq(|defs|, i requires 0 <= i < |defs| => Extracted(defs[i]))
  }

  /** An entry that gave methods and is not overridden by a later one with the same short name. */
  ghost predicate Prevails(found: seq<(string, seq<Method>)>, i: nat) {
    i < |found| && found[i].1 != []
    && forall j :: i < j < |found| && found[j].0 == found[i].0 ==> found[j].1 == []
  }

  /**
   * `source_methods`: each definition that gave methods, under its short name; of
   * two with the same short name the later one is kept.
   */
  function SourceMethods(found: seq<(string, seq<Method>)>): (r: map<string, seq<Method>>)
    ensures forall k :: k in r ==> r[k] != []
  {
    if |found| == 0 then map[]
    else
      var n := |found| - 1;
      if found[n].1 != [] then SourceMethods(found[..n])[found[n].0 := found[n].1] else SourceMethods(found[..n])
  }

  /** The keys are the short names of the definitions that gave methods. */
  lemma {:induction false} SourceKeys(found: seq<(string, seq<Method>)>, k: string)
    ensures k in SourceMethods(found) <==> exists i :: 0 <= i < |found| && found[i].0 == k && found[i].1 != []
  {
    if |found| > 0 {
      var n := |found| - 1;
      var pre := found[..n];
      SourceKeys(pre, k);
      if k in SourceMethods(pre) {
        var i :| 0 <= i < n && pre[i].0 == k && pre[i].1 != [];
        assert found[i] == pre[i];
      }
      if exists i :: 0 <= i < |found| && found[i].0 == k && found[i].1 != [] {
        var i :| 0 <= i < |found| && found[i].0 == k && found[i].1 != [];
        if i < n {
          assert pre[i] == found[i];
        }
      }
    }
  }

  /** Each short name maps to the list of the last definition under it that gave methods. */
  lemma {:induction false} SourcePrevails(found: seq<(string, seq<Method>)>, i: nat)
    requires Prevails(found, i)
    ensures found[i].0 in SourceMethods(found) && SourceMethods(found)[found[i].0] == found[i].1
  {
    var n := |found| - 1;
    if i < n {
      var pre := found[..n];
      assert pre[i] == found[i];
      forall j | i < j < n ensures pre[j] == found[j] { }
      assert Prevails(pre, i);
      SourcePrevails(pre, i);
    }
  }

  /** Definitions that give no methods give an empty map. */
  lemma {:induction false} NoSourceMethods(found: seq<(string, seq<Method>)>)
    requires forall i :: 0 <= i < |found| ==> found[i].1 == []
    ensures SourceMethods(found) == map[]
  {
    if |found| > 0 {
      var n := |found| - 1;
      forall i | 0 <= i < n ensures found[..n][i].1 == [] {
        assert found[..n][i] == found[i];
      }
      NoSourceMethods(found[..n]);
    }
  }

  /** `protocol_methods`: for each module whose graph was extracted, its protocol methods, if any; nothing without build products. */
  function GraphMethods(derivedFound: bool, extract: string -> Option<seq<Symbol>>): (r: map<string, seq<Method>>)
    ensures forall k :: k in r <==> (derivedFound && k in GraphModules && extract(k).Some?
      && ParseProtocolMethods(extract(k).value, Protocol) != [])
    ensures forall k :: k in r ==> r[k] == ParseProtocolMethods(extract(k).value, Protocol)
  {
    if !derivedFound then map[]
    else
      map k | k in GraphModules && extract(k).Some? && ParseProtocolMethods(extract(k).value, Protocol) != []
        :: ParseProtocolMethods(extract(k).value, Protocol)
  }

  /** `all_methods`: the source lists, with the symbol-graph lists taking precedence under a shared key. */
  function Merge(source: map<string, seq<Method>>, graph: map<string, seq<Method>>): (all: map<string, seq<Method>>)
    ensures all.Keys == source.Keys + graph.Keys
    ensures forall k :: k in graph ==> all[k] == graph[k]
    ensures forall k :: k in source && k !in graph ==> all[k] == source[k]
  {
    source + graph
  }

  /** All lists hash alike. */
  ghost predicate Agree(all: map<string, seq<Method>>, digest: string -> string) {
    forall a, b :: a in all && b in all ==> MethodHash(all[a], digest) == MethodHash(all[b], digest)
  }

  lemma SingletonSame<T>(s: set<T>, x: T, y: T)
    requires |s| == 1 && x in s && y in s
    ensures x == y
  {
    assert |s - {x}| == 0;
    assert s - {x} == {};
  }

  /** One distinct hash exactly when all lists hash alike. */
  lemma HashesAgree(all: map<string, seq<Method>>, digest: string -> string)
    requires |all| >= 1
    ensures |set k | k in all :: MethodHash(all[k], digest)| == 1 <==> Agree(all, digest)
  {
    var hashes := set k | k in all :: MethodHash(all[k], digest);
    var k0 :| k0 in all;
    var h0 := MethodHash(all[k0], digest);
    if Agree(all, digest) {
      assert hashes == {h0};
    }
    if |hashes| == 1 {
      forall a, b | a in all && b in all ensures MethodHash(all[a], digest) == MethodHash(all[b], digest) {
        SingletonSame(hashes, MethodHash(all[a], digest), MethodHash(all[b], digest));
      }
    }
  }

  /**
   * The exit status of the verification: 0 when there is exactly one list, or
   * several whose hashes are all equal; 1 on a mismatch or when nothing was found.
   */
  function Verdict(all: map<string, seq<Method>>, digest: string -> string): (code: int)
    ensures code == 0 || code == 1
    ensures code == 0 <==> |all| >= 1 && Agree(all, digest)
  {
    if |all| >= 2 then
      HashesAgree(all, digest);
      if |set k | k in all :: MethodHash(all[k], digest)| == 1 then 0 else 1
    else if |all| == 1 then
      assert |all.Keys| == 1;
      assert forall a, b :: a in all && b in all ==> a == b by {
        forall a, b | a in all && b in all ensures a == b {
          SingletonSame(all.Keys, a, b);
        }
      }
      0
    else 1
  }

  /** Lists sorted by name that declare the same selectors, in any order, pass. */
  lemma SameSelectorsPass(all: map<string, seq<Method>>, digest: string -> string)
    requires |all| >= 1
    requires forall k :: k in all ==> SortedBy(all[k], NameLe())
    requires forall a, b :: a in all && b in all ==> multiset(Names(all[a])) == multiset(Names(all[b]))
    ensures Verdict(all, digest) == 0
  {
    forall a, b | a in all && b in all ensures MethodHash(all[a], digest) == MethodHash(all[b], digest) {
      HashIgnoresOrder(all[a], all[b], digest);
    }
  }

  /** `main()`: the exit status, given the build products' presence, the graph extraction and the protocol's definitions. */
  function RunVerify(derivedFound: bool, extract: string -> Option<seq<Symbol>>, defs: seq<Definition>,
                     digest: string -> string): (code: int)
    ensures code == 0 || code == 1
    ensures var all := Merge(SourceMethods(ExtractedAll(defs)), GraphMethods(derivedFound, extract));
      code == 0 <==> |all| >= 1 && Agree(all, digest)
    ensures !derivedFound && (forall i :: 0 <= i < |defs| ==> DefinedMethods(defs[i]) == []) ==> code == 1
  {
    var all := Merge(SourceMethods(ExtractedAll(defs)), GraphMethods(derivedFound, extract));
    assert !derivedFound && (forall i :: 0 <= i < |defs| ==> DefinedMethods(defs[i]) == []) ==> all.Keys == {} by {
      if forall i :: 0 <= i < |defs| ==> DefinedMethods(defs[i]) == [] {
        NoSourceMethods(ExtractedAll(defs));
      }
    }
    Verdict(all, digest)
  }
}
